=== FILE: README.md ===
# Course enrollment engine — a Dafny model

This project models the core of a university course-enrollment service. Students enroll in courses that have a fixed capacity, a credit value and a weekly time slot. An enrollment is refused when:

- the student already holds an ACTIVE enrollment in the course;
- the student's credits would pass 18;
- the new slot overlaps a course the student already takes;
- the course is full.

The service offers four interchangeable enrollment strategies:

- **pessimistic:** row locks, retried up to three times;
- **optimistic:** version-checked saves, retried up to three times;
- **atomic:** a native insert plus a conditional seat increment, in one transaction;
- **separated:** reserve the seat in one transaction, validate in a second, and release the seat when validation fails.

All four share one cancellation routine. A timetable query, the paging rules of the read endpoints, the error-to-HTTP mapping and the start-up data seeder are also modelled. So are the load-test scripts that prepare requests and check the served timetable. Their JavaScript logic is modelled because their final assertion restates the domain rules.

How the model is built:

- **The database** is one immutable `Store`. It holds a course map, a student set, enrollment rows keyed by id, and the next id. Its invariant `Consistent` says three things:
  - each course's seat counter equals its number of ACTIVE rows;
  - the (student, course, status) key is unique;
  - the catalog is well formed.
- **A transaction** is a function from a store to `Tx`. The result is either `Commit(value, store)` or `Rollback(error)`, so every failure discards all writes of its transaction.
- **Locks, version checks and retries** are explicit inputs:
  - whether each lock is granted;
  - what other transactions commit while an attempt runs: between an optimistic attempt's read and its commit, or while a pessimistic attempt waits for a lock;
  - the outcome of each retry attempt.

  Every retry loop is a bounded loop over those outcomes. Each retry is a new transaction, so it reads the database as the other transactions left it.
- **Every strategy is related to one reference**, `RuleValidator.EnrollAllowed` and `RuleValidator.Enrolled`. Without interference it succeeds exactly when the rules allow the enrollment, and then leaves exactly the reference store.
- **The retry recovery catches every failure.** Spring Retry passes every exception that ends a retried call to the recoverer, retryable or not. The two retrying strategies declare @Recover handlers only for the lock or version failures they retry. Any other error therefore becomes Spring Retry's ExhaustedRetryException, with that error as its cause. The web layer answers that with 409 ENROLLMENT_CONCURRENCY_CONFLICT. So under those two strategies a full course, a duplicate or an unknown student also reaches the client as 409 (`Pessimistic.RecoveredFailuresAreConflicts`, `Optimistic.RecoveredFailuresAreConflicts`).
- **Two behaviours of the code that follow from its declared keys and updates** are stated as lemmas in `Lifecycle`:
  - the unique key includes the status, so a second cancellation of the same student and course, after a re-enrollment, fails with a data-integrity violation;
  - the conditional seat increment does not bump the course version, so a version-checked cancellation that read the course before it overwrites the increment.

Choices the code leaves open:

- the separated strategy's finalize phase calls a post-insert check that the rule validator does not declare; the model uses the validator's post-insert check, `validateAfterAtomicInsert`;
- the timetable lists courses ordered by course id, as the repository query orders them;
- the model orders the four strategy types as pessimistic, optimistic, atomic, separated; no result depends on that order.

The modules follow the source packages:

| area | modules |
|---|---|
| domain | `TimeSlots`, `Courses`, `Students`, `Enrollments` |
| persistence | `Store`, `SeatCounter`, `PersistenceSupport`, `Paging` |
| enrollment application | `RuleValidator`, `Cancellation`, `EnrollBody`, `Pessimistic`, `OptimisticExecutor`, `Optimistic`, `Atomic`, `SeparatedExecutor`, `Separated`, `Router`, `Orchestration`, `LegacyService` |
| timetable and formatting | `Timetable`, `ScheduleFormat` |
| web layer | `ExceptionHandler` |
| seeding | `SeedProperties`, `SeedGenerator` |
| load tests | `TimetableAssertion`, `ScheduleCheck`, `Shuffle`, `MultiSetup`, `SingleSetup` |
| shared helpers | `Common`, `Text`, `Sorting` |

All source paths below are relative to the repository root.

## Model

| member | source | states |
|---|---|---|
| TimeSlots.NewTimeSlot | src/main/java/me/gogradually/courseenrollmentsystem/domain/course/TimeSlot.java:31-38 | a slot is built exactly when both times are present and start is before end; it keeps the day and times; otherwise IllegalArgument |
| TimeSlots.OverlapsMeansCommonMinute | src/main/java/me/gogradually/courseenrollmentsystem/domain/course/TimeSlot.java:40-45 | for valid slots the half-open overlap test holds iff the days agree and some minute lies in both intervals |
| TimeSlots.DifferentDaysNeverOverlap | src/main/java/me/gogradually/courseenrollmentsystem/domain/course/TimeSlot.java:40-45 | slots on different days never overlap |
| TimeSlots.BackToBackDoNotOverlap | src/main/java/me/gogradually/courseenrollmentsystem/domain/course/TimeSlot.java:40-45 | a slot ending when another starts overlaps it in neither order |
| TimeSlots.OverlapsSymmetric | src/main/java/me/gogradually/courseenrollmentsystem/domain/course/TimeSlot.java:40-45 | overlap is symmetric |
| TimeSlots.TuesdayMorningSlotsOverlap | src/main/java/me/gogradually/courseenrollmentsystem/domain/course/TimeSlot.java:40-45 | Tuesday 9:00-11:00 overlaps Tuesday 10:00-12:00 |
| Courses.NewCourse | src/main/java/me/gogradually/courseenrollmentsystem/domain/course/Course.java:53-81 | construction succeeds iff credits > 0, capacity > 0 and 0 <= enrolled <= capacity; the result is well formed, keeps every argument and starts at version 0; otherwise IllegalArgument |
| Courses.IncreaseEnrollment | src/main/java/me/gogradually/courseenrollmentsystem/domain/course/Course.java:94-99 | succeeds iff a seat is free, adding exactly one and changing no other field; a full course gives CourseCapacityExceeded |
| Courses.DecreaseEnrollment | src/main/java/me/gogradually/courseenrollmentsystem/domain/course/Course.java:101-105 | a positive count drops by one, a zero count is left as it is; no other field changes |
| Courses.HasScheduleConflictWith | src/main/java/me/gogradually/courseenrollmentsystem/domain/course/Course.java:83-92 | a missing course is IllegalArgument; otherwise the answer is the overlap of the two slots, i.e. a shared minute on the same day |
| Courses.MutatorsPreserveWellFormed | src/main/java/me/gogradually/courseenrollmentsystem/domain/course/Course.java:94-105 | both mutators keep 0 <= enrolled <= capacity and positive credits and capacity |
| Courses.IncreaseThenDecreaseRestores | src/main/java/me/gogradually/courseenrollmentsystem/domain/course/Course.java:94-105 | a successful increase followed by a decrease gives back the original course |
| Courses.LastSeatThenFull | src/main/java/me/gogradually/courseenrollmentsystem/domain/course/Course.java:94-99 | 29 of 30 seats taken: the increase gives 30, a second one fails with CourseCapacityExceeded |
| Students.ValidateCreditLimit | src/main/java/me/gogradually/courseenrollmentsystem/domain/student/Student.java:52-56 | fails with CreditLimitExceeded iff current + requested exceeds 18 |
| Students.RejectionIsMonotone | src/main/java/me/gogradually/courseenrollmentsystem/domain/student/Student.java:52-56 | a rejected request stays rejected for any larger current total |
| Students.EighteenIsTheBoundary | src/main/java/me/gogradually/courseenrollmentsystem/domain/student/Student.java:27-56 | 15 + 3 is accepted and 16 + 3 rejected |
| Enrollments.Enroll | src/main/java/me/gogradually/courseenrollmentsystem/domain/enrollment/Enrollment.java:62-71 | a new enrollment is ACTIVE, for exactly the given student and course, with no cancellation time |
| Enrollments.Cancel | src/main/java/me/gogradually/courseenrollmentsystem/domain/enrollment/Enrollment.java:77-83 | succeeds iff the enrollment is ACTIVE, giving CANCELED with the cancellation time and nothing else changed; otherwise EnrollmentCancellationNotAllowed |
| Enrollments.CanceledIsTerminal | src/main/java/me/gogradually/courseenrollmentsystem/domain/enrollment/Enrollment.java:62-83 | every transition goes from ACTIVE to CANCELED and keeps id, student and course: nothing returns to ACTIVE |
| Store.InsertActive | src/main/java/me/gogradually/courseenrollmentsystem/infrastructure/repository/EnrollmentRepositoryAdapter.java:32-55 | the native insert fails with a duplicate key iff an ACTIVE row for the pair exists; otherwise it adds an ACTIVE row under the next id and changes nothing else, with no check that student or course exist |
| Store.InsertActiveEffect | src/main/java/me/gogradually/courseenrollmentsystem/infrastructure/repository/EnrollmentRepositoryAdapter.java:32-55 | an insert keeps the store's key, index and catalog invariants, raises the ACTIVE count of its course by one and of no other, and leaves earlier rows as they were |
| Store.DeleteById | src/main/java/me/gogradually/courseenrollmentsystem/domain/enrollment/EnrollmentRepository.java:25 | removes exactly the given row and touches nothing else |
| Store.SaveRow | src/main/java/me/gogradually/courseenrollmentsystem/domain/enrollment/Enrollment.java:18-28 | saving a row fails with a data-integrity violation iff another row has the same (student, course, status); otherwise only that row changes |
| Store.SaveCourse | src/main/java/me/gogradually/courseenrollmentsystem/infrastructure/repository/CourseRepositoryAdapter.java:88-90 | an unchanged course is not written; a changed one is written with its version bumped iff the stored version equals the one read, otherwise VersionConflict |
| RuleValidator.ValidateCreditAndSchedule | src/main/java/me/gogradually/courseenrollmentsystem/application/enrollment/support/EnrollmentRuleValidator.java:52-73 | passes iff the credits stay within 18 and no considered course overlaps; when both fail the credit error wins |
| RuleValidator.ValidationReadsCatalogOnly | src/main/java/me/gogradually/courseenrollmentsystem/application/enrollment/support/EnrollmentRuleValidator.java:52-73 | the verdict depends only on the credits and slots of the courses involved |
| RuleValidator.ValidatePreInsert | src/main/java/me/gogradually/courseenrollmentsystem/application/enrollment/support/EnrollmentRuleValidator.java:21-25 | an existing ACTIVE row gives DuplicateEnrollment before any other check; otherwise the credit and schedule check over all the student's ACTIVE courses |
| RuleValidator.ValidateAfterInsert | src/main/java/me/gogradually/courseenrollmentsystem/application/enrollment/support/EnrollmentRuleValidator.java:27-44 | passes iff the credits of the student's other ACTIVE courses plus the requested ones stay within 18 and none of those courses overlaps the requested slot; over the limit is CreditLimitExceeded, otherwise ScheduleConflict; the inserted row is ignored and there is no duplicate check |
| RuleValidator.ActiveCoursesAfterInsert | src/main/java/me/gogradually/courseenrollmentsystem/application/enrollment/support/EnrollmentRuleValidator.java:27-44 | after an insert, excluding the inserted id gives back the student's previous ACTIVE courses, and other students' lists are unchanged |
| RuleValidator.AfterInsertValidationAgrees | src/main/java/me/gogradually/courseenrollmentsystem/application/enrollment/support/EnrollmentRuleValidator.java:27-44 | the post-insert check after an insert gives the same verdict as the credit and schedule check before it |
| RuleValidator.Enrolled | src/main/java/me/gogradually/courseenrollmentsystem/application/enrollment/strategy/PessimisticEnrollmentStrategy.java:57-62 | the reference successful enrollment: one new ACTIVE row under the next id, the course count up by one, nothing else changed |
| RuleValidator.EnrolledKeepsInvariants | src/main/java/me/gogradually/courseenrollmentsystem/application/enrollment/support/EnrollmentRuleValidator.java:52-73 | an allowed enrollment keeps the store consistent (counts equal ACTIVE rows, unique keys), keeps the student within 18 credits and keeps a clash-free timetable clash-free |
| SeatCounter.IncrementIfAvailable | src/main/java/me/gogradually/courseenrollmentsystem/infrastructure/repository/CourseRepositoryAdapter.java:59-68 | affects one row iff the course exists with a free seat, adding one to its count only (version untouched); otherwise affects none and changes nothing |
| SeatCounter.DecrementIfPositive | src/main/java/me/gogradually/courseenrollmentsystem/infrastructure/repository/CourseRepositoryAdapter.java:71-80 | affects one row iff the course exists with a positive count, subtracting one only; otherwise changes nothing |
| SeatCounter.UpdatesKeepCatalog | src/main/java/me/gogradually/courseenrollmentsystem/infrastructure/repository/CourseRepositoryAdapter.java:59-80 | both updates keep 0 <= count <= capacity and every credit and slot |
| SeatCounter.IncrementThenDecrementRestores | src/main/java/me/gogradually/courseenrollmentsystem/infrastructure/repository/CourseRepositoryAdapter.java:59-80 | a successful increment followed by the decrement gives back the original store |
| SeatCounter.IncrementRepeatedly | src/main/java/me/gogradually/courseenrollmentsystem/infrastructure/repository/CourseRepositoryAdapter.java:59-68 | n increments from count k succeed exactly min(n, capacity - k) times and never pass capacity |
| PersistenceSupport.IsDuplicateEnrollmentViolation | src/main/java/me/gogradually/courseenrollmentsystem/application/enrollment/support/EnrollmentPersistenceSupport.java:60-68 | true iff there is a message and its lower-cased text contains "duplicate" or the unique-key name |
| PersistenceSupport.DuplicateEntryIsRecognised | src/main/java/me/gogradually/courseenrollmentsystem/application/enrollment/support/EnrollmentPersistenceSupport.java:60-68 | a MySQL-style "Duplicate entry" message is recognised |
| PersistenceSupport.ShortOrMissingMessageIsNotRecognised | src/main/java/me/gogradually/courseenrollmentsystem/application/enrollment/support/EnrollmentPersistenceSupport.java:60-68 | a missing message, or one shorter than "duplicate", is never a duplicate |
| PersistenceSupport.RecognitionIgnoresCase | src/main/java/me/gogradually/courseenrollmentsystem/application/enrollment/support/EnrollmentPersistenceSupport.java:60-68 | a message recognised after lower-casing is recognised as written |
| PersistenceSupport.TranslateInsertFailure | src/main/java/me/gogradually/courseenrollmentsystem/application/enrollment/support/EnrollmentPersistenceSupport.java:24-41 | duplicate key or duplicate message gives DuplicateEnrollment; else a missing student gives StudentNotFound, then a missing course CourseNotFound, else IllegalState |
| PersistenceSupport.InsertActiveOrThrow | src/main/java/me/gogradually/courseenrollmentsystem/application/enrollment/support/EnrollmentPersistenceSupport.java:24-41 | rolls back with DuplicateEnrollment iff an ACTIVE row exists; otherwise commits the insert and returns the new id |
| PersistenceSupport.IncrementSeatOrThrow | src/main/java/me/gogradually/courseenrollmentsystem/application/enrollment/support/EnrollmentPersistenceSupport.java:50-58 | commits iff a seat is free; zero affected rows give CourseCapacityExceeded for an existing course and CourseNotFound otherwise |
| PersistenceSupport.IncrementLoadedSeatOrThrow | src/main/java/me/gogradually/courseenrollmentsystem/application/enrollment/support/EnrollmentPersistenceSupport.java:43-48 | commits iff a seat is free; zero affected rows always give CourseCapacityExceeded |
| PersistenceSupport.IncrementVariantsAgree | src/main/java/me/gogradually/courseenrollmentsystem/application/enrollment/support/EnrollmentPersistenceSupport.java:43-58 | for an existing course both increment variants give the same outcome |
| Cancellation.ReadForCancel | src/main/java/me/gogradually/courseenrollmentsystem/application/enrollment/support/EnrollmentCancellationProcessor.java:17-26 | a lock timeout, an unknown id and a non-ACTIVE row fail in that order; otherwise the plan holds the CANCELED row and the course decreased (floored at zero) |
| Cancellation.FlushCancel | src/main/java/me/gogradually/courseenrollmentsystem/application/enrollment/support/EnrollmentCancellationProcessor.java:17-26 | the commit succeeds iff the course is unchanged or still has the version read, and no other row holds the canceled row's key; a stale version is VersionConflict, a taken key DataIntegrityViolation; on commit only the row and that course change, the version bumped by one |
| Cancellation.CancelEnrollment | src/main/java/me/gogradually/courseenrollmentsystem/application/enrollment/support/EnrollmentCancellationProcessor.java:17-26 | commits iff the row is ACTIVE, its course exists and no CANCELED row for the pair exists; only that row and its course change, the count drops by one floored at zero and the version is bumped only when the course changed |
| Cancellation.CancelKeepsConsistent | src/main/java/me/gogradually/courseenrollmentsystem/application/enrollment/support/EnrollmentCancellationProcessor.java:17-26 | a committed cancellation keeps counts equal to ACTIVE rows and the unique key |
| Cancellation.FailedCancelChangesNothing | src/main/java/me/gogradually/courseenrollmentsystem/application/enrollment/support/EnrollmentCancellationProcessor.java:17-26 | a failed cancellation leaves the store unchanged |
| EnrollBody.PrepareEnroll | src/main/java/me/gogradually/courseenrollmentsystem/application/enrollment/strategy/PessimisticEnrollmentStrategy.java:57-58 | pre-insert validation errors come first, then CourseCapacityExceeded; success holds the course read and the course with one more seat |
| EnrollBody.FlushEnroll | src/main/java/me/gogradually/courseenrollmentsystem/application/enrollment/tx/OptimisticEnrollmentTxExecutor.java:37-39 | the row is inserted first, so an existing ACTIVE row for the pair gives DataIntegrityViolation whatever the version; otherwise the version-checked course save commits iff the version is unchanged, and a stale version gives VersionConflict |
| EnrollBody.RunEnroll | src/main/java/me/gogradually/courseenrollmentsystem/application/enrollment/strategy/PessimisticEnrollmentStrategy.java:57-62 | without interference the body commits iff the reference rules allow the enrollment, committing the reference store with the course version bumped; errors come in the order duplicate, credits, schedule, capacity |
| Pessimistic.EnrollOnce | src/main/java/me/gogradually/courseenrollmentsystem/application/enrollment/strategy/PessimisticEnrollmentStrategy.java:50-62 | one attempt: a lock failure is reported as such; the course is checked before the student; past the locks it commits iff the reference rules allow it |
| Pessimistic.AttemptsPastTheLocksAgree | src/main/java/me/gogradually/courseenrollmentsystem/application/enrollment/strategy/PessimisticEnrollmentStrategy.java:50-62 | every attempt that gets past the locks gives the same outcome |
| Pessimistic.Enroll | src/main/java/me/gogradually/courseenrollmentsystem/application/enrollment/strategy/PessimisticEnrollmentStrategy.java:41-63 | retries only lock failures, at most 3 attempts, each reading the database as the earlier attempts' competitors left it; fails with the lock error iff all 3 fail to lock, leaving what the others committed; otherwise the first locked attempt decides on the database it reads, committing iff the rules allow it there; the student is locked once per attempt that got an existing course |
| Pessimistic.Recover | src/main/java/me/gogradually/courseenrollmentsystem/application/enrollment/strategy/PessimisticEnrollmentStrategy.java:42-73 | a lock failure that ends the retry becomes EnrollmentConcurrencyConflict with retry count 3; any other error, which no @Recover handler accepts, becomes ExhaustedRetryException with that error as its cause |
| Pessimistic.RecoveredFailuresAreConflicts | src/main/java/me/gogradually/courseenrollmentsystem/application/enrollment/strategy/PessimisticEnrollmentStrategy.java:42-73 | every recovered failure, domain errors included, answers 409 ENROLLMENT_CONCURRENCY_CONFLICT |
| Pessimistic.TwoLockFailuresThenSuccess | src/main/java/me/gogradually/courseenrollmentsystem/application/enrollment/strategy/PessimisticEnrollmentStrategy.java:41-63 | two lock failures with no other writer, then success: the enrollment after 3 course-lock calls and 1 student-lock call |
| Pessimistic.ThreeLockFailures | src/main/java/me/gogradually/courseenrollmentsystem/application/enrollment/strategy/PessimisticEnrollmentStrategy.java:41-63 | three lock failures with no other writer give the lock error, leave the store unchanged and never lock the student |
| Pessimistic.UndisturbedReadsStay | src/main/java/me/gogradually/courseenrollmentsystem/application/enrollment/strategy/PessimisticEnrollmentStrategy.java:41-63 | with no other writer every retry reads the call's own database |
| Pessimistic.RetryAfterTheLastSeatIsTaken | src/main/java/me/gogradually/courseenrollmentsystem/application/enrollment/strategy/PessimisticEnrollmentStrategy.java:41-73 | when the lock holder took the last seat, the retry reads that and fails on capacity after 2 course-lock calls; recovered, the failure is ExhaustedRetryException caused by CourseCapacityExceeded |
| OptimisticExecutor.PrepareOnce | src/main/java/me/gogradually/courseenrollmentsystem/application/enrollment/tx/OptimisticEnrollmentTxExecutor.java:26-40 | course not found, then student lock, then student not found, then validation and capacity, in that order |
| OptimisticExecutor.ExecuteOnce | src/main/java/me/gogradually/courseenrollmentsystem/application/enrollment/tx/OptimisticEnrollmentTxExecutor.java:26-40 | a single uninterrupted attempt commits iff the reference rules allow it, never reports a version conflict, and commits the reference store with the course version bumped |
| OptimisticExecutor.StaleReadIsRejected | src/main/java/me/gogradually/courseenrollmentsystem/application/enrollment/tx/OptimisticEnrollmentTxExecutor.java:26-40 | with no ACTIVE row for the pair, a course version changed since the read makes the commit fail with VersionConflict |
| OptimisticExecutor.DuplicateBeatsStaleRead | src/main/java/me/gogradually/courseenrollmentsystem/application/enrollment/tx/OptimisticEnrollmentTxExecutor.java:37-39 | an ACTIVE row for the pair fails the insert with DataIntegrityViolation even when the version is also stale, so the failure is not retried |
| OptimisticExecutor.ExecuteInterleaved | src/main/java/me/gogradually/courseenrollmentsystem/application/enrollment/tx/OptimisticEnrollmentTxExecutor.java:26-40 | an attempt with another commit between read and commit: with none it is executeOnce; read errors propagate; a commit needs the lock and the rules on the database read; it conflicts iff the read passed, the pair has no ACTIVE row on the other's database and the course version there differs; a commit writes the seat count read plus one over the other's database |
| Optimistic.Enroll | src/main/java/me/gogradually/courseenrollmentsystem/application/enrollment/strategy/OptimisticEnrollmentStrategy.java:31-48 | retries only version conflicts, at most 3 calls, each on a new read of the database; all 3 conflicting gives EnrollmentConcurrencyConflict and leaves what the other writers committed; otherwise the first non-conflicting attempt decides: its commit is returned as it is, and its error comes back as ExhaustedRetryException with that error as its cause; a success met the rules on the database that attempt read |
| Optimistic.Recover | src/main/java/me/gogradually/courseenrollmentsystem/application/enrollment/strategy/OptimisticEnrollmentStrategy.java:31-48 | a version conflict that ends the retry becomes EnrollmentConcurrencyConflict with retry count 3; any other error, which no @Recover handler accepts, becomes ExhaustedRetryException with that error as its cause |
| Optimistic.RecoveredFailuresAreConflicts | src/main/java/me/gogradually/courseenrollmentsystem/application/enrollment/strategy/OptimisticEnrollmentStrategy.java:31-48 | every recovered failure, domain errors included, answers 409 ENROLLMENT_CONCURRENCY_CONFLICT |
| Optimistic.LosesToNewerVersion | src/main/java/me/gogradually/courseenrollmentsystem/application/enrollment/tx/OptimisticEnrollmentTxExecutor.java:26-40 | an attempt that passes the rules on what it read conflicts when another writer committed a new course version first and left no ACTIVE row for the pair |
| Optimistic.TwoWritersThenCommit | src/main/java/me/gogradually/courseenrollmentsystem/application/enrollment/strategy/OptimisticEnrollmentStrategy.java:31-38 | with two writers each bumping the course version during an attempt, the first two attempts conflict and the third commits the enrollment under the second writer's next id |
| Optimistic.TwoConflictsThenSuccess | src/main/java/me/gogradually/courseenrollmentsystem/application/enrollment/strategy/OptimisticEnrollmentStrategy.java:31-38 | two attempts that each lose to a writer bumping the course version, then success: the third attempt commits on the latest database after 3 calls |
| Optimistic.ThreeConflicts | src/main/java/me/gogradually/courseenrollmentsystem/application/enrollment/strategy/OptimisticEnrollmentStrategy.java:40-48 | three attempts that each lose to a writer give EnrollmentConcurrencyConflict with retryCount 3 and leave the last writer's store |
| Optimistic.UndisturbedReadsStay | src/main/java/me/gogradually/courseenrollmentsystem/application/enrollment/strategy/OptimisticEnrollmentStrategy.java:31-38 | with no other writer every retry reads the call's own database |
| Optimistic.WriterTakesTheLastSeat | src/main/java/me/gogradually/courseenrollmentsystem/application/enrollment/strategy/OptimisticEnrollmentStrategy.java:31-38 | a writer that fills the course with a new version makes the first attempt conflict and the second fail with CourseCapacityExceeded on the database it reads |
| Optimistic.RetryAfterTheLastSeatIsTaken | src/main/java/me/gogradually/courseenrollmentsystem/application/enrollment/strategy/OptimisticEnrollmentStrategy.java:31-48 | when the writer that won took the last seat, the retry reads that and fails on capacity after 2 calls, leaving the writer's store; the result is ExhaustedRetryException caused by CourseCapacityExceeded |
| Atomic.Enroll | src/main/java/me/gogradually/courseenrollmentsystem/application/enrollment/strategy/AtomicEnrollmentStrategy.java:36-52 | insert first (DuplicateEnrollment), then the conditional increment (CourseNotFound or CourseCapacityExceeded), then the student lock and lookup, then post-insert validation; every failure rolls back everything; success is the reference enrollment |
| Atomic.MatchesReference | src/main/java/me/gogradually/courseenrollmentsystem/application/enrollment/strategy/AtomicEnrollmentStrategy.java:36-52 | with the lock granted the strategy commits iff the reference rules allow it, and a validation failure reports the reference validator's error |
| Atomic.UnknownStudentLeavesNothing | src/main/java/me/gogradually/courseenrollmentsystem/application/enrollment/strategy/AtomicEnrollmentStrategy.java:36-52 | an unknown student always fails and leaves no row and no seat taken; once insert and seat succeed the error is StudentNotFound |
| SeparatedExecutor.ReserveSeat | src/main/java/me/gogradually/courseenrollmentsystem/application/enrollment/tx/SeparatedEnrollmentTxExecutor.java:29-38 | CourseNotFound, then CourseCapacityExceeded, then DuplicateEnrollment with the increment rolled back; success takes a seat and inserts the ACTIVE row under the returned id |
| SeparatedExecutor.FinalizeEnrollment | src/main/java/me/gogradually/courseenrollmentsystem/application/enrollment/tx/SeparatedEnrollmentTxExecutor.java:40-52 | reads only: lock, student, course, then the post-insert check; success returns the reserved row |
| SeparatedExecutor.ReleaseSeat | src/main/java/me/gogradually/courseenrollmentsystem/application/enrollment/tx/SeparatedEnrollmentTxExecutor.java:54-59 | deletes exactly the reserved row and gives the seat back with the guarded decrement |
| SeparatedExecutor.ReleaseUndoesReserve | src/main/java/me/gogradually/courseenrollmentsystem/application/enrollment/tx/SeparatedEnrollmentTxExecutor.java:29-59 | releasing a fresh reservation restores the store, except that the id counter has moved on |
| SeparatedExecutor.ReleaseKeepsCounts | src/main/java/me/gogradually/courseenrollmentsystem/application/enrollment/tx/SeparatedEnrollmentTxExecutor.java:54-59 | releasing an ACTIVE row keeps counts equal to ACTIVE rows |
| Separated.Enroll | src/main/java/me/gogradually/courseenrollmentsystem/application/enrollment/strategy/SeparatedEnrollmentStrategy.java:23-35 | a reserve failure propagates and nothing else runs; a finalize failure triggers one release of the same reservation and rethrows the finalize error; success keeps the reserved row |
| Separated.MatchesReference | src/main/java/me/gogradually/courseenrollmentsystem/application/enrollment/strategy/SeparatedEnrollmentStrategy.java:23-35 | succeeds iff the reference rules allow it, with the reference store; a failure whose release completes leaves rows and courses as before; validation failures report the reference validator's error |
| Separated.ReservationPrecedesValidation | src/main/java/me/gogradually/courseenrollmentsystem/application/enrollment/strategy/SeparatedEnrollmentStrategy.java:23-35 | between reserve and finalize the store is consistent but can hold a student above 18 credits; finalize then fails with CreditLimitExceeded |
| Separated.ReservedIsConsistent | src/main/java/me/gogradually/courseenrollmentsystem/application/enrollment/tx/SeparatedEnrollmentTxExecutor.java:29-38 | a committed reservation keeps counts equal to ACTIVE rows |
| Separated.ReservedOverLimit | src/main/java/me/gogradually/courseenrollmentsystem/application/enrollment/tx/SeparatedEnrollmentTxExecutor.java:29-38 | a reservation that breaks the credit rule leaves the student's ACTIVE credits above 18 until release |
| Separated.ReleaseFailureIsSwallowed | src/main/java/me/gogradually/courseenrollmentsystem/application/enrollment/strategy/SeparatedEnrollmentStrategy.java:23-35 | whether or not the release completes, the caller sees the same result |
| Router.Register | src/main/java/me/gogradually/courseenrollmentsystem/application/enrollment/strategy/EnrollmentStrategyRouter.java:14-31 | registration succeeds iff no two strategies report the same type; every registered strategy is stored under its own type |
| Router.NewRouter | src/main/java/me/gogradually/courseenrollmentsystem/application/enrollment/strategy/EnrollmentStrategyRouter.java:14-31 | construction succeeds iff types are distinct and every type is covered (IllegalState otherwise); each entry reports its own type |
| Router.Get | src/main/java/me/gogradually/courseenrollmentsystem/application/enrollment/strategy/EnrollmentStrategyRouter.java:33-39 | returns the registered strategy, or IllegalArgument for an unregistered type |
| Router.ConstructedRouterIsTotal | src/main/java/me/gogradually/courseenrollmentsystem/application/enrollment/strategy/EnrollmentStrategyRouter.java:14-39 | a constructed router answers every type with the strategy of that type |
| Router.FullRegistration | src/main/java/me/gogradually/courseenrollmentsystem/application/enrollment/strategy/EnrollmentStrategyRouter.java:14-31 | the four strategies, in any order, make a router |
| Router.DuplicateRegistration | src/main/java/me/gogradually/courseenrollmentsystem/application/enrollment/strategy/EnrollmentStrategyRouter.java:17-22 | a strategy registered twice makes construction fail |
| Router.MissingRegistration | src/main/java/me/gogradually/courseenrollmentsystem/application/enrollment/strategy/EnrollmentStrategyRouter.java:24-28 | a missing strategy makes construction fail |
| Router.ViaPessimistic | src/main/java/me/gogradually/courseenrollmentsystem/application/enrollment/strategy/PessimisticEnrollmentStrategy.java:41-73 | the pessimistic strategy with its recovery honours the common contract; with no lock timeouts or interference, success iff the rules allow; a failure is EnrollmentConcurrencyConflict(3) or ExhaustedRetryException around a non-lock error |
| Router.ViaOptimistic | src/main/java/me/gogradually/courseenrollmentsystem/application/enrollment/strategy/OptimisticEnrollmentStrategy.java:30-48 | the optimistic strategy with its retry and recovery honours the common contract; with no interference, success iff the rules allow; a failure is EnrollmentConcurrencyConflict(3) or ExhaustedRetryException around a non-conflict error |
| Router.ViaAtomic | src/main/java/me/gogradually/courseenrollmentsystem/application/enrollment/strategy/AtomicEnrollmentStrategy.java:35-52 | the atomic strategy honours the common contract on the call's store; with the student lock granted on a well-formed store, success iff the rules allow |
| Router.ViaSeparated | src/main/java/me/gogradually/courseenrollmentsystem/application/enrollment/strategy/SeparatedEnrollmentStrategy.java:22-35 | the separated strategy honours the common contract on the call's store, its compensation aside; with the student lock granted on a well-formed store, success iff the rules allow |
| Router.EnrollVia | src/main/java/me/gogradually/courseenrollmentsystem/application/enrollment/strategy/EnrollmentStrategy.java:9 | for every strategy and environment: a success inserts the enrollment under the next id of the database it commits to and met the rules on the database it read; a failure of the pessimistic, optimistic or atomic strategy writes nothing; with no other writer both databases are the input, and with no lock timeout either each strategy succeeds exactly when the rules allow |
| Router.CancelVia | src/main/java/me/gogradually/courseenrollmentsystem/application/enrollment/strategy/PessimisticEnrollmentStrategy.java:76-79 | every strategy's cancel is the shared routine: it commits iff the lock is granted and the row is ACTIVE with an existing course and no CANCELED twin; a lock timeout or a missing row is reported; a commit leaves the row CANCELED |
| Orchestration.ConstructedRouterIsComplete | src/main/java/me/gogradually/courseenrollmentsystem/application/enrollment/strategy/EnrollmentStrategyRouter.java:14-31 | a constructed router holds every type |
| Orchestration.StrategyFor | src/main/java/me/gogradually/courseenrollmentsystem/application/enrollment/orchestration/EnrollmentApplicationService.java:21-51 | the default and atomic entry points use ATOMIC; the others use the matching strategy |
| Orchestration.EntryPointsShareOnlyAtomic | src/main/java/me/gogradually/courseenrollmentsystem/application/enrollment/orchestration/EnrollmentApplicationService.java:21-51 | two distinct entry points share a strategy iff they are the default and the atomic one |
| Orchestration.Enroll | src/main/java/me/gogradually/courseenrollmentsystem/application/enrollment/orchestration/EnrollmentApplicationService.java:21-51 | the routed strategy's result is returned: a success inserts the enrollment on the database it commits to; a failure other than the separated strategy's writes nothing; with no other writer and no lock timeout, success iff the rules allow |
| Orchestration.Cancel | src/main/java/me/gogradually/courseenrollmentsystem/application/enrollment/orchestration/EnrollmentApplicationService.java:56-58 | cancel goes through the ATOMIC strategy, i.e. the shared cancellation |
| LegacyService.EnrollWithPessimisticLock | src/main/java/me/gogradually/courseenrollmentsystem/application/enrollment/EnrollmentApplicationService.java:50-63 | one attempt of the pessimistic body with no retry: lock failures surface, past the locks it commits iff the rules allow |
| LegacyService.OptimisticAttempt | src/main/java/me/gogradually/courseenrollmentsystem/application/enrollment/EnrollmentApplicationService.java:107-120 | one fresh-transaction attempt, with another writer possibly committing between its read and its commit, behaves as one attempt of the optimistic executor |
| LegacyService.EnrollWithOptimisticLock | src/main/java/me/gogradually/courseenrollmentsystem/application/enrollment/EnrollmentApplicationService.java:68-85 | the explicit loop makes at most 3 attempts, each on a new read of the database, retries only version conflicts, and throws EnrollmentConcurrencyConflict on the third |
| LegacyService.EnrollWithAtomicUpdate | src/main/java/me/gogradually/courseenrollmentsystem/application/enrollment/EnrollmentApplicationService.java:91-105 | lock, student, course, insert (DuplicateEnrollment), validate, then increment; success is the reference enrollment |
| LegacyService.AtomicVariantsAgree | src/main/java/me/gogradually/courseenrollmentsystem/application/enrollment/EnrollmentApplicationService.java:91-105 | legacy and strategy atomic enrollments succeed on the same inputs with the same result; when validation passes the legacy failure is CourseCapacityExceeded |
| LegacyService.ErrorOrderDiffers | src/main/java/me/gogradually/courseenrollmentsystem/application/enrollment/EnrollmentApplicationService.java:91-105 | a full course that also breaks the credit rule gives CourseCapacityExceeded in the strategy and CreditLimitExceeded in the legacy variant |
| LegacyService.Cancel | src/main/java/me/gogradually/courseenrollmentsystem/application/enrollment/EnrollmentApplicationService.java:180-189 | the legacy cancel is the shared cancellation |
| Paging.NormalizeOffset | src/main/java/me/gogradually/courseenrollmentsystem/application/student/StudentQueryService.java:31-36 | a missing or negative offset becomes 0; any other offset is kept |
| Paging.NormalizeLimit | src/main/java/me/gogradually/courseenrollmentsystem/application/student/StudentQueryService.java:38-43 | a missing limit or one below 1 becomes 50; otherwise min(limit, 100); always in [1, 100] |
| Paging.Normalize | src/main/java/me/gogradually/courseenrollmentsystem/application/student/StudentQueryService.java:22-29 | the page size of a normalised request is in [1, 100] |
| Paging.NormalizeStable | src/main/java/me/gogradually/courseenrollmentsystem/application/student/StudentQueryService.java:31-43 | a normalised request normalises to itself |
| Paging.CoursePage | src/main/java/me/gogradually/courseenrollmentsystem/application/course/CourseQueryService.java:19-26 | the department filter passes through untouched and the page is normalised |
| Paging.Window | src/main/java/me/gogradually/courseenrollmentsystem/infrastructure/repository/CourseRepositoryAdapter.java:37-56 | the page is the rows from offset, at most limit of them, empty past the end |
| Paging.ConsecutivePages | src/main/java/me/gogradually/courseenrollmentsystem/infrastructure/repository/CourseRepositoryAdapter.java:37-56 | two consecutive pages join into the window of twice the size |
| SeedProperties.Violation | src/main/java/me/gogradually/courseenrollmentsystem/infrastructure/config/InitialDataProperties.java:16-34 | nothing is reported iff seeding is disabled or all counts are positive; a reported field is below 1 and every earlier field is fine |
| SeedProperties.NewSeedProperties | src/main/java/me/gogradually/courseenrollmentsystem/infrastructure/config/InitialDataProperties.java:16-34 | the record is accepted unchanged iff seeding is disabled or all counts are positive; otherwise IllegalArgument |
| SeedProperties.ConstructedIsPositive | src/main/java/me/gogradually/courseenrollmentsystem/infrastructure/config/InitialDataProperties.java:16-34 | an accepted enabled configuration has all five counts at least 1 |
| SeedProperties.FirstOffenderReported | src/main/java/me/gogradually/courseenrollmentsystem/infrastructure/config/InitialDataProperties.java:18-32 | the reported field comes no later than any offending field |
| SeedProperties.DisabledAcceptsAnything | src/main/java/me/gogradually/courseenrollmentsystem/infrastructure/config/InitialDataProperties.java:17 | a disabled configuration is accepted whatever its counts |
| SeedGenerator.SlotFor | src/main/java/me/gogradually/courseenrollmentsystem/infrastructure/config/InitialDataGenerator.java:333-337 | index i gives weekday i mod 5, start time (i/5) mod 5 of the five, and a valid 90-minute slot |
| SeedGenerator.SlotsEqualIff | src/main/java/me/gogradually/courseenrollmentsystem/infrastructure/config/InitialDataGenerator.java:333-337 | two indices give the same slot iff they agree mod 25 |
| SeedGenerator.DistinctSlotsDisjoint | src/main/java/me/gogradually/courseenrollmentsystem/infrastructure/config/InitialDataGenerator.java:88-94 | distinct generated slots never overlap, because the daily slots are back to back or apart |
| SeedGenerator.PickCredits | src/main/java/me/gogradually/courseenrollmentsystem/infrastructure/config/InitialDataGenerator.java:315-324 | the credits are always 2, 3 or 4 |
| SeedGenerator.CreditOdds | src/main/java/me/gogradually/courseenrollmentsystem/infrastructure/config/InitialDataGenerator.java:315-324 | of the ten rolls, 2 give 2 credits, 6 give 3 and 2 give 4 |
| SeedGenerator.PickCapacity | src/main/java/me/gogradually/courseenrollmentsystem/infrastructure/config/InitialDataGenerator.java:326-331 | index 0 gets the hot-course capacity; any other index gets 20 + roll, within [20, 60] |
| SeedGenerator.CourseCode | src/main/java/me/gogradually/courseenrollmentsystem/infrastructure/config/InitialDataGenerator.java:305-307 | the code is the department code followed by the digits of 100 + sequence, three of them below 900 |
| SeedGenerator.CourseCodeInjective | src/main/java/me/gogradually/courseenrollmentsystem/infrastructure/config/InitialDataGenerator.java:305-307 | within a department, equal codes mean equal sequence numbers |
| SeedGenerator.GeneratedCode | src/main/java/me/gogradually/courseenrollmentsystem/infrastructure/config/InitialDataGenerator.java:283-296 | a generated department code is DEP followed by at least two digits reading index + 1 |
| SeedGenerator.ResolveDepartmentTemplate | src/main/java/me/gogradually/courseenrollmentsystem/infrastructure/config/InitialDataGenerator.java:283-296 | indices below 12 get exactly the base name and code of that index; later ones get the generated code and a name that starts with the base name of index mod 12 |
| SeedGenerator.DepartmentNameSuffix | src/main/java/me/gogradually/courseenrollmentsystem/infrastructure/config/InitialDataGenerator.java:291-294 | past the twelve base departments the name continues after the base name with a space and a decimal suffix that reads back as index/12 + 1 |
| SeedGenerator.DepartmentCodesDistinct | src/main/java/me/gogradually/courseenrollmentsystem/infrastructure/config/InitialDataGenerator.java:283-296 | different indices never give the same department code |
| SeedGenerator.DepartmentCodes | src/main/java/me/gogradually/courseenrollmentsystem/infrastructure/config/InitialDataGenerator.java:169-185 | department k gets the code of template k |
| SeedGenerator.DepartmentCodesPairwiseDistinct | src/main/java/me/gogradually/courseenrollmentsystem/infrastructure/config/InitialDataGenerator.java:169-185 | the generated departments have pairwise distinct codes |
| SeedGenerator.GenerateCourses | src/main/java/me/gogradually/courseenrollmentsystem/infrastructure/config/InitialDataGenerator.java:229-274 | course i goes to department i mod d with sequence i / d + 1 (the per-department counter), the slot, credits and capacity of its index and rolls |
| SeedGenerator.CourseCodesDiffer | src/main/java/me/gogradually/courseenrollmentsystem/infrastructure/config/InitialDataGenerator.java:305-307 | different department codes or sequences below 900 give different course codes |
| SeedGenerator.GeneratedCodesDistinct | src/main/java/me/gogradually/courseenrollmentsystem/infrastructure/config/InitialDataGenerator.java:229-274 | with distinct department codes, two courses get different codes while the sequences stay below 900 |
| SeedGenerator.SeededCourseCodesDistinct | src/main/java/me/gogradually/courseenrollmentsystem/infrastructure/config/InitialDataGenerator.java:229-274 | the seeded catalog's course codes are pairwise distinct below 900 courses per department |
| SeedGenerator.GenerateIfEmpty | src/main/java/me/gogradually/courseenrollmentsystem/infrastructure/config/InitialDataGenerator.java:126-160 | an already seeded database is left alone; otherwise the configured numbers of rows are created; afterwards it counts as seeded |
| SeedGenerator.SecondRunChangesNothing | src/main/java/me/gogradually/courseenrollmentsystem/infrastructure/config/InitialDataGenerator.java:162-167 | running the generator twice is the same as running it once |
| Text.Contains | src/main/java/me/gogradually/courseenrollmentsystem/application/enrollment/support/EnrollmentPersistenceSupport.java:66-67 | the scan finds the needle iff it occurs somewhere in the text |
| ScheduleFormat.DayAbbrev | src/main/java/me/gogradually/courseenrollmentsystem/application/common/ScheduleFormatter.java:13-14 | three capital letters of the day name |
| ScheduleFormat.DayAbbrevInjective | src/main/java/me/gogradually/courseenrollmentsystem/application/common/ScheduleFormatter.java:13-14 | different days have different abbreviations |
| ScheduleFormat.FormatTime | src/main/java/me/gogradually/courseenrollmentsystem/application/common/ScheduleFormatter.java:8 | HH:mm, two zero-padded digits each, reading back as the same minute of the day |
| ScheduleFormat.Format | src/main/java/me/gogradually/courseenrollmentsystem/application/common/ScheduleFormatter.java:13-18 | 15 characters: day, space, start, '-', end |
| ScheduleFormat.MondayMorningExample | src/main/java/me/gogradually/courseenrollmentsystem/application/common/ScheduleFormatter.java:13-18 | Monday 9:00-10:30 is MON 09:00-10:30 |
| ScheduleFormat.FormatInjective | src/main/java/me/gogradually/courseenrollmentsystem/application/common/ScheduleFormatter.java:13-18 | different slots are rendered differently |
| TimetableAssertion.Trim | performance/k6/lib/single-student-domain-assertion.js:21-35 | the result is the input with only JavaScript whitespace removed at both ends, and starts and ends with non-whitespace |
| TimetableAssertion.TrimKeeps | performance/k6/lib/single-student-domain-assertion.js:21-35 | a string without whitespace at its ends is its own trim |
| TimetableAssertion.ParseTrimmed | performance/k6/lib/single-student-domain-assertion.js:21-35 | accepted iff three capitals, whitespace and HH:MM-HH:MM with start before end; the result holds the day and the two times in minutes |
| TimetableAssertion.ParseAll | performance/k6/lib/single-student-domain-assertion.js:37-61 | only parsed schedules are kept, each with start before end |
| TimetableAssertion.CreditsWithinLimit | performance/k6/lib/single-student-domain-assertion.js:63-82 | holds iff a total is given and it is at most 18 |
| TimetableAssertion.AdjacentFindsEveryClash | performance/k6/lib/single-student-domain-assertion.js:51-58 | on one day's entries sorted by start, an adjacent overlap exists iff any pair overlaps |
| TimetableAssertion.GroupClash | performance/k6/lib/single-student-domain-assertion.js:37-61 | a day's group has a clash iff two entries of that day clash in the full list |
| TimetableAssertion.ConflictMeansClash | performance/k6/lib/single-student-domain-assertion.js:37-61 | the sorted-adjacent check reports a conflict iff some two parsed entries overlap |
| ScheduleCheck.FormatShape | src/main/java/me/gogradually/courseenrollmentsystem/application/common/ScheduleFormatter.java:13-18 | a rendered slot has the shape the load test's pattern expects, with the same times |
| ScheduleCheck.FormatThenParse | performance/k6/lib/single-student-domain-assertion.js:21-35 | parsing a rendered valid slot gives back its day and times |
| ScheduleCheck.ClashIsOverlap | performance/k6/lib/single-student-domain-assertion.js:51-58 | two parsed slots clash iff the slots overlap |
| ScheduleCheck.ParseAllFormatted | performance/k6/lib/single-student-domain-assertion.js:37-61 | every rendered valid slot parses, in order |
| ScheduleCheck.ConflictIsOverlap | performance/k6/lib/single-student-domain-assertion.js:37-61 | the load test finds a conflict among rendered valid slots iff two of them overlap |
| ScheduleCheck.BackToBackIsNoConflict | performance/k6/lib/single-student-domain-assertion.js:51-58 | Monday 9:00-10:30 and 10:30-12:00 are no conflict |
| ScheduleCheck.OverlapIsConflict | performance/k6/lib/single-student-domain-assertion.js:51-58 | Tuesday 9:00-11:00 and 10:00-12:00 are a conflict |
| Timetable.GetStudentTimetable | src/main/java/me/gogradually/courseenrollmentsystem/application/timetable/TimetableQueryService.java:23-36 | unknown student gives StudentNotFound; otherwise the summaries of the ACTIVE rows' courses, a permutation of them ordered by course id, and their credit sum |
| Timetable.TotalOfSummaries | src/main/java/me/gogradually/courseenrollmentsystem/application/timetable/TimetableQueryService.java:31-33 | the summed summaries carry the credits of their courses |
| Timetable.CreditSumSort | src/main/java/me/gogradually/courseenrollmentsystem/infrastructure/repository/jpa/EnrollmentJpaRepository.java:31-44 | ordering the courses by id does not change their credit total |
| Timetable.OverlapSurvivesPermutation | src/main/java/me/gogradually/courseenrollmentsystem/infrastructure/repository/jpa/EnrollmentJpaRepository.java:31-44 | reordering a list keeps any overlap in it |
| Timetable.ListsActiveRows | src/main/java/me/gogradually/courseenrollmentsystem/infrastructure/repository/EnrollmentRepositoryAdapter.java:76-82 | the listed courses are exactly those of the student's ACTIVE rows |
| Timetable.AssertionReadsTheRules | performance/k6/lib/single-student-domain-assertion.js:63-82 | on a served timetable the load test's credit check holds iff the ACTIVE credits are within 18, and its conflict check passes iff the ACTIVE slots are pairwise free |
| Timetable.CreditCheckIsLimit | performance/k6/lib/single-student-domain-assertion.js:63-82 | the load test's credit bound is the server's 18 |
| Timetable.ColumnConflictIsClash | performance/k6/lib/single-student-domain-assertion.js:37-61 | on summaries of valid courses the load test's conflict check finds a conflict iff two of the courses overlap |
| Timetable.AssertionHoldsAfterEnroll | performance/k6/lib/single-student-domain-assertion.js:63-82 | after an allowed enrollment into a consistent, clash-free store the load test's assertion passes |
| Timetable.EmptyTimetable | src/main/java/me/gogradually/courseenrollmentsystem/application/timetable/TimetableQueryService.java:23-36 | the timetable is empty iff the student holds no ACTIVE row |
| Shuffle.SwapIndex | performance/k6/lib/multi-data-setup.js:115-121 | the drawn index lies in [0, index] |
| Shuffle.EverySwapIndexReachable | performance/k6/lib/multi-data-setup.js:115-121 | every index in [0, index] is drawn by some 32-bit value |
| Shuffle.ShuffleInPlace | performance/k6/lib/multi-data-setup.js:115-121 | the shuffle is a permutation of its input |
| Shuffle.ShuffleKeepsMembers | performance/k6/lib/single-student-data-setup.js:116-122 | a permutation holds exactly the same members |
| MultiSetup.Parse | performance/k6/lib/multi-data-setup.js:75-95 | a listed course is used iff id, capacity and enrolled are all numbers |
| MultiSetup.Normalized | performance/k6/lib/multi-data-setup.js:76-83 | the usable listed courses, sorted by id; a course is in the result iff some listed entry parses to it |
| MultiSetup.ParsedCoursesKeepOrder | performance/k6/lib/multi-data-setup.js:76-82 | the map-and-filter step keeps listing order: a listing split in two parses to the two parts' results joined |
| MultiSetup.ParsedCoursesOfOne | performance/k6/lib/multi-data-setup.js:76-82 | a single listed entry parses to its course if every field is a number, and to nothing otherwise |
| MultiSetup.NormalizedIsPermutation | performance/k6/lib/multi-data-setup.js:76-83 | sorting reorders the parsed courses and keeps each as often as it was listed |
| MultiSetup.Unenrolled | performance/k6/lib/multi-data-setup.js:75-95 | keeps exactly the courses with nobody enrolled, in order |
| MultiSetup.FirstNonPositive | performance/k6/lib/multi-data-setup.js:96-99 | the first selected course with capacity <= 0, or none iff all are positive |
| MultiSetup.SelectTargetCourses | performance/k6/lib/multi-data-setup.js:75-102 | too few candidates or a non-positive capacity stop the setup; otherwise the first courseCount candidates |
| MultiSetup.SelectedAreLowestIds | performance/k6/lib/multi-data-setup.js:75-102 | the selection has courseCount listed courses, with ids no larger than any candidate left out, all empty when required |
| MultiSetup.PlannedIsCapacityTimesMultiplier | performance/k6/lib/multi-data-setup.js:157-160 | the planned attempts are the total capacity times the multiplier |
| MultiSetup.AttemptsPerCourse | performance/k6/lib/multi-data-setup.js:129-145 | each selected course receives capacity x multiplier attempts and no other course any |
| MultiSetup.AddAttempts | performance/k6/lib/multi-data-setup.js:133-140 | count requests are appended, attempt k going to the next unused student |
| MultiSetup.BuildRequestPlan | performance/k6/lib/multi-data-setup.js:123-152 | attempt k is made by student k, course after course, with per-course plans and the total capacity |
| MultiSetup.FetchStudentIds | performance/k6/lib/multi-data-setup.js:43-73 | succeeds iff enough students are listed, returning the first required ones |
| MultiSetup.SetupMultiData | performance/k6/lib/multi-data-setup.js:154-186 | an empty course listing aborts with NoCourses; otherwise succeeds iff selection succeeds, the plan is within the maximum and students suffice; the requests are a permutation of the plan and, for distinct listed students, no student appears twice |
| MultiSetup.EachStudentOnce | performance/k6/lib/multi-data-setup.js:123-152 | a shuffled plan over distinct students uses each student at most once |
| SingleSetup.EmptyCheckMeansNoActiveRows | performance/k6/lib/single-student-data-setup.js:74-77 | the load test finds a served timetable empty iff the student holds no ACTIVE row |
| SingleSetup.FirstWithEmptyTimetable | performance/k6/lib/single-student-data-setup.js:79-103 | the first listed student whose timetable is empty, or none iff there is no such student |
| SingleSetup.ResolveStudent | performance/k6/lib/single-student-data-setup.js:79-103 | a configured id is used as is (checked when required); otherwise an empty listing fails, and the first listed student, or the first with an empty timetable when required, is chosen |
| SingleSetup.UsableOf | performance/k6/lib/single-student-data-setup.js:124-142 | keeps exactly the parsed courses with positive capacity and a non-empty trimmed schedule |
| SingleSetup.NormalizeCourses | performance/k6/lib/single-student-data-setup.js:124-142 | the usable courses, sorted by id, as a permutation |
| SingleSetup.FirstPerSchedule | performance/k6/lib/single-student-data-setup.js:144-165 | one empty course per schedule, distinct schedules, covering every schedule of an empty course |
| SingleSetup.FirstPerScheduleCount | performance/k6/lib/single-student-data-setup.js:144-165 | there are as many picks as distinct schedules among empty courses |
| SingleSetup.SelectSpreadCourses | performance/k6/lib/single-student-data-setup.js:144-165 | the scan's result is the reference spread selection |
| SingleSetup.SpreadSelectionMeaning | performance/k6/lib/single-student-data-setup.js:144-165 | fails iff fewer distinct schedules than needed; otherwise that many empty listed courses with distinct schedules |
| SingleSetup.GroupOf | performance/k6/lib/single-student-data-setup.js:167-195 | exactly the empty courses with the given schedule |
| SingleSetup.GroupBySchedule | performance/k6/lib/single-student-data-setup.js:167-195 | the group keys are the schedules in order, each group non-empty |
| SingleSetup.GroupingIsReference | performance/k6/lib/single-student-data-setup.js:167-195 | the groups are listed in first-appearance order and each is the reference group of its schedule |
| SingleSetup.BestIndex | performance/k6/lib/single-student-data-setup.js:167-195 | the chosen group is not beaten by any other and beats every earlier one (larger, then smaller first id) |
| SingleSetup.SelectConflictCourses | performance/k6/lib/single-student-data-setup.js:167-195 | fails only with NoConflictGroup; success has exactly courseCount courses |
| SingleSetup.ConflictSelectionSucceeds | performance/k6/lib/single-student-data-setup.js:167-195 | succeeds iff some schedule's group has at least courseCount members |
| SingleSetup.ConflictSelectionIsLargestGroup | performance/k6/lib/single-student-data-setup.js:167-195 | a success is the first courseCount members of the largest group, ties going to the smallest first id |
| SingleSetup.ShuffledRequests | performance/k6/lib/single-student-data-setup.js:210-227 | one request per selected course, all by the student, in a permuted order |
| SingleSetup.SetupSingleStudentData | performance/k6/lib/single-student-data-setup.js:197-229 | student errors pass through; an empty listing fails; succeeds iff the selection succeeds; then one request per selected course by the student, planned attempts equal to the number of requests |
| ExceptionHandler.StripSuffix | src/main/java/me/gogradually/courseenrollmentsystem/infrastructure/web/GlobalExceptionHandler.java:116-118 | a name ending in the suffix loses exactly that suffix; any other name is kept |
| ExceptionHandler.SplitWords | src/main/java/me/gogradually/courseenrollmentsystem/infrastructure/web/GlobalExceptionHandler.java:119 | the result has no lower-case letter directly before an upper-case one, and starts with the same character |
| ExceptionHandler.SplitWordsOnlyInserts | src/main/java/me/gogradually/courseenrollmentsystem/infrastructure/web/GlobalExceptionHandler.java:119 | the rewrite only inserts underscores: removing them gives the same text as removing them from the input |
| ExceptionHandler.SplitWordsLength | src/main/java/me/gogradually/courseenrollmentsystem/infrastructure/web/GlobalExceptionHandler.java:119 | one underscore is inserted per lower-to-upper boundary |
| ExceptionHandler.ToCode | src/main/java/me/gogradually/courseenrollmentsystem/infrastructure/web/GlobalExceptionHandler.java:114-120 | the code has no lower-case letters and is one character longer per word boundary than the stripped name |
| ExceptionHandler.TwoWordCode | src/main/java/me/gogradually/courseenrollmentsystem/infrastructure/web/GlobalExceptionHandler.java:114-120 | a class name of two capitalised words and the suffix gives WORD1_WORD2 |
| ExceptionHandler.ThreeWordCode | src/main/java/me/gogradually/courseenrollmentsystem/infrastructure/web/GlobalExceptionHandler.java:114-120 | three capitalised words give WORD1_WORD2_WORD3 |
| ExceptionHandler.DuplicateEnrollmentCode | src/main/java/me/gogradually/courseenrollmentsystem/infrastructure/web/GlobalExceptionHandler.java:114-120 | DuplicateEnrollmentException gives DUPLICATE_ENROLLMENT |
| ExceptionHandler.StudentNotFoundCode | src/main/java/me/gogradually/courseenrollmentsystem/infrastructure/web/GlobalExceptionHandler.java:114-120 | StudentNotFoundException gives STUDENT_NOT_FOUND |
| ExceptionHandler.Status | src/main/java/me/gogradually/courseenrollmentsystem/infrastructure/web/GlobalExceptionHandler.java:29-98 | 404 exactly for the not-found errors, 409 for duplicates, forbidden cancellations, exhausted retries, serialization failures and locking failures, 422 for credit, schedule and capacity errors, 400 for bad requests, 500 for everything else |
| ExceptionHandler.Code | src/main/java/me/gogradually/courseenrollmentsystem/infrastructure/web/GlobalExceptionHandler.java:29-98 | domain errors get the code derived from their class name, concurrency failures ENROLLMENT_CONCURRENCY_CONFLICT, bad requests BAD_REQUEST, anything else INTERNAL_SERVER_ERROR |
| ExceptionHandler.ConcurrencyConflictCode | src/main/java/me/gogradually/courseenrollmentsystem/infrastructure/web/GlobalExceptionHandler.java:50-57 | EnrollmentConcurrencyConflictException's derived code equals the fixed code the locking-failure handler sends |
| ExceptionHandler.ConcurrencyFailuresAreConflicts | src/main/java/me/gogradually/courseenrollmentsystem/infrastructure/web/GlobalExceptionHandler.java:50-75 | EnrollmentConcurrencyConflict, ExhaustedRetryException, serialization failures and lock or version failures all answer 409 ENROLLMENT_CONCURRENCY_CONFLICT |
| Lifecycle.CancelFreesPair | src/main/java/me/gogradually/courseenrollmentsystem/application/enrollment/support/EnrollmentCancellationProcessor.java:17-26 | after a committed cancellation the pair has no ACTIVE row, so it may enroll again |
| Lifecycle.SecondCancelCollides | src/main/java/me/gogradually/courseenrollmentsystem/domain/enrollment/Enrollment.java:18-28 | enroll, cancel, re-enroll, cancel: the second cancellation rolls back with a data-integrity violation, because the key includes the status |
| Lifecycle.ConditionalIncrementLostUnderCancel | src/main/java/me/gogradually/courseenrollmentsystem/infrastructure/repository/CourseRepositoryAdapter.java:59-68 | a conditional increment between a cancellation's read and its version-checked save is overwritten: the count ends one below the start although one seat was taken and one returned |

## Left out

- Real concurrency, row locks and transaction isolation are not modelled. Lock grants, the commits of other transactions and per-attempt outcomes are inputs, and `Lifecycle` states the interleavings that matter for the data.
- Pessimistic.Enroll: an attempt that holds both its locks is taken to run without interference. Every row it reads is the locked course's, or belongs to the locked student, so other writers are only seen between attempts.
- SeparatedExecutor.FinalizeEnrollment: `SeparatedEnrollmentTxExecutor.finalizeEnrollment` calls `ruleValidator.validateAfterInsert`, which `EnrollmentRuleValidator` does not declare. The model assumes it is `validateAfterAtomicInsert`, the validator's one post-insert check.
- Store.DeleteById: `SeparatedEnrollmentTxExecutor.releaseSeat` calls `EnrollmentRepository.deleteById`, which `EnrollmentRepositoryAdapter` does not implement. The model assumes it removes the row with that key and nothing else.
- PersistenceSupport.TranslateInsertFailure: `EnrollmentPersistenceSupport.insertActiveOrThrow` calls `CourseRepository.existsById`, which `CourseRepositoryAdapter` does not implement. The model assumes it answers whether the course is in the catalog. `StudentRepositoryAdapter` does implement the student check.
- SeedGenerator.PickCapacity: `InitialDataGenerator.pickCapacity` reads `properties.hotCourseCapacity()`, which `InitialDataProperties` does not declare. The model takes the hot-course capacity as an unconstrained input.
- Spring Retry is modelled by its attempt limit (3), its zero-delay backoff as no wait at all, and the errors it retries. Its proxy machinery is left out.
- JPA and Hibernate plumbing (entity state, flush order inside one transaction, lazy loading) and the HTTP controllers and DTOs are left out. Each repository call is one function on the store.
- Timestamps are opaque instants passed in as parameters, and the clock is not read.
- Names of students, professors, departments and courses are plain data and are not stored, except the course code.
- The timetable query joins department and professor with inner joins. The model assumes every course has both, since the catalog has no optional links.
- Times of day have minute precision; seconds and nanoseconds of `LocalTime` are left out.
- `ExceptionHandler.Code` models the status and code only; the message text and the response timestamp are left out.
- `PersistenceSupport.IsDuplicateEnrollmentViolation` lower-cases ASCII letters only (through `Text.Lower`); locale-dependent mapping of other characters is left out.
- `SeedGenerator.GeneratedCodesDistinct` proves distinct course codes only while a department has fewer than 900 courses; past that the code grows a digit and the proof does not cover it.
- `SeedGenerator.GenerateIfEmpty` states the numbers of rows it creates, not their field values. The per-course values are stated by `SeedGenerator.GenerateCourses`.
- The generator's `java.util.Random` draws are inputs (one credit roll and one capacity roll per course), and the seeding's batch inserts are one step.
- The load tests' mulberry32 generator is left out. Its 32-bit outputs are inputs to `Shuffle.ShuffleInPlace`.
- `Shuffle.SwapIndex` multiplies exactly, whereas JavaScript computes `Math.floor(random() * (index + 1))` in floating point. The two agree while index + 1 is below 2^21.
- The load tests' HTTP fetch loops, JSON parsing, base URL handling and transport errors are left out. `MultiSetup.FetchStudentIds` and `SingleSetup.ResolveStudent` take the listed rows as input and model only the checks on them.
- `SingleSetup.NormalizeCourses` states the result as a permutation sorted by id. JavaScript's stable sort also keeps entries with equal ids in listing order; the model does not state that order.
- `SingleSetup.SelectConflictCourses` models the sort-then-take-first choice of the largest group as a scan with the same tie-breaking.
- The k6 runner scripts, summaries and plot scripts, the health endpoint, the bootstrap configuration and the architecture tests are outside the enrollment core.

=== FILE: atomic.dfy ===
/** The atomic strategy: insert the ACTIVE row first (the unique key rejects
    a duplicate), take the seat with the conditional increment, then lock
    the student and validate credits and schedule against the student's
    other ACTIVE rows. One transaction: any failure rolls everything back. */
module Atomic {
  import opened Common
  import opened Enrollments
  import opened Store
  import opened SeatCounter
  import opened RuleValidator
  import opened PersistenceSupport
  import opened Cancellation

  /** enroll(studentId, courseId). The course row is never locked: the
      guarded increment is what keeps the counter within capacity. */
  function Enroll(s: Store, student: StudentId, course: CourseId, studentLock: Lock): (r: Tx<Enrollment>)
    ensures ExistsActive(s, student, course) ==> r == Rollback(DuplicateEnrollment)
    ensures !ExistsActive(s, student, course) && course !in s.courses ==> r == Rollback(CourseNotFound)
    ensures !ExistsActive(s, student, course) && course in s.courses
            && s.courses[course].enrolledCount >= s.courses[course].capacity
            ==> r == Rollback(CourseCapacityExceeded)
    ensures !ExistsActive(s, student, course) && course in s.courses
            && s.courses[course].enrolledCount < s.courses[course].capacity
            ==> && (studentLock.TimedOut? ==> r == Rollback(LockFailure))
                && (studentLock.Granted? && student !in s.students ==> r == Rollback(StudentNotFound))
    ensures r.Commit? ==> && course in s.courses
                          && r.value == Enrollments.Enroll(s.nextId, student, course)
                          && r.store == Enrolled(s, student, course)
  {
    match InsertActiveOrThrow(s, student, course)
    case Rollback(e) => Rollback(e)
    case Commit(id, s1) =>
      match IncrementSeatOrThrow(s1, course)
      case Rollback(e) => Rollback(e)
      case Commit(_, s2) =>
        if course !in s2.courses then Rollback(CourseNotFound)
        else if studentLock.TimedOut? then Rollback(LockFailure)
        else if student !in s2.students then Rollback(StudentNotFound)
        else
          match ValidateAfterInsert(s2, student, id, s2.courses[course])
          case Err(e) => Rollback(e)
          case Ok(_) =>
            match FindRow(s2, id)
            case None => Rollback(EnrollmentNotFound)
            case Some(row) => Commit(row, s2)
  }

  /** Past the insert, the seat and the student lock, the verdict is the
      credit-and-schedule check against the student's ACTIVE courses before
      the request. Hence, with the student lock granted, the strategy commits
      exactly when the reference rules allow the enrollment, and then commits
      the reference store itself: the bulk increment leaves versions alone. */
  lemma MatchesReference(s: Store, student: StudentId, course: CourseId, studentLock: Lock)
    requires RowsIndexed(s)
    ensures var r := Enroll(s, student, course, studentLock);
            && (studentLock.Granted? ==> (r.Commit? <==> EnrollAllowed(s, student, course)))
            && (studentLock.Granted? && student in s.students && course in s.courses
                && !ExistsActive(s, student, course)
                && s.courses[course].enrolledCount < s.courses[course].capacity && r.Rollback?
                ==> r.error == ValidateCreditAndSchedule(ActiveCourses(s, student, None), s.courses[course]).error)
  {
    var r := Enroll(s, student, course, studentLock);
    if !ExistsActive(s, student, course) && course in s.courses
       && s.courses[course].enrolledCount < s.courses[course].capacity {
      var ins := InsertActive(s, student, course);
      var s2 := IncrementIfAvailable(ins.store, course).store;
      AfterInsertValidationAgrees(s, s2, student, course);
    }
  }

  /** An unknown student: the row and the seat taken before the student is
      looked up are rolled back with the rest. */
  lemma UnknownStudentLeavesNothing(s: Store, student: StudentId, course: CourseId)
    requires student !in s.students
    ensures Enroll(s, student, course, Granted).Rollback?
    ensures Enroll(s, student, course, Granted).After(s) == s
    ensures !ExistsActive(s, student, course) && course in s.courses
            && s.courses[course].enrolledCount < s.courses[course].capacity
            ==> Enroll(s, student, course, Granted) == Rollback(StudentNotFound)
  {
  }
}

=== FILE: cancellation.dfy ===
/** The shared cancellation routine: lock the enrollment row, cancel it,
    give its seat back in memory, and save the course (version-checked) and
    the row (unique-key-checked) in one transaction. The routine is split
    into the part that reads and the part that writes, so that another
    transaction can be placed between them. */
module Cancellation {
  import opened Common
  import opened Courses
  import opened Enrollments
  import opened Store

  datatype Lock = Granted | TimedOut

  /** What the read part hands to the write part: the course as loaded, the
      course after the in-memory decrease, and the cancelled row. */
  datatype CancelPlan = CancelPlan(id: EnrollmentId, course: CourseId, loaded: Course, updated: Course, row: Enrollment)

  /** The read part: lock and load the row, cancel it, load its course and
      decrease the counter in memory. A dangling course reference (possible,
      since there is no foreign key) fails to load: the model reports it as
      IllegalState, where the lazy load inside Hibernate would throw its own
      exception; both reach the client as a 500, and a Consistent store never
      has such a row. */
  function ReadForCancel(s: Store, id: EnrollmentId, lock: Lock, now: Instant): (r: Result<CancelPlan>)
    ensures lock.TimedOut? ==> r == Err(LockFailure)
    ensures lock.Granted? && id !in s.rows ==> r == Err(EnrollmentNotFound)
    ensures lock.Granted? && id in s.rows && !IsActive(s.rows[id]) ==> r == Err(EnrollmentCancellationNotAllowed)
    ensures r.Ok? <==> lock.Granted? && id in s.rows && IsActive(s.rows[id]) && s.rows[id].course in s.courses
    ensures r.Ok? ==>
              && r.value.id == id && r.value.row == s.rows[id].(status := Canceled, canceledAt := Some(now))
              && r.value.course == s.rows[id].course && r.value.loaded == s.courses[s.rows[id].course]
              && r.value.updated == DecreaseEnrollment(r.value.loaded)
  {
    if lock.TimedOut? then Err(LockFailure)
    else if id !in s.rows then Err(EnrollmentNotFound)
    else
      var e := s.rows[id];
      var canceled :- Cancel(e, now);
      if e.course !in s.courses then Err(IllegalState)
      else
        var c := s.courses[e.course];
        Ok(CancelPlan(id, e.course, c, DecreaseEnrollment(c), canceled))
  }

  /** The write part, at commit: the course UPDATE guarded by the version
      read, then the row UPDATE guarded by the unique key. Either failure
      rolls the whole transaction back. */
  function FlushCancel(s: Store, p: CancelPlan): (r: Tx<()>)
    ensures r.Commit? <==> && (p.updated == p.loaded
                               || (p.course in s.courses && s.courses[p.course].version == p.loaded.version))
                           && !exists k | k in s.rows && k != p.id :: KeyOf(s.rows[k]) == KeyOf(p.row)
    ensures p.updated != p.loaded && (p.course !in s.courses || s.courses[p.course].version != p.loaded.version)
            ==> r == Rollback(VersionConflict)
    ensures r.Rollback? ==> r.error == VersionConflict || r.error == DataIntegrityViolation
    ensures r.Commit? ==> && r.store.rows == s.rows[p.id := p.row]
                          && r.store.students == s.students && r.store.nextId == s.nextId
                          && r.store.courses == (if p.updated == p.loaded then s.courses
                                                 else s.courses[p.course := p.updated.(version := p.loaded.version + 1)])
  {
    match SaveCourse(s, p.course, p.loaded, p.updated)
    case Err(e) => Rollback(e)
    case Ok(s1) =>
      match SaveRow(s1, p.id, p.row)
      case Err(e) => Rollback(e)
      case Ok(s2) => Commit((), s2)
  }

  /** A CANCELED row for the same (student, course) already exists. */
  predicate CanceledTwinExists(s: Store, id: EnrollmentId)
    requires id in s.rows
  {
    exists k | k in s.rows && k != id :: KeyOf(s.rows[k]) == Key(s.rows[id].student, s.rows[id].course, Canceled)
  }

  /** cancel(enrollmentId) as one transaction. */
  function CancelEnrollment(s: Store, id: EnrollmentId, lock: Lock, now: Instant): (r: Tx<()>)
    ensures lock.TimedOut? ==> r == Rollback(LockFailure)
    ensures lock.Granted? && id !in s.rows ==> r == Rollback(EnrollmentNotFound)
    ensures lock.Granted? && id in s.rows && !IsActive(s.rows[id]) ==> r == Rollback(EnrollmentCancellationNotAllowed)
    ensures r.Commit? <==> lock.Granted? && id in s.rows && IsActive(s.rows[id]) && s.rows[id].course in s.courses
                           && !CanceledTwinExists(s, id)
    ensures lock.Granted? && id in s.rows && IsActive(s.rows[id]) && s.rows[id].course in s.courses && r.Rollback?
            ==> r.error == DataIntegrityViolation
    ensures r.Commit? ==>
              var e := s.rows[id];
              var c := s.courses[e.course];
              && r.store.rows == s.rows[id := e.(status := Canceled, canceledAt := Some(now))]
              && r.store.students == s.students && r.store.nextId == s.nextId
              && r.store.courses.Keys == s.courses.Keys
              && (forall k :: k in s.courses && k != e.course ==> r.store.courses[k] == s.courses[k])
              && SameExceptCount(c.(version := r.store.courses[e.course].version), r.store.courses[e.course])
              && r.store.courses[e.course].enrolledCount == (if c.enrolledCount > 0 then c.enrolledCount - 1 else c.enrolledCount)
              && r.store.courses[e.course].version == (if c.enrolledCount > 0 then c.version + 1 else c.version)
  {
    match ReadForCancel(s, id, lock, now)
    case Err(e) => Rollback(e)
    case Ok(p) =>
      var s1 := SaveCourse(s, p.course, p.loaded, p.updated);
      assert s1.Ok? && s1.value.rows == s.rows;
      assert KeyOf(p.row) == Key(s.rows[id].student, s.rows[id].course, Canceled);
      FlushCancel(s, p)
  }

  /** Cancellation keeps every store invariant: the row leaves the ACTIVE
      count of its course and the counter drops by one with it. */
  lemma CancelKeepsConsistent(s: Store, id: EnrollmentId, lock: Lock, now: Instant)
    requires Consistent(s)
    requires CancelEnrollment(s, id, lock, now).Commit?
    ensures Consistent(CancelEnrollment(s, id, lock, now).store)
  {
    var t := CancelEnrollment(s, id, lock, now).store;
    var e := s.rows[id];
    assert id < s.nextId;
    forall c | c in t.courses
      ensures t.courses[c].enrolledCount == ActiveCount(t, c)
    {
      CountPointUpdate(s.rows, t.rows, id, c, s.nextId);
      if c == e.course {
        assert ActiveFor(s.rows, id, c) && !ActiveFor(t.rows, id, c);
        assert s.courses[c].enrolledCount == ActiveCount(s, c);
      }
    }
    forall i, j | i in t.rows && j in t.rows && i != j
      ensures KeyOf(t.rows[i]) != KeyOf(t.rows[j])
    {
      if i == id {
        assert !CanceledTwinExists(s, id);
      } else if j == id {
        assert !CanceledTwinExists(s, id);
      } else {
        assert KeyOf(s.rows[i]) != KeyOf(s.rows[j]);
      }
    }
  }

  /** A cancellation that fails leaves the store as it was; in particular an
      unknown id or an already cancelled row changes nothing. */
  lemma FailedCancelChangesNothing(s: Store, id: EnrollmentId, lock: Lock, now: Instant)
    requires CancelEnrollment(s, id, lock, now).Rollback?
    ensures CancelEnrollment(s, id, lock, now).After(s) == s
  {
  }
}

=== FILE: common.dfy ===
/** Shared vocabulary of the enrollment engine: identifiers, optional values,
    the closed error taxonomy of the domain and infrastructure layers, and a
    result type that carries either a value or one of those errors. */
module Common {

  type StudentId = nat
  type CourseId = nat
  type EnrollmentId = nat

  datatype Option<+T> = None | Some(value: T)

  /** Every failure the engine can raise. The first group are the domain
      exceptions (subclasses of DomainException); the second group are the
      infrastructure signals that reach the engine from the persistence layer
      or from argument checks. */
  datatype Error =
    | StudentNotFound
    | CourseNotFound
    | EnrollmentNotFound
    | DuplicateEnrollment
    | CreditLimitExceeded
    | ScheduleConflict
    | CourseCapacityExceeded
    | EnrollmentCancellationNotAllowed
    | EnrollmentConcurrencyConflict(retryCount: nat)
      // a row lock could not be acquired (lock timeout, pessimistic locking failure)
    | LockFailure
      // a version-checked write found a newer version (optimistic locking failure)
    | VersionConflict
      // a constraint violation raised outside the guarded insert path
    | DataIntegrityViolation
    | IllegalState
    | IllegalArgument
      // Spring Retry's ExhaustedRetryException: the retried call failed with
      // an exception no @Recover handler accepts, kept here as the cause
    | ExhaustedRetry(cause: Error)
  {
    /** True for the exceptions that extend DomainException. */
    predicate IsDomain() {
      !(LockFailure? || VersionConflict? || DataIntegrityViolation? || IllegalState? || IllegalArgument?
        || ExhaustedRetry?)
    }
  }

  datatype Result<+T> = Ok(value: T) | Err(error: Error) {
    predicate IsFailure() {
      Err?
    }

    function PropagateFailure<U>(): Result<U>
      requires Err?
    {
      Err(error)
    }

    function Extract(): T
      requires Ok?
    {
      value
    }
  }

  /** A check that either passes or raises an error. */
  type Check = Result<()>

  function Pass(): Check {
    Ok(())
  }

  function Min(a: int, b: int): int {
    if a <= b then a else b
  }
}

=== FILE: course.dfy ===
/** The Course aggregate: credits, a capacity, the enrolled-seat counter, the
    optimistic-lock version and the weekly time slot. Department and professor
    references carry no behaviour and are not part of the model. */
module Courses {
  import opened Common
  import opened TimeSlots

  datatype Course = Course(
    id: CourseId,
    code: string,
    credits: int,
    capacity: int,
    enrolledCount: int,
    version: nat,
    slot: TimeSlot)

  /** The aggregate invariant the constructor establishes. */
  predicate WellFormed(c: Course) {
    c.credits > 0 && c.capacity > 0 && 0 <= c.enrolledCount <= c.capacity && Valid(c.slot)
  }

  /** The constructor checks credits, then capacity, then the enrolled count,
      each failing with IllegalArgumentException. A fresh entity has version 0. */
  function NewCourse(id: CourseId, code: string, credits: int, capacity: int,
                     enrolledCount: int, slot: TimeSlot): (r: Result<Course>)
    requires Valid(slot)
    ensures r.Ok? <==> credits > 0 && capacity > 0 && 0 <= enrolledCount <= capacity
    ensures r.Ok? ==> WellFormed(r.value) && r.value.version == 0
                      && r.value.credits == credits && r.value.capacity == capacity
                      && r.value.enrolledCount == enrolledCount && r.value.slot == slot
                      && r.value.id == id && r.value.code == code
    ensures r.Err? ==> r.error == IllegalArgument
  {
    if credits <= 0 then Err(IllegalArgument)
    else if capacity <= 0 then Err(IllegalArgument)
    else if enrolledCount < 0 || enrolledCount > capacity then Err(IllegalArgument)
    else Ok(Course(id, code, credits, capacity, enrolledCount, 0, slot))
  }

  /** Takes one seat, or fails with CourseCapacityExceeded when the course is
      full. */
  function IncreaseEnrollment(c: Course): (r: Result<Course>)
    ensures r.Ok? <==> c.enrolledCount < c.capacity
    ensures r.Err? ==> r.error == CourseCapacityExceeded
    ensures r.Ok? ==> SameExceptCount(c, r.value) && r.value.enrolledCount == c.enrolledCount + 1
  {
    if c.enrolledCount >= c.capacity then Err(CourseCapacityExceeded)
    else Ok(c.(enrolledCount := c.enrolledCount + 1))
  }

  /** Returns one seat; a no-op at zero. */
  function DecreaseEnrollment(c: Course): (r: Course)
    ensures SameExceptCount(c, r)
    ensures c.enrolledCount > 0 ==> r.enrolledCount == c.enrolledCount - 1
    ensures c.enrolledCount <= 0 ==> r == c
  {
    if c.enrolledCount > 0 then c.(enrolledCount := c.enrolledCount - 1) else c
  }

  /** Every field except the seat counter is the same. */
  predicate SameExceptCount(a: Course, b: Course) {
    a.(enrolledCount := b.enrolledCount) == b
  }

  /** Compares the two courses' slots; a null other course is an
      IllegalArgumentException. */
  function HasScheduleConflictWith(c: Course, other: Option<Course>): (r: Result<bool>)
    ensures other.None? <==> r.Err?
    ensures r.Err? ==> r.error == IllegalArgument
    ensures r.Ok? && Valid(c.slot) && Valid(other.value.slot) ==>
              (r.value <==> exists m :: c.slot.day == other.value.slot.day
                                      && Covers(c.slot, m) && Covers(other.value.slot, m))
    ensures r.Ok? ==> (r.value <==> Overlaps(other.value.slot, c.slot))
  {
    if other.None? then Err(IllegalArgument)
    else
      if Valid(c.slot) && Valid(other.value.slot) then
        OverlapsMeansCommonMinute(c.slot, other.value.slot);
        Ok(Overlaps(c.slot, other.value.slot))
      else
        Ok(Overlaps(c.slot, other.value.slot))
  }

  /** Both mutators keep 0 <= enrolledCount <= capacity. */
  lemma MutatorsPreserveWellFormed(c: Course)
    requires WellFormed(c)
    ensures WellFormed(DecreaseEnrollment(c))
    ensures IncreaseEnrollment(c).Ok? ==> WellFormed(IncreaseEnrollment(c).value)
  {
  }

  /** A successful increase followed by a decrease restores the course. */
  lemma IncreaseThenDecreaseRestores(c: Course)
    requires c.enrolledCount >= 0 && IncreaseEnrollment(c).Ok?
    ensures DecreaseEnrollment(IncreaseEnrollment(c).value) == c
  {
  }

  /** 29 of 30 seats taken: one more fits and the counter reads 30; then the
      course is full and the next increase fails without changing it. */
  lemma LastSeatThenFull(slot: TimeSlot)
    ensures var c := Course(1, "CSE101", 3, 30, 29, 0, slot);
            && IncreaseEnrollment(c) == Ok(c.(enrolledCount := 30))
            && IncreaseEnrollment(c.(enrolledCount := 30)) == Err(CourseCapacityExceeded)
  {
  }
}

=== FILE: enroll_body.dfy ===
/** The read-modify-write enrollment body the pessimistic strategy and the
    optimistic executor share once the course and the student are loaded:
    pre-insert validation, the in-memory seat increase, the version-checked
    course save and the insert of the new row. It is split into the part
    that reads and the part that writes at commit. */
module EnrollBody {
  import opened Common
  import opened Courses
  import opened Enrollments
  import opened Store
  import opened RuleValidator

  /** What the read part hands to the write part. */
  datatype EnrollPlan = EnrollPlan(student: StudentId, course: CourseId, loaded: Course, updated: Course)

  /** Validate against the store, then take the seat in memory. */
  function PrepareEnroll(s: Store, student: StudentId, course: CourseId): (r: Result<EnrollPlan>)
    requires course in s.courses
    ensures r.Ok? <==> ValidatePreInsert(s, student, course, s.courses[course]).Ok?
                       && s.courses[course].enrolledCount < s.courses[course].capacity
    ensures ValidatePreInsert(s, student, course, s.courses[course]).Err? ==>
              r == Err(ValidatePreInsert(s, student, course, s.courses[course]).error)
    ensures r.Err? && ValidatePreInsert(s, student, course, s.courses[course]).Ok? ==>
              r.error == CourseCapacityExceeded
    ensures r.Ok? ==> r.value.student == student && r.value.course == course
                      && r.value.loaded == s.courses[course]
                      && r.value.updated == s.courses[course].(enrolledCount := s.courses[course].enrolledCount + 1)
  {
    var c := s.courses[course];
    var _ :- ValidatePreInsert(s, student, course, c);
    var c' :- IncreaseEnrollment(c);
    Ok(EnrollPlan(student, course, c, c'))
  }

  /** The commit. The new row is inserted first (its identity key makes the
      insert run at once, guarded by the unique key); the course update, with
      its version check, runs when the transaction flushes. So a duplicate
      is reported before a stale version. */
  function FlushEnroll(s: Store, p: EnrollPlan): (r: Tx<Enrollment>)
    requires p.updated != p.loaded
    ensures r.Commit? <==> !ExistsActive(s, p.student, p.course)
                           && p.course in s.courses && s.courses[p.course].version == p.loaded.version
    ensures ExistsActive(s, p.student, p.course) ==> r == Rollback(DataIntegrityViolation)
    ensures r.Rollback? && !ExistsActive(s, p.student, p.course) ==> r.error == VersionConflict
    ensures r.Commit? ==>
              && r.value == Enroll(s.nextId, p.student, p.course)
              && r.store == s.(courses := s.courses[p.course := p.updated.(version := p.loaded.version + 1)],
                               rows := s.rows[s.nextId := Enroll(s.nextId, p.student, p.course)],
                               nextId := s.nextId + 1)
  {
    match InsertActive(s, p.student, p.course)
    case InsertFailed(_) => Rollback(DataIntegrityViolation)
    case Inserted(id, s1) =>
      match SaveCourse(s1, p.course, p.loaded, p.updated)
      case Err(e) => Rollback(e)
      case Ok(s2) => Commit(Enroll(id, p.student, p.course), s2)
  }

  /** The body run without interference: it commits exactly when the
      reference rules allow the enrollment (the caller has already found the
      course and the student), commits the reference store up to the
      course's version, and otherwise reports the first failing check in
      the order duplicate, credits, schedule, capacity. */
  function RunEnroll(s: Store, student: StudentId, course: CourseId): (r: Tx<Enrollment>)
    requires course in s.courses && student in s.students
    ensures r.Commit? <==> EnrollAllowed(s, student, course)
    ensures r.Commit? ==> && r.value == Enroll(s.nextId, student, course)
                          && EqualUpToVersions(r.store, Enrolled(s, student, course))
                          && r.store.courses[course].version == s.courses[course].version + 1
    ensures r.Rollback? && ExistsActive(s, student, course) ==> r.error == DuplicateEnrollment
    ensures r.Rollback? && !ExistsActive(s, student, course) ==>
              r.error == (if ValidatePreInsert(s, student, course, s.courses[course]).Err?
                          then ValidatePreInsert(s, student, course, s.courses[course]).error
                          else CourseCapacityExceeded)
  {
    match PrepareEnroll(s, student, course)
    case Err(e) => Rollback(e)
    case Ok(p) => FlushEnroll(s, p)
  }
}

=== FILE: enrollment.dfy ===
/** The Enrollment entity and its two-state lifecycle ACTIVE -> CANCELED.
    Clock reads are passed in as opaque instants. */
module Enrollments {
  import opened Common

  datatype Status = Active | Canceled

  type Instant = nat

  datatype Enrollment = Enrollment(
    id: EnrollmentId,
    student: StudentId,
    course: CourseId,
    status: Status,
    canceledAt: Option<Instant>)

  /** The columns of the unique key uk_enrollments_student_course_status. */
  datatype Key = Key(student: StudentId, course: CourseId, status: Status)

  function KeyOf(e: Enrollment): Key {
    Key(e.student, e.course, e.status)
  }

  /** The factory: a new ACTIVE enrollment with no cancellation time. */
  function Enroll(id: EnrollmentId, student: StudentId, course: CourseId): (e: Enrollment)
    ensures e.id == id && e.student == student && e.course == course
    ensures IsActive(e) && e.canceledAt.None?
  {
    Enrollment(id, student, course, Active, None)
  }

  predicate IsActive(e: Enrollment) {
    e.status == Active
  }

  /** ACTIVE -> CANCELED, stamping the cancellation time; any other status
      fails with EnrollmentCancellationNotAllowed. */
  function Cancel(e: Enrollment, now: Instant): (r: Result<Enrollment>)
    ensures r.Ok? <==> IsActive(e)
    ensures r.Err? ==> r.error == EnrollmentCancellationNotAllowed
    ensures r.Ok? ==> r.value == e.(status := Canceled, canceledAt := Some(now))
  {
    if e.status != Active then Err(EnrollmentCancellationNotAllowed)
    else Ok(e.(status := Canceled, canceledAt := Some(now)))
  }

  /** One step of the lifecycle as the entity's methods allow it. */
  ghost predicate Step(e: Enrollment, e': Enrollment) {
    exists now :: Cancel(e, now) == Ok(e')
  }

  /** CANCELED is terminal: no step leaves it, and no step leads to ACTIVE. */
  lemma CanceledIsTerminal(e: Enrollment, e': Enrollment)
    requires Step(e, e')
    ensures IsActive(e) && e'.status == Canceled
    ensures e'.id == e.id && e'.student == e.student && e'.course == e.course
  {
    var now :| Cancel(e, now) == Ok(e');
  }
}

=== FILE: exception_handler.dfy ===
/** The web layer's error translation: each raised exception becomes an
    HTTP status and an error code. Domain exceptions carry a code derived
    from their class name; lock, version and retry failures share one fixed
    code; request-binding errors are BAD_REQUEST; anything else is an
    internal error. */
module ExceptionHandler {
  import opened Common
  import opened Text

  // ---------------------------------------------------------------------
  // toCode

  predicate EndsWith(s: string, suffix: string) {
    |suffix| <= |s| && s[|s| - |suffix|..] == suffix
  }

  /** The name without a trailing suffix, when it has one. */
  function StripSuffix(s: string, suffix: string): (r: string)
    ensures EndsWith(s, suffix) ==> r + suffix == s
    ensures !EndsWith(s, suffix) ==> r == s
  {
    if EndsWith(s, suffix) then
      assert s == s[..|s| - |suffix|] + s[|s| - |suffix|..];
      s[..|s| - |suffix|]
    else s
  }

  /** A lower-case letter directly followed by an upper-case one. */
  predicate BoundaryAt(s: string, i: int) {
    0 <= i && i + 1 < |s| && IsLower(s[i]) && IsUpper(s[i + 1])
  }

  /** replaceAll("([a-z])([A-Z])", "$1_$2"). A match always ends on an
      upper-case letter, which cannot start the next match, so the
      left-to-right replacement puts '_' into every lower-upper boundary. */
  function SplitWords(s: string): (r: string)
    ensures forall i :: !BoundaryAt(r, i)
    ensures |s| > 0 ==> |r| > 0 && r[0] == s[0]
    decreases |s|
  {
    if |s| < 2 then s
    else if IsLower(s[0]) && IsUpper(s[1]) then
      var rest := SplitWords(s[1..]);
      var r := [s[0], '_'] + rest;
      assert forall i :: !BoundaryAt(r, i) by {
        forall i
          ensures !BoundaryAt(r, i)
        {
          if i >= 2 {
            assert !BoundaryAt(rest, i - 2);
          }
        }
      }
      r
    else
      var rest := SplitWords(s[1..]);
      var r := [s[0]] + rest;
      assert forall i :: !BoundaryAt(r, i) by {
        forall i
          ensures !BoundaryAt(r, i)
        {
          if i >= 1 {
            assert !BoundaryAt(rest, i - 1);
          }
        }
      }
      r
  }

  /** The string with every '_' removed. */
  function DropUnderscores(s: string): string {
    if |s| == 0 then [] else (if s[0] == '_' then [] else [s[0]]) + DropUnderscores(s[1..])
  }

  /** The replacement only inserts underscores: removing all underscores
      from both sides gives the same text. */
  lemma {:induction false} SplitWordsOnlyInserts(s: string)
    ensures DropUnderscores(SplitWords(s)) == DropUnderscores(s)
    decreases |s|
  {
    if |s| >= 2 {
      SplitWordsOnlyInserts(s[1..]);
      var rest := SplitWords(s[1..]);
      DropCons(s[0], s[1..]);
      assert s == [s[0]] + s[1..];
      if IsLower(s[0]) && IsUpper(s[1]) {
        DropCons('_', rest);
        DropCons(s[0], ['_'] + rest);
        assert [s[0], '_'] + rest == [s[0]] + (['_'] + rest);
      } else {
        DropCons(s[0], rest);
      }
    }
  }

  lemma DropCons(c: char, t: string)
    ensures DropUnderscores([c] + t) == (if c == '_' then [] else [c]) + DropUnderscores(t)
  {
    assert ([c] + t)[1..] == t;
  }

  /** The number of lower-upper boundaries. */
  function Boundaries(s: string): nat {
    if |s| < 2 then 0 else (if IsLower(s[0]) && IsUpper(s[1]) then 1 else 0) + Boundaries(s[1..])
  }

  /** One underscore per boundary. */
  lemma {:induction false} SplitWordsLength(s: string)
    ensures |SplitWords(s)| == |s| + Boundaries(s)
    decreases |s|
  {
    if |s| >= 2 {
      SplitWordsLength(s[1..]);
    }
  }

  /** toCode: drop a trailing "Exception", separate the words, upper-case.
      The suffix is a parameter fixed by the precondition rather than a
      string literal in the body: with the literal inside the recursive
      suffix functions the proofs run past the solver's resource limit. */
  function ToCode(simpleName: string, suffix: string): (r: string)
    requires suffix == "Exception"
    ensures |r| == |StripSuffix(simpleName, suffix)| + Boundaries(StripSuffix(simpleName, suffix))
    ensures forall i :: 0 <= i < |r| ==> !IsLower(r[i])
  {
    var words := SplitWords(StripSuffix(simpleName, suffix));
    SplitWordsLength(StripSuffix(simpleName, suffix));
    Upper(words)
  }

  /** A string without boundaries is left as it is. */
  lemma {:induction false} SplitWordsKeeps(s: string)
    requires forall i :: !BoundaryAt(s, i)
    ensures SplitWords(s) == s
    decreases |s|
  {
    if |s| >= 2 {
      assert !BoundaryAt(s, 0);
      forall i
        ensures !BoundaryAt(s[1..], i)
      {
        assert !BoundaryAt(s, i + 1);
      }
      SplitWordsKeeps(s[1..]);
    }
  }

  /** Separating words in a concatenation: each part is separated on its
      own, with '_' at the seam when the seam is a boundary. */
  lemma {:induction false} SplitWordsAppend(a: string, b: string)
    requires |a| >= 1 && |b| >= 1
    ensures SplitWords(a + b)
            == SplitWords(a) + (if IsLower(a[|a| - 1]) && IsUpper(b[0]) then "_" else "") + SplitWords(b)
    decreases |a|
  {
    if |a| >= 2 {
      assert (a + b)[1..] == a[1..] + b;
      SplitWordsAppend(a[1..], b);
    }
  }

  lemma UpperAppend(a: string, b: string)
    ensures Upper(a + b) == Upper(a) + Upper(b)
  {
  }

  /** An upper-case letter followed by at least one lower-case letter. */
  predicate Capitalised(w: string) {
    |w| >= 2 && IsUpper(w[0]) && forall i :: 1 <= i < |w| ==> IsLower(w[i])
  }

  lemma CapitalisedHasNoBoundary(w: string)
    requires Capitalised(w)
    ensures forall i :: !BoundaryAt(w, i)
  {
    forall i | 0 <= i < |w| - 1
      ensures !BoundaryAt(w, i)
    {
      assert IsLower(w[i + 1]);
    }
  }

  /** Two capitalised words become upper-case words joined by '_'. */
  lemma TwoWords(a: string, b: string)
    requires Capitalised(a) && Capitalised(b)
    ensures SplitWords(a + b) == a + "_" + b
    ensures Upper(SplitWords(a + b)) == Upper(a) + "_" + Upper(b)
  {
    CapitalisedHasNoBoundary(a);
    CapitalisedHasNoBoundary(b);
    SplitWordsKeeps(a);
    SplitWordsKeeps(b);
    SplitWordsAppend(a, b);
    UpperAppend(a + "_", b);
    UpperAppend(a, "_");
  }

  /** The code of a two-word exception name. */
  lemma TwoWordCode(a: string, b: string, suffix: string)
    requires Capitalised(a) && Capitalised(b) && suffix == "Exception"
    ensures ToCode(a + b + suffix, suffix) == Upper(a) + "_" + Upper(b)
  {
    assert StripSuffix(a + b + suffix, suffix) == a + b;
    TwoWords(a, b);
  }

  /** Three capitalised words are joined by '_'. */
  lemma ThreeWords(a: string, b: string, c: string)
    requires Capitalised(a) && Capitalised(b) && Capitalised(c)
    ensures SplitWords(a + b + c) == a + "_" + b + "_" + c
  {
    assert a + b + c == a + (b + c);
    TwoWords(b, c);
    CapitalisedHasNoBoundary(a);
    SplitWordsKeeps(a);
    SplitWordsAppend(a, b + c);
    assert (b + c)[0] == b[0];
    assert a + "_" + (b + "_" + c) == a + "_" + b + "_" + c;
  }

  lemma UpperOfThree(a: string, b: string, c: string)
    ensures Upper(a + "_" + b + "_" + c) == Upper(a) + "_" + Upper(b) + "_" + Upper(c)
  {
    UpperAppend(a + "_" + b + "_", c);
    UpperAppend(a + "_" + b, "_");
    UpperAppend(a + "_", b);
    UpperAppend(a, "_");
  }

  /** The code of a three-word exception name. */
  lemma ThreeWordCode(a: string, b: string, c: string, suffix: string)
    requires Capitalised(a) && Capitalised(b) && Capitalised(c) && suffix == "Exception"
    ensures ToCode(a + b + c + suffix, suffix) == Upper(a) + "_" + Upper(b) + "_" + Upper(c)
  {
    assert StripSuffix(a + b + c + suffix, suffix) == a + b + c;
    ThreeWords(a, b, c);
    UpperOfThree(a, b, c);
  }

  lemma DuplicateEnrollmentWords(a: string, b: string)
    requires a == "Duplicate" && b == "Enrollment"
    ensures Capitalised(a) && Capitalised(b) && Upper(a) == "DUPLICATE" && Upper(b) == "ENROLLMENT"
  {
  }

  /** DuplicateEnrollmentException becomes DUPLICATE_ENROLLMENT, as the
      web tests expect. */
  lemma DuplicateEnrollmentCode(a: string, b: string, suffix: string, code: string)
    requires a == "Duplicate" && b == "Enrollment" && suffix == "Exception" && code == "DUPLICATE_ENROLLMENT"
    ensures ToCode(a + b + suffix, suffix) == code
  {
    DuplicateEnrollmentWords(a, b);
    TwoWordCode(a, b, suffix);
  }

  lemma StudentNotFoundWords(a: string, b: string, c: string)
    requires a == "Student" && b == "Not" && c == "Found"
    ensures Capitalised(a) && Capitalised(b) && Capitalised(c)
    ensures Upper(a) == "STUDENT" && Upper(b) == "NOT" && Upper(c) == "FOUND"
  {
  }

  /** StudentNotFoundException becomes STUDENT_NOT_FOUND. */
  lemma StudentNotFoundCode(a: string, b: string, c: string, suffix: string, code: string)
    requires a == "Student" && b == "Not" && c == "Found" && suffix == "Exception" && code == "STUDENT_NOT_FOUND"
    ensures ToCode(a + b + c + suffix, suffix) == code
  {
    StudentNotFoundWords(a, b, c);
    ThreeWordCode(a, b, c, suffix);
  }

  // ---------------------------------------------------------------------
  // The handler table

  /** What reaches the handler. Engine errors arrive as the domain or
      infrastructure exception the engine raises, Spring Retry's
      ExhaustedRetryException among them; the handler also sees
      request-binding failures, a serialization failure, and any other
      exception. */
  datatype Thrown =
    | Engine(error: Error)
    | BadRequest(message: string)
    | SerializationFailure
    | Unexpected

  datatype Response = Response(status: nat, code: string)

  const BAD_REQUEST: nat := 400
  const NOT_FOUND: nat := 404
  const CONFLICT: nat := 409
  const UNPROCESSABLE_ENTITY: nat := 422
  const INTERNAL_SERVER_ERROR: nat := 500

  /** The simple class name of the exception a domain error is raised as. */
  function ClassName(e: Error): (r: string)
    requires e.IsDomain()
    ensures EndsWith(r, "Exception")
  {
    var words := match e
      case StudentNotFound => "StudentNotFound"
      case CourseNotFound => "CourseNotFound"
      case EnrollmentNotFound => "EnrollmentNotFound"
      case DuplicateEnrollment => "DuplicateEnrollment"
      case CreditLimitExceeded => "CreditLimitExceeded"
      case ScheduleConflict => "ScheduleConflict"
      case CourseCapacityExceeded => "CourseCapacityExceeded"
      case EnrollmentCancellationNotAllowed => "EnrollmentCancellationNotAllowed"
      case EnrollmentConcurrencyConflict(_) => "EnrollmentConcurrencyConflict";
    AppendEndsWith(words, "Exception");
    words + "Exception"
  }

  lemma AppendEndsWith(a: string, b: string)
    ensures EndsWith(a + b, b)
  {
    assert (a + b)[|a|..] == b;
  }

  predicate IsNotFound(e: Error) {
    e.StudentNotFound? || e.CourseNotFound? || e.EnrollmentNotFound?
  }

  predicate IsDomainConflict(e: Error) {
    e.DuplicateEnrollment? || e.EnrollmentCancellationNotAllowed? || e.EnrollmentConcurrencyConflict?
  }

  /** The engine errors that are not domain exceptions but that the
      concurrency handler catches: lock timeouts, pessimistic and optimistic
      locking failures, and an exhausted retry. */
  predicate IsConcurrencyFailure(e: Error) {
    e.LockFailure? || e.VersionConflict? || e.ExhaustedRetry?
  }

  /** The status of the handler Spring selects for each exception. */
  function Status(t: Thrown): (r: nat)
    ensures r == NOT_FOUND <==> t.Engine? && IsNotFound(t.error)
    ensures r == CONFLICT <==> || t.SerializationFailure?
                               || (t.Engine? && (IsDomainConflict(t.error) || IsConcurrencyFailure(t.error)))
    ensures r == UNPROCESSABLE_ENTITY
            <==> t.Engine? && (t.error.CreditLimitExceeded? || t.error.ScheduleConflict? || t.error.CourseCapacityExceeded?)
    ensures r == BAD_REQUEST <==> t.BadRequest?
    ensures r == INTERNAL_SERVER_ERROR
            <==> t.Unexpected? || (t.Engine? && !t.error.IsDomain() && !IsConcurrencyFailure(t.error))
  {
    match t
    case BadRequest(_) => BAD_REQUEST
    case SerializationFailure => CONFLICT
    case Unexpected => INTERNAL_SERVER_ERROR
    case Engine(e) =>
      if IsNotFound(e) then NOT_FOUND
      else if IsDomainConflict(e) || IsConcurrencyFailure(e) then CONFLICT
      else if e.IsDomain() then UNPROCESSABLE_ENTITY
      else INTERNAL_SERVER_ERROR
  }

  /** The error code of the response: a domain exception's own code, one
      shared code for the concurrency failures that are not domain
      exceptions, and fixed codes for bad requests and everything else. */
  function Code(t: Thrown, suffix: string): (r: string)
    requires suffix == "Exception"
    ensures t.Engine? && t.error.IsDomain() ==> r == ToCode(ClassName(t.error), suffix)
    ensures t.SerializationFailure? || (t.Engine? && IsConcurrencyFailure(t.error))
            ==> r == "ENROLLMENT_CONCURRENCY_CONFLICT"
    ensures t.BadRequest? ==> r == "BAD_REQUEST"
    ensures Status(t) == INTERNAL_SERVER_ERROR ==> r == "INTERNAL_SERVER_ERROR"
  {
    match t
    case BadRequest(_) => "BAD_REQUEST"
    case SerializationFailure => "ENROLLMENT_CONCURRENCY_CONFLICT"
    case Unexpected => "INTERNAL_SERVER_ERROR"
    case Engine(e) =>
      if e.IsDomain() then ToCode(ClassName(e), suffix)
      else if IsConcurrencyFailure(e) then "ENROLLMENT_CONCURRENCY_CONFLICT"
      else "INTERNAL_SERVER_ERROR"
  }

  /** The response the selected handler builds. */
  function Handle(t: Thrown, suffix: string): Response
    requires suffix == "Exception"
  {
    Response(Status(t), Code(t, suffix))
  }

  lemma ConcurrencyConflictWords(a: string, b: string, c: string)
    requires a == "Enrollment" && b == "Concurrency" && c == "Conflict"
    ensures Capitalised(a) && Capitalised(b) && Capitalised(c)
    ensures Upper(a) == "ENROLLMENT" && Upper(b) == "CONCURRENCY" && Upper(c) == "CONFLICT"
  {
  }

  lemma ConcurrencyConflictClassName(retryCount: nat, a: string, b: string, c: string, suffix: string)
    requires a == "Enrollment" && b == "Concurrency" && c == "Conflict" && suffix == "Exception"
    ensures ClassName(EnrollmentConcurrencyConflict(retryCount)) == a + b + c + suffix
  {
    assert a + b + c == "EnrollmentConcurrencyConflict";
  }

  /** EnrollmentConcurrencyConflictException becomes
      ENROLLMENT_CONCURRENCY_CONFLICT. */
  lemma ConcurrencyConflictCode(a: string, b: string, c: string, suffix: string, code: string)
    requires a == "Enrollment" && b == "Concurrency" && c == "Conflict" && suffix == "Exception"
    requires code == "ENROLLMENT_CONCURRENCY_CONFLICT"
    ensures ToCode(a + b + c + suffix, suffix) == code
  {
    ConcurrencyConflictWords(a, b, c);
    ThreeWordCode(a, b, c, suffix);
  }

  /** Every failure of the engine's concurrency control surfaces as the
      same response, 409 ENROLLMENT_CONCURRENCY_CONFLICT: the
      retry-exhausted domain error, the raw lock or version failure, a
      serialization failure and an exhausted retry alike. */
  lemma ConcurrencyFailuresAreConflicts(t: Thrown, suffix: string)
    requires suffix == "Exception"
    requires || t.SerializationFailure?
             || (t.Engine? && (t.error.EnrollmentConcurrencyConflict? || IsConcurrencyFailure(t.error)))
    ensures Handle(t, suffix) == Response(CONFLICT, "ENROLLMENT_CONCURRENCY_CONFLICT")
  {
    if t.Engine? && t.error.EnrollmentConcurrencyConflict? {
      var a, b, c := "Enrollment", "Concurrency", "Conflict";
      ConcurrencyConflictClassName(t.error.retryCount, a, b, c, suffix);
      ConcurrencyConflictCode(a, b, c, suffix, "ENROLLMENT_CONCURRENCY_CONFLICT");
    }
  }
}

=== FILE: k6_multi_setup.dfy ===
/** Setup of the multi-course contention load test: pick the target
    courses from the course listing, plan capacity × multiplier enrollment
    attempts per course, each by a different student, and interleave them.
    HTTP paging is outside the model: the listings are inputs. */
module MultiSetup {
  import opened Common
  import opened Sorting
  import opened Shuffle

  /** A course of GET /courses after Number.parseInt; None stands for NaN. */
  datatype ListedCourse = ListedCourse(id: Option<int>, capacity: Option<int>, enrolled: Option<int>)

  datatype TargetCourse = TargetCourse(id: int, capacity: int, enrolled: int)

  datatype SetupError =
    | NoCourses
    | NotEnoughCandidates(required: nat, actual: nat)
    | NonPositiveCapacity(courseId: int)
    | TooManyAttempts(planned: int, max: int)
    | NotEnoughStudents(needed: int, available: nat)

  /** A setup step either yields its value or throws. */
  datatype Setup<T> = Ready(value: T) | Abort(reason: SetupError)

  function IdOf(t: TargetCourse): int {
    t.id
  }

  /** The course with every field a number, if it is one. */
  function Parse(c: ListedCourse): (r: Option<TargetCourse>)
    ensures r.Some? <==> c.id.Some? && c.capacity.Some? && c.enrolled.Some?
    ensures r.Some? ==> r.value == TargetCourse(c.id.value, c.capacity.value, c.enrolled.value)
  {
    if c.id.Some? && c.capacity.Some? && c.enrolled.Some? then
      Some(TargetCourse(c.id.value, c.capacity.value, c.enrolled.value))
    else None
  }

  /** The map-and-filter step: the parsed courses, in listing order. */
  function ParsedCourses(courses: seq<ListedCourse>): (r: seq<TargetCourse>)
    ensures |r| <= |courses|
    ensures forall t :: t in r <==> exists k :: 0 <= k < |courses| && Parse(courses[k]) == Some(t)
  {
    if |courses| == 0 then []
    else
      var init := ParsedCourses(courses[..|courses| - 1]);
      var last := Parse(courses[|courses| - 1]);
      assert forall k :: 0 <= k < |courses| - 1 ==> courses[..|courses| - 1][k] == courses[k];
      if last.Some? then init + [last.value] else init
  }

  /** The parsed courses of one listed course: its parse, if any. */
  function ParsedOne(c: ListedCourse): seq<TargetCourse> {
    if Parse(c).Some? then [Parse(c).value] else []
  }

  /** The step keeps listing order: parsing a listing split in two parses
      each part and joins the results. With ParsedOne this fixes the result
      of every listing. */
  lemma {:induction false} ParsedCoursesKeepOrder(a: seq<ListedCourse>, b: seq<ListedCourse>)
    ensures ParsedCourses(a + b) == ParsedCourses(a) + ParsedCourses(b)
    decreases |b|
  {
    if |b| == 0 {
      assert a + b == a;
    } else {
      var b' := b[..|b| - 1];
      assert (a + b)[..|a + b| - 1] == a + b';
      assert (a + b)[|a + b| - 1] == b[|b| - 1];
      ParsedCoursesKeepOrder(a, b');
    }
  }

  /** A single listed course parses to ParsedOne. */
  lemma ParsedCoursesOfOne(c: ListedCourse)
    ensures ParsedCourses([c]) == ParsedOne(c)
  {
    assert [c][..0] == [];
  }

  /** The well-formed courses sorted by id. */
  function Normalized(courses: seq<ListedCourse>): (r: seq<TargetCourse>)
    ensures SortedBy(r, IdOf)
    ensures forall t :: t in r <==> exists k :: 0 <= k < |courses| && Parse(courses[k]) == Some(t)
  {
    var parsed := ParsedCourses(courses);
    var r := SortBy(parsed, IdOf);
    forall t ensures t in r <==> t in parsed {
      SortKeepsMembers(parsed, IdOf, t);
    }
    r
  }

  /** Normalizing reorders the parsed courses and keeps each as often as
      it was listed. */
  lemma NormalizedIsPermutation(courses: seq<ListedCourse>)
    ensures multiset(Normalized(courses)) == multiset(ParsedCourses(courses))
    ensures |Normalized(courses)| == |ParsedCourses(courses)|
  {
    var parsed := ParsedCourses(courses);
    assert Normalized(courses) == SortBy(parsed, IdOf);
  }

  /** The courses with no enrolled student, order kept. */
  function Unenrolled(l: seq<TargetCourse>): (r: seq<TargetCourse>)
    ensures |r| <= |l|
    ensures forall t :: t in r <==> t in l && t.enrolled == 0
    ensures SortedBy(l, IdOf) ==> SortedBy(r, IdOf)
  {
    if |l| == 0 then []
    else
      var init := Unenrolled(l[..|l| - 1]);
      var last := l[|l| - 1];
      assert forall t :: t in l <==> t in l[..|l| - 1] || t == last;
      if last.enrolled == 0 then
        assert SortedBy(l, IdOf) ==> SortedBy(init + [last], IdOf) by {
          if SortedBy(l, IdOf) {
            forall i | 0 <= i < |init| ensures init[i].id <= last.id {
              assert init[i] in l[..|l| - 1];
            }
          }
        }
        init + [last]
      else init
  }

  function Candidates(courses: seq<ListedCourse>, requireEmptyEnrolled: bool): seq<TargetCourse> {
    var normalized := Normalized(courses);
    if requireEmptyEnrolled then Unenrolled(normalized) else normalized
  }

  /** Array.prototype.find for a capacity that is not positive. */
  function FirstNonPositive(l: seq<TargetCourse>): (r: Option<TargetCourse>)
    ensures r.None? <==> forall i :: 0 <= i < |l| ==> l[i].capacity > 0
    ensures r.Some? ==> exists i :: 0 <= i < |l| && l[i] == r.value && l[i].capacity <= 0
                                    && forall k :: 0 <= k < i ==> l[k].capacity > 0
  {
    if |l| == 0 then None
    else if l[0].capacity <= 0 then Some(l[0])
    else
      var rest := FirstNonPositive(l[1..]);
      if rest.Some? then
        var i :| 0 <= i < |l[1..]| && l[1..][i] == rest.value && l[1..][i].capacity <= 0
                 && forall k :: 0 <= k < i ==> l[1..][k].capacity > 0;
        assert l[i + 1] == rest.value;
        rest
      else None
  }

  /** selectTargetCourses: the first courseCount candidates by id, all of
      positive capacity, or the reason the setup stops. */
  function SelectTargetCourses(courses: seq<ListedCourse>, courseCount: nat, requireEmptyEnrolled: bool)
    : (r: Setup<seq<TargetCourse>>)
    ensures var cand := Candidates(courses, requireEmptyEnrolled);
            && (r.Abort? && r.reason.NotEnoughCandidates? <==> |cand| < courseCount)
            && (r.Ready? <==> |cand| >= courseCount && forall i :: 0 <= i < courseCount ==> cand[i].capacity > 0)
            && (r.Ready? ==> r.value == cand[..courseCount])
    ensures r.Abort? && r.reason.NonPositiveCapacity? ==>
              exists t :: t in Candidates(courses, requireEmptyEnrolled)[..courseCount]
                          && t.id == r.reason.courseId && t.capacity <= 0
  {
    var cand := Candidates(courses, requireEmptyEnrolled);
    if |cand| < courseCount then Abort(NotEnoughCandidates(courseCount, |cand|))
    else
      var selected := cand[..courseCount];
      var bad := FirstNonPositive(selected);
      if bad.Some? then Abort(NonPositiveCapacity(bad.value.id)) else Ready(selected)
  }

  /** The selected courses are the ones with the smallest ids: every
      candidate left out has an id no smaller than any selected one, and
      every selected course is a well-formed listed course. */
  lemma SelectedAreLowestIds(courses: seq<ListedCourse>, courseCount: nat, requireEmptyEnrolled: bool)
    requires SelectTargetCourses(courses, courseCount, requireEmptyEnrolled).Ready?
    ensures var sel := SelectTargetCourses(courses, courseCount, requireEmptyEnrolled).value;
            var cand := Candidates(courses, requireEmptyEnrolled);
            && |sel| == courseCount
            && (forall i, k :: 0 <= i < |sel| && courseCount <= k < |cand| ==> sel[i].id <= cand[k].id)
            && (forall i :: 0 <= i < |sel| ==> exists k :: 0 <= k < |courses| && Parse(courses[k]) == Some(sel[i]))
            && (requireEmptyEnrolled ==> forall i :: 0 <= i < |sel| ==> sel[i].enrolled == 0)
  {
    var sel := SelectTargetCourses(courses, courseCount, requireEmptyEnrolled).value;
    var normalized := Normalized(courses);
    var cand := Candidates(courses, requireEmptyEnrolled);
    assert SortedBy(cand, IdOf);
    forall i | 0 <= i < |sel|
      ensures exists k :: 0 <= k < |courses| && Parse(courses[k]) == Some(sel[i])
      ensures requireEmptyEnrolled ==> sel[i].enrolled == 0
    {
      assert sel[i] == cand[i];
      assert cand[i] in cand;
      assert cand[i] in normalized;
    }
  }

  // -------------------------------------------------------------------
  // The request plan

  datatype Request = Request(studentId: int, courseId: int)

  datatype CoursePlan = CoursePlan(courseId: int, capacity: int, plannedAttempts: int)

  datatype RequestPlan = RequestPlan(requests: seq<Request>, coursePlans: seq<CoursePlan>, totalCapacity: int)

  predicate PositiveCapacities(l: seq<TargetCourse>) {
    forall i :: 0 <= i < |l| ==> l[i].capacity > 0
  }

  /** The reduce in setupMultiData: Σ capacity × multiplier. */
  function PlannedAttempts(l: seq<TargetCourse>, multiplier: nat): int {
    if |l| == 0 then 0 else PlannedAttempts(l[..|l| - 1], multiplier) + l[|l| - 1].capacity * multiplier
  }

  function TotalCapacity(l: seq<TargetCourse>): int {
    if |l| == 0 then 0 else TotalCapacity(l[..|l| - 1]) + l[|l| - 1].capacity
  }

  /** The attempt total is the capacity total times the multiplier. */
  lemma {:induction false} PlannedIsCapacityTimesMultiplier(l: seq<TargetCourse>, multiplier: nat)
    ensures PlannedAttempts(l, multiplier) == TotalCapacity(l) * multiplier
  {
    if |l| > 0 {
      PlannedIsCapacityTimesMultiplier(l[..|l| - 1], multiplier);
      var c := l[|l| - 1].capacity;
      assert (TotalCapacity(l[..|l| - 1]) + c) * multiplier
             == TotalCapacity(l[..|l| - 1]) * multiplier + c * multiplier;
    }
  }

  lemma {:induction false} PlannedNonNegative(l: seq<TargetCourse>, multiplier: nat)
    requires PositiveCapacities(l)
    ensures PlannedAttempts(l, multiplier) >= 0
  {
    if |l| > 0 {
      PlannedNonNegative(l[..|l| - 1], multiplier);
      assert l[|l| - 1].capacity > 0;
    }
  }

  /** Reference definition: the course id of each planned attempt, course
      after course, capacity × multiplier times each. */
  function AttemptCourses(l: seq<TargetCourse>, multiplier: nat): (r: seq<int>)
    requires PositiveCapacities(l)
    ensures |r| == PlannedAttempts(l, multiplier)
  {
    if |l| == 0 then []
    else
      var init := l[..|l| - 1];
      assert PositiveCapacities(init);
      PlannedNonNegative(init, multiplier);
      AttemptCourses(init, multiplier) + seq(l[|l| - 1].capacity * multiplier, _ => l[|l| - 1].id)
  }

  /** How often a course id occurs in a plan. */
  function Occurrences(s: seq<int>, x: int): nat {
    if |s| == 0 then 0 else Occurrences(s[..|s| - 1], x) + (if s[|s| - 1] == x then 1 else 0)
  }

  lemma {:induction false} OccurrencesAppend(a: seq<int>, b: seq<int>, x: int)
    ensures Occurrences(a + b, x) == Occurrences(a, x) + Occurrences(b, x)
    decreases |b|
  {
    if |b| > 0 {
      OccurrencesAppend(a, b[..|b| - 1], x);
      assert (a + b)[..|a + b| - 1] == a + b[..|b| - 1];
    } else {
      assert a + b == a;
    }
  }

  lemma {:induction false} OccurrencesConstant(n: nat, y: int, x: int)
    ensures Occurrences(seq(n, _ => y), x) == if x == y then n else 0
  {
    if n > 0 {
      OccurrencesConstant(n - 1, y, x);
      assert seq(n, _ => y)[..n - 1] == seq(n - 1, _ => y);
    }
  }

  predicate DistinctIds(l: seq<TargetCourse>) {
    forall i, j :: 0 <= i < j < |l| ==> l[i].id != l[j].id
  }

  /** With distinct course ids, each course receives exactly capacity ×
      multiplier attempts, and ids not selected receive none. */
  lemma {:induction false} AttemptsPerCourse(l: seq<TargetCourse>, multiplier: nat, x: int)
    requires PositiveCapacities(l) && DistinctIds(l)
    ensures (forall i :: 0 <= i < |l| ==> l[i].id != x) ==> Occurrences(AttemptCourses(l, multiplier), x) == 0
    ensures forall i :: 0 <= i < |l| && l[i].id == x ==>
              Occurrences(AttemptCourses(l, multiplier), x) == l[i].capacity * multiplier
  {
    if |l| > 0 {
      var init := l[..|l| - 1];
      var last := l[|l| - 1];
      assert PositiveCapacities(init) && DistinctIds(init);
      AttemptsPerCourse(init, multiplier, x);
      PlannedNonNegative(init, multiplier);
      OccurrencesAppend(AttemptCourses(init, multiplier), seq(last.capacity * multiplier, _ => last.id), x);
      OccurrencesConstant(last.capacity * multiplier, last.id, x);
      forall i | 0 <= i < |l| && l[i].id == x
        ensures Occurrences(AttemptCourses(l, multiplier), x) == l[i].capacity * multiplier
      {
        if i < |l| - 1 {
          assert init[i] == l[i];
        }
      }
    }
  }

  /** The inner loop of buildRequestPlan: count attempts at one course, by
      the next students in line. */
  method AddAttempts(requests: seq<Request>, studentIds: seq<int>, courseId: int, count: nat)
    returns (r: seq<Request>, studentCursor: nat)
    requires |requests| + count <= |studentIds|
    ensures studentCursor == |r| == |requests| + count
    ensures r == requests + seq(count, k requires 0 <= k < count => Request(studentIds[|requests| + k], courseId))
  {
    r := requests;
    studentCursor := |requests|;
    var attempt := 0;
    while attempt < count
      invariant 0 <= attempt <= count
      invariant studentCursor == |r| == |requests| + attempt
      invariant r == requests + seq(attempt, k requires 0 <= k < attempt => Request(studentIds[|requests| + k], courseId))
    {
      r := r + [Request(studentIds[studentCursor], courseId)];
      studentCursor := studentCursor + 1;
      attempt := attempt + 1;
    }
  }

  /** buildRequestPlan: attempt k goes to student k, course after course. */
  method BuildRequestPlan(selected: seq<TargetCourse>, studentIds: seq<int>, multiplier: nat) returns (plan: RequestPlan)
    requires PositiveCapacities(selected)
    requires |studentIds| >= PlannedAttempts(selected, multiplier)
    ensures plan.requests == RequestsFor(AttemptCourses(selected, multiplier), studentIds)
    ensures |plan.coursePlans| == |selected|
    ensures forall i :: 0 <= i < |selected| ==>
              plan.coursePlans[i] == CoursePlan(selected[i].id, selected[i].capacity, selected[i].capacity * multiplier)
    ensures plan.totalCapacity == TotalCapacity(selected)
  {
    var requests: seq<Request> := [];
    var coursePlans: seq<CoursePlan> := [];
    var studentCursor := 0;
    var totalCapacity := 0;
    var c := 0;
    while c < |selected|
      invariant 0 <= c <= |selected|
      invariant PositiveCapacities(selected[..c])
      invariant studentCursor == |requests| == PlannedAttempts(selected[..c], multiplier) <= |studentIds|
      invariant requests == RequestsFor(AttemptCourses(selected[..c], multiplier), studentIds)
      invariant |coursePlans| == c
      invariant forall i :: 0 <= i < c ==>
                  coursePlans[i] == CoursePlan(selected[i].id, selected[i].capacity, selected[i].capacity * multiplier)
      invariant totalCapacity == TotalCapacity(selected[..c])
    {
      var course := selected[c];
      var plannedAttempts := course.capacity * multiplier;
      totalCapacity := totalCapacity + course.capacity;
      coursePlans := coursePlans + [CoursePlan(course.id, course.capacity, plannedAttempts)];
      assert selected[..c + 1][..c] == selected[..c];
      PlannedPrefix(selected, c + 1, multiplier);
      PlannedPrefixBound(selected, c + 1, multiplier);
      requests, studentCursor := AddAttempts(requests, studentIds, course.id, plannedAttempts);
      RequestsForStep(AttemptCourses(selected[..c], multiplier), course.id, plannedAttempts, studentIds);
      assert AttemptCourses(selected[..c + 1], multiplier)
             == AttemptCourses(selected[..c], multiplier) + seq(plannedAttempts, _ => course.id);
      c := c + 1;
    }
    assert selected[..c] == selected;
    plan := RequestPlan(requests, coursePlans, totalCapacity);
  }

  /** The requests for a list of attempt courses, attempt k by student k. */
  function RequestsFor(courses: seq<int>, studentIds: seq<int>): (r: seq<Request>)
    requires |studentIds| >= |courses|
    ensures |r| == |courses| && forall k :: 0 <= k < |courses| ==> r[k] == Request(studentIds[k], courses[k])
  {
    seq(|courses|, k requires 0 <= k < |courses| => Request(studentIds[k], courses[k]))
  }

  lemma RequestsForStep(courses: seq<int>, id: int, n: nat, studentIds: seq<int>)
    requires |studentIds| >= |courses| + n
    ensures RequestsFor(courses + seq(n, _ => id), studentIds)
            == RequestsFor(courses, studentIds)
               + seq(n, k requires 0 <= k < n => Request(studentIds[|courses| + k], id))
  {
  }

  /** A prefix of the selection plans no more attempts than the whole. */
  lemma {:induction false} PlannedPrefixBound(l: seq<TargetCourse>, c: nat, multiplier: nat)
    requires PositiveCapacities(l) && c <= |l|
    ensures PlannedAttempts(l[..c], multiplier) <= PlannedAttempts(l, multiplier)
    decreases |l| - c
  {
    if c < |l| {
      PlannedPrefixBound(l, c + 1, multiplier);
      PlannedPrefix(l, c + 1, multiplier);
    } else {
      assert l[..c] == l;
    }
  }

  lemma PlannedPrefix(l: seq<TargetCourse>, c: nat, multiplier: nat)
    requires 0 < c <= |l|
    ensures PlannedAttempts(l[..c], multiplier) == PlannedAttempts(l[..c - 1], multiplier) + l[c - 1].capacity * multiplier
    ensures TotalCapacity(l[..c]) == TotalCapacity(l[..c - 1]) + l[c - 1].capacity
  {
    assert l[..c][..c - 1] == l[..c - 1];
  }

  // -------------------------------------------------------------------
  // setupMultiData

  /** fetchStudentIds over the student listing in id order: the first
      requiredCount ids, or a failure when the listing is shorter. Pages
      are read until enough ids are collected, so their concatenation is a
      prefix of the listing. */
  function FetchStudentIds(listing: seq<int>, requiredCount: int): (r: Setup<seq<int>>)
    ensures r.Ready? <==> |listing| >= requiredCount
    ensures r.Ready? ==> |r.value| == (if requiredCount < 0 then 0 else requiredCount)
                         && r.value == listing[..|r.value|]
    ensures r.Abort? ==> r.reason == NotEnoughStudents(requiredCount, |listing|)
  {
    if |listing| < requiredCount then Abort(NotEnoughStudents(requiredCount, |listing|))
    else if requiredCount < 0 then Ready([])
    else Ready(listing[..requiredCount])
  }

  datatype MultiSetupData = MultiSetupData(
    requests: seq<Request>,
    courses: seq<TargetCourse>,
    coursePlans: seq<CoursePlan>,
    totalCapacity: int,
    plannedAttempts: int,
    maxConfiguredAttempts: int)

  /** setupMultiData: select the courses, bound the plan, collect one
      student per attempt, build the plan and interleave it. */
  method SetupMultiData(courses: seq<ListedCourse>, students: seq<int>, courseCount: nat,
                        requireEmptyEnrolled: bool, multiplier: nat, maxTotalAttempts: int,
                        draws: nat -> nat)
    returns (r: Setup<MultiSetupData>)
    requires forall k :: IsDraw(draws(k))
    ensures |courses| == 0 ==> r == Abort(NoCourses)
    ensures var sel := SelectTargetCourses(courses, courseCount, requireEmptyEnrolled);
            r.Ready? <==> && |courses| > 0
                          && sel.Ready?
                          && PlannedAttempts(sel.value, multiplier) <= maxTotalAttempts
                          && |students| >= PlannedAttempts(sel.value, multiplier)
    ensures r.Ready? ==>
              var sel := SelectTargetCourses(courses, courseCount, requireEmptyEnrolled).value;
              && PositiveCapacities(sel)
              && r.value.courses == sel
              && r.value.plannedAttempts == PlannedAttempts(sel, multiplier) <= maxTotalAttempts
              && r.value.plannedAttempts == r.value.totalCapacity * multiplier
              && |r.value.requests| == r.value.plannedAttempts
              && multiset(r.value.requests)
                 == multiset(RequestsFor(AttemptCourses(sel, multiplier), students[..r.value.plannedAttempts]))
    ensures r.Ready? && DistinctStudents(students) ==>
              forall i, j :: 0 <= i < j < |r.value.requests| ==> r.value.requests[i].studentId != r.value.requests[j].studentId
  {
    if |courses| == 0 {
      return Abort(NoCourses);
    }
    var selected := SelectTargetCourses(courses, courseCount, requireEmptyEnrolled);
    if selected.Abort? {
      return Abort(selected.reason);
    }
    var sel := selected.value;
    assert PositiveCapacities(sel);
    var plannedAttempts := PlannedAttempts(sel, multiplier);
    if plannedAttempts > maxTotalAttempts {
      return Abort(TooManyAttempts(plannedAttempts, maxTotalAttempts));
    }
    var studentIds := FetchStudentIds(students, plannedAttempts);
    if studentIds.Abort? {
      return Abort(studentIds.reason);
    }
    PlannedNonNegative(sel, multiplier);
    var plan := BuildRequestPlan(sel, studentIds.value, multiplier);
    assert studentIds.value == students[..plannedAttempts];
    var requests := ShuffleInPlace(plan.requests, draws);
    if DistinctStudents(students) {
      assert DistinctStudents(studentIds.value);
      EachStudentOnce(plan.requests, requests, studentIds.value);
    }
    PlannedIsCapacityTimesMultiplier(sel, multiplier);
    r := Ready(MultiSetupData(requests, sel, plan.coursePlans, plan.totalCapacity, plannedAttempts, maxTotalAttempts));
  }

  predicate DistinctStudents(l: seq<int>) {
    forall i, j :: 0 <= i < j < |l| ==> l[i] != l[j]
  }

  /** No student makes two attempts: with distinct student ids, the
      interleaved requests name pairwise distinct students. */
  lemma EachStudentOnce(plan: seq<Request>, shuffled: seq<Request>, studentIds: seq<int>)
    requires |studentIds| >= |plan| && DistinctStudents(studentIds)
    requires forall k :: 0 <= k < |plan| ==> plan[k].studentId == studentIds[k]
    requires multiset(shuffled) == multiset(plan)
    ensures forall i, j :: 0 <= i < j < |shuffled| ==> shuffled[i].studentId != shuffled[j].studentId
  {
    forall i, j | 0 <= i < j < |shuffled|
      ensures shuffled[i].studentId != shuffled[j].studentId
    {
      if shuffled[i] == shuffled[j] {
        SeenTwice(shuffled, i, j, plan);
      } else {
        assert shuffled[i] in multiset(plan) && shuffled[j] in multiset(plan);
        var p :| 0 <= p < |plan| && plan[p] == shuffled[i];
        var q :| 0 <= q < |plan| && plan[q] == shuffled[j];
        assert p != q;
      }
    }
  }
}

=== FILE: k6_shuffle.dfy ===
/** The load tests' request interleaving: a Fisher–Yates shuffle driven by
    a seeded 32-bit generator. The generator's outputs are inputs here:
    each step draws a 32-bit value u, which the generator divides by 2^32
    to get a number in [0, 1). */
module Shuffle {

  const TWO_POW_32: nat := 0x1_0000_0000

  predicate IsDraw(u: nat) {
    u < TWO_POW_32
  }

  /** Math.floor(random() * (index + 1)) for random() == u / 2^32, with
      the product taken exactly. */
  function SwapIndex(u: nat, index: nat): (r: nat)
    requires IsDraw(u)
    ensures r <= index
  {
    assert u * (index + 1) < TWO_POW_32 * (index + 1);
    (u * (index + 1)) / TWO_POW_32
  }

  /** Every position can be picked: the draw u = ceil(j 2^32 / (index+1))
      lands on j (an array index stays below 2^32). */
  lemma EverySwapIndexReachable(index: nat, j: nat)
    requires j <= index < TWO_POW_32
    ensures exists u :: IsDraw(u) && SwapIndex(u, index) == j
  {
    var n := index + 1;
    var u := (j * TWO_POW_32 + n - 1) / n;
    assert u * n >= j * TWO_POW_32;
    assert u * n < j * TWO_POW_32 + n;
    assert u * n < (j + 1) * TWO_POW_32;
    if u >= TWO_POW_32 {
      MulMono(TWO_POW_32, u, n);
    }
    DivBetween(u * n, TWO_POW_32, j);
    assert IsDraw(u) && SwapIndex(u, index) == j;
  }

  lemma MulMono(a: nat, b: nat, n: nat)
    requires a <= b
    ensures a * n <= b * n
  {
    assert b * n == a * n + (b - a) * n;
  }

  /** x div d is q when x lies in [q d, (q + 1) d). */
  lemma DivBetween(x: nat, d: nat, q: nat)
    requires d >= 1 && q * d <= x < (q + 1) * d
    ensures x / d == q
  {
    var q' := x / d;
    assert x == q' * d + x % d;
    if q' < q {
      MulMono(q' + 1, q, d);
    } else if q' > q {
      MulMono(q + 1, q', d);
    }
  }

  /** Exchange two positions. */
  function Swap<T>(s: seq<T>, i: nat, j: nat): (r: seq<T>)
    requires i < |s| && j < |s|
    ensures |r| == |s| && r[i] == s[j] && r[j] == s[i]
    ensures forall k :: 0 <= k < |s| && k != i && k != j ==> r[k] == s[k]
    ensures multiset(r) == multiset(s)
  {
    s[i := s[j]][j := s[i]]
  }

  /** shuffleInPlace: from the last position down to 1, exchange the
      position with one drawn from [0, position]. draws(k) is the k-th
      value the seeded generator produces. */
  method ShuffleInPlace<T>(items: seq<T>, draws: nat -> nat) returns (r: seq<T>)
    requires forall k :: IsDraw(draws(k))
    ensures |r| == |items| && multiset(r) == multiset(items)
  {
    r := items;
    if |items| <= 1 {
      return;
    }
    var index := |items| - 1;
    while index > 0
      invariant 0 <= index < |items| && |r| == |items|
      invariant multiset(r) == multiset(items)
      decreases index
    {
      var swapIndex := SwapIndex(draws(|items| - 1 - index), index);
      r := Swap(r, index, swapIndex);
      index := index - 1;
    }
  }

  /** A shuffle keeps every element, each as often as before. */
  lemma ShuffleKeepsMembers<T>(items: seq<T>, r: seq<T>, x: T)
    requires multiset(r) == multiset(items)
    ensures x in r <==> x in items
  {
    assert x in r <==> x in multiset(r);
    assert x in items <==> x in multiset(items);
  }
}

=== FILE: k6_single_setup.dfy ===
/** Setup of the single-student load test: pick one student (with an empty
    timetable when asked), pick the courses that student will try, either
    one course per schedule ("spread") or a block of courses sharing one
    schedule ("conflict"), and interleave the requests. HTTP is outside the
    model: the listings and the timetables are inputs. */
module SingleSetup {
  import opened Common
  import opened Sorting
  import opened Shuffle
  import opened TimetableAssertion
  import MultiSetup
  import Store
  import Timetable

  /** A course of GET /courses after Number.parseInt (None stands for NaN);
      schedule is the raw field, None when it is null or missing. */
  datatype ListedCourse = ListedCourse(
    id: Option<int>,
    capacity: Option<int>,
    enrolled: Option<int>,
    credits: Option<int>,
    schedule: Option<string>)

  datatype SetupCourse = SetupCourse(id: int, capacity: int, enrolled: int, credits: int, schedule: string)

  datatype SingleError =
    | NoCoursesListed
    | NoStudentsListed
    | TimetableNotEmpty(studentId: int)
    | NoEmptyTimetable
    | NotEnoughDistinctSchedules(required: nat, actual: nat)
    | NoConflictGroup(required: nat)
    | UnsupportedSelectionMode(mode: string)

  /** A setup step either yields its value or throws. */
  datatype Outcome<T> = Done(value: T) | Thrown(error: SingleError)

  // ---------------------------------------------------------------------
  // The student

  /** The part of a timetable response the setup reads: the total (None
      when it is not a number) and the length of the course list (None
      when the field is not an array). */
  datatype TimetableView = TimetableView(totalCredits: Option<int>, courseCount: Option<nat>)

  /** isTimetableEmpty: a total of exactly 0 and no listed course; a
      missing course array counts as none. */
  predicate IsTimetableEmpty(t: TimetableView) {
    var courseCount := if t.courseCount.Some? then t.courseCount.value else 0;
    t.totalCredits == Some(0) && courseCount == 0
  }

  /** What the server's timetable response shows the setup. */
  function ViewOf(t: Timetable.StudentTimetable): TimetableView {
    TimetableView(Some(t.totalCredits), Some(|t.courses|))
  }

  /** On the server's own response, the setup's emptiness check holds
      exactly when the student holds no ACTIVE enrollment. */
  lemma EmptyCheckMeansNoActiveRows(s: Store.Store, student: StudentId)
    requires Store.CoursesWellFormed(s) && student in s.students
    ensures IsTimetableEmpty(ViewOf(Timetable.GetStudentTimetable(s, student).value))
            <==> forall id :: 0 <= id < s.nextId ==> !Store.ActiveOf(s, id, student)
  {
    Timetable.EmptyTimetable(s, student);
  }

  /** The first student in the listing whose timetable is empty. */
  function FirstWithEmptyTimetable(students: seq<int>, timetables: int -> TimetableView): (r: Option<int>)
    ensures r.None? <==> forall k :: 0 <= k < |students| ==> !IsTimetableEmpty(timetables(students[k]))
    ensures r.Some? ==> exists k :: && 0 <= k < |students| && students[k] == r.value
                                    && IsTimetableEmpty(timetables(r.value))
                                    && forall j :: 0 <= j < k ==> !IsTimetableEmpty(timetables(students[j]))
  {
    if |students| == 0 then None
    else if IsTimetableEmpty(timetables(students[0])) then Some(students[0])
    else
      var rest := FirstWithEmptyTimetable(students[1..], timetables);
      if rest.Some? then
        var k :| && 0 <= k < |students[1..]| && students[1..][k] == rest.value
                 && IsTimetableEmpty(timetables(rest.value))
                 && forall j :: 0 <= j < k ==> !IsTimetableEmpty(timetables(students[1..][j]));
        assert students[k + 1] == rest.value;
        rest
      else
        assert forall k :: 1 <= k < |students| ==> students[k] == students[1..][k - 1];
        None
  }

  /** resolveSingleStudentId: a configured id is used as it is, unless an
      empty timetable is required and its timetable is not empty;
      otherwise the first listed student, or with the requirement the
      first listed student whose timetable is empty. An empty listing
      throws before anything else is looked at. timetables(id) is what
      GET /students/{id}/timetable returns. */
  function ResolveStudent(configured: Option<int>, requireEmptyTimetable: bool, students: seq<int>,
                          timetables: int -> TimetableView): (r: Outcome<int>)
    ensures configured.Some? ==>
              && (r.Done? <==> !requireEmptyTimetable || IsTimetableEmpty(timetables(configured.value)))
              && (r.Done? ==> r.value == configured.value)
              && (r.Thrown? ==> r.error == TimetableNotEmpty(configured.value))
    ensures configured.None? && |students| == 0 ==> r == Thrown(NoStudentsListed)
    ensures configured.None? && |students| > 0 && !requireEmptyTimetable ==> r == Done(students[0])
    ensures configured.None? && requireEmptyTimetable && |students| > 0 ==>
              && (r.Done? <==> exists k :: 0 <= k < |students| && IsTimetableEmpty(timetables(students[k])))
              && (r.Thrown? ==> r.error == NoEmptyTimetable)
    ensures configured.None? && requireEmptyTimetable && r.Done? ==>
              exists k :: && 0 <= k < |students| && students[k] == r.value
                          && IsTimetableEmpty(timetables(r.value))
                          && forall j :: 0 <= j < k ==> !IsTimetableEmpty(timetables(students[j]))
  {
    if configured.Some? then
      if requireEmptyTimetable && !IsTimetableEmpty(timetables(configured.value)) then
        Thrown(TimetableNotEmpty(configured.value))
      else Done(configured.value)
    else if |students| == 0 then Thrown(NoStudentsListed)
    else if !requireEmptyTimetable then Done(students[0])
    else
      match FirstWithEmptyTimetable(students, timetables)
      case Some(id) => Done(id)
      case None => Thrown(NoEmptyTimetable)
  }

  // ---------------------------------------------------------------------
  // normalizeCourses

  function IdOf(c: SetupCourse): int {
    c.id
  }

  /** `${course.schedule || ''}`.trim(): a missing schedule reads as the
      empty string. */
  function ScheduleText(schedule: Option<string>): string {
    Trim(if schedule.Some? then schedule.value else "")
  }

  /** The course with every numeric field a number, if it is one. */
  function ParseCourse(c: ListedCourse): Option<SetupCourse> {
    if c.id.Some? && c.capacity.Some? && c.enrolled.Some? && c.credits.Some? then
      Some(SetupCourse(c.id.value, c.capacity.value, c.enrolled.value, c.credits.value, ScheduleText(c.schedule)))
    else None
  }

  /** A course that can take a request: a seat and a schedule. */
  predicate Usable(c: SetupCourse) {
    c.capacity > 0 && |c.schedule| > 0
  }

  /** The listing with every course parsed, in listing order. */
  function Parsed(listing: seq<ListedCourse>): seq<Option<SetupCourse>> {
    seq(|listing|, i requires 0 <= i < |listing| => ParseCourse(listing[i]))
  }

  /** The usable parsed courses, in listing order. */
  function UsableOf(parsed: seq<Option<SetupCourse>>): (r: seq<SetupCourse>)
    ensures |r| <= |parsed|
    ensures forall c :: c in r <==> Some(c) in parsed && Usable(c)
  {
    if |parsed| == 0 then []
    else
      var init := parsed[..|parsed| - 1];
      var last := parsed[|parsed| - 1];
      assert forall x :: x in parsed <==> x in init || x == last;
      UsableOf(init) + (if last.Some? && Usable(last.value) then [last.value] else [])
  }

  /** normalizeCourses: the usable courses sorted by id. */
  function NormalizeCourses(listing: seq<ListedCourse>): (r: seq<SetupCourse>)
    ensures SortedBy(r, IdOf)
    ensures multiset(r) == multiset(UsableOf(Parsed(listing)))
    ensures forall c :: c in r <==> Some(c) in Parsed(listing) && Usable(c)
  {
    var usable := UsableOf(Parsed(listing));
    var r := SortBy(usable, IdOf);
    forall c ensures c in r <==> c in usable {
      SortKeepsMembers(usable, IdOf, c);
    }
    r
  }

  // ---------------------------------------------------------------------
  // selectSpreadCourses

  /** Only courses nobody has enrolled in are picked. */
  predicate Eligible(c: SetupCourse) {
    c.enrolled == 0
  }

  function ScheduleSet(l: seq<SetupCourse>): set<string> {
    set c | c in l :: c.schedule
  }

  /** The schedules of the eligible courses. */
  function EligibleSchedules(l: seq<SetupCourse>): set<string> {
    set c | c in l && Eligible(c) :: c.schedule
  }

  predicate DistinctSchedules(l: seq<SetupCourse>) {
    forall i, j :: 0 <= i < j < |l| ==> l[i].schedule != l[j].schedule
  }

  lemma ScheduleSetSnoc(l: seq<SetupCourse>, c: SetupCourse)
    ensures ScheduleSet(l + [c]) == ScheduleSet(l) + {c.schedule}
  {
    assert forall x :: x in l + [c] <==> x in l || x == c;
  }

  /** Reference: the first eligible course of every schedule, in list
      order. */
  function FirstPerSchedule(l: seq<SetupCourse>): (r: seq<SetupCourse>)
    ensures forall i :: 0 <= i < |r| ==> Eligible(r[i]) && r[i] in l
    ensures DistinctSchedules(r)
    ensures ScheduleSet(r) == EligibleSchedules(l)
  {
    if |l| == 0 then []
    else
      var init := l[..|l| - 1];
      var c := l[|l| - 1];
      var g := FirstPerSchedule(init);
      assert forall x :: x in l <==> x in init || x == c;
      if Eligible(c) && c.schedule !in ScheduleSet(g) then
        ScheduleSetSnoc(g, c);
        assert forall i :: 0 <= i < |g| ==> g[i].schedule in ScheduleSet(g);
        g + [c]
      else g
  }

  /** Picking scans from the front, so a prefix of the list picks a prefix
      of what the whole list picks. */
  lemma {:induction false} FirstPerSchedulePrefix(l: seq<SetupCourse>, i: nat)
    requires i <= |l|
    ensures var p := FirstPerSchedule(l[..i]);
            |p| <= |FirstPerSchedule(l)| && p == FirstPerSchedule(l)[..|p|]
    decreases |l|
  {
    if i < |l| {
      var init := l[..|l| - 1];
      assert l[..i] == init[..i];
      FirstPerSchedulePrefix(init, i);
    } else {
      assert l[..i] == l;
    }
  }

  /** A list with distinct schedules has as many schedules as entries. */
  lemma {:induction false} DistinctScheduleCount(l: seq<SetupCourse>)
    requires DistinctSchedules(l)
    ensures |ScheduleSet(l)| == |l|
  {
    if |l| > 0 {
      var init := l[..|l| - 1];
      var c := l[|l| - 1];
      assert l == init + [c];
      LastScheduleIsNew(l);
      DistinctScheduleCount(init);
      ScheduleSetSnoc(init, c);
      AddNewElement(ScheduleSet(init), c.schedule);
    }
  }

  /** In a list with distinct schedules, the last schedule is new and the
      rest keep distinct schedules. */
  lemma LastScheduleIsNew(l: seq<SetupCourse>)
    requires |l| > 0 && DistinctSchedules(l)
    ensures DistinctSchedules(l[..|l| - 1])
    ensures l[|l| - 1].schedule !in ScheduleSet(l[..|l| - 1])
  {
    var init := l[..|l| - 1];
    forall x | x in init
      ensures x.schedule != l[|l| - 1].schedule
    {
      var i :| 0 <= i < |init| && init[i] == x;
      assert l[i] == x;
    }
  }

  lemma AddNewElement(a: set<string>, x: string)
    requires x !in a
    ensures |a + {x}| == |a| + 1
  {
    assert a * {x} == {};
  }

  /** One course per schedule is as many courses as there are schedules
      among the eligible courses. */
  lemma FirstPerScheduleCount(l: seq<SetupCourse>)
    ensures |FirstPerSchedule(l)| == |EligibleSchedules(l)|
  {
    DistinctScheduleCount(FirstPerSchedule(l));
  }

  /** The loop stops once selected.length >= courseCount, which it checks
      only after a pick: at least one course is always picked. */
  function Needed(courseCount: nat): nat {
    if courseCount == 0 then 1 else courseCount
  }

  /** Reference result of selectSpreadCourses. */
  function SpreadSelection(courses: seq<SetupCourse>, courseCount: nat): Outcome<seq<SetupCourse>> {
    var g := FirstPerSchedule(courses);
    if |g| >= Needed(courseCount) then Done(g[..Needed(courseCount)])
    else Thrown(NotEnoughDistinctSchedules(courseCount, |g|))
  }

  /** One more course of the scan: it is picked when it is eligible and
      its schedule is new. */
  lemma FirstPerScheduleStep(l: seq<SetupCourse>, i: nat)
    requires i < |l|
    ensures var g := FirstPerSchedule(l[..i]);
            FirstPerSchedule(l[..i + 1])
            == if Eligible(l[i]) && l[i].schedule !in ScheduleSet(g) then g + [l[i]] else g
  {
    assert l[..i + 1][..i] == l[..i];
  }

  /** The scan stops as soon as it has picked enough: what it has then is
      the reference result. */
  lemma SpreadStopsAt(l: seq<SetupCourse>, i: nat, courseCount: nat)
    requires i <= |l| && |FirstPerSchedule(l[..i])| == Needed(courseCount)
    ensures SpreadSelection(l, courseCount) == Done(FirstPerSchedule(l[..i]))
  {
    FirstPerSchedulePrefix(l, i);
  }

  /** selectSpreadCourses: the loop with its set of seen schedules. */
  method SelectSpreadCourses(courses: seq<SetupCourse>, courseCount: nat) returns (r: Outcome<seq<SetupCourse>>)
    ensures r == SpreadSelection(courses, courseCount)
  {
    var selected: seq<SetupCourse> := [];
    var seenSchedules: set<string> := {};
    var i := 0;
    while i < |courses|
      invariant 0 <= i <= |courses|
      invariant selected == FirstPerSchedule(courses[..i])
      invariant seenSchedules == ScheduleSet(selected)
      invariant |selected| < Needed(courseCount)
    {
      var course := courses[i];
      FirstPerScheduleStep(courses, i);
      if course.enrolled == 0 && course.schedule !in seenSchedules {
        ScheduleSetSnoc(selected, course);
        selected := selected + [course];
        seenSchedules := seenSchedules + {course.schedule};
        if |selected| >= courseCount {
          SpreadStopsAt(courses, i + 1, courseCount);
          return Done(selected);
        }
      }
      i := i + 1;
    }
    assert courses[..i] == courses;
    r := Thrown(NotEnoughDistinctSchedules(courseCount, |selected|));
  }

  /** What the spread selection promises: it fails exactly when there are
      fewer distinct schedules among the eligible courses than needed;
      otherwise it returns that many eligible courses of the list, no two
      sharing a schedule. */
  lemma SpreadSelectionMeaning(courses: seq<SetupCourse>, courseCount: nat)
    ensures var r := SpreadSelection(courses, courseCount);
            && (r.Thrown? <==> |EligibleSchedules(courses)| < Needed(courseCount))
            && (r.Done? ==> && |r.value| == Needed(courseCount)
                            && DistinctSchedules(r.value)
                            && forall i :: 0 <= i < |r.value| ==> Eligible(r.value[i]) && r.value[i] in courses)
  {
    FirstPerScheduleCount(courses);
  }

  // ---------------------------------------------------------------------
  // selectConflictCourses

  /** Reference: the eligible courses with schedule s, in list order. */
  function GroupOf(l: seq<SetupCourse>, s: string): (r: seq<SetupCourse>)
    ensures forall x :: x in r <==> x in l && Eligible(x) && x.schedule == s
  {
    if |l| == 0 then []
    else
      var init := l[..|l| - 1];
      var c := l[|l| - 1];
      assert forall x :: x in l <==> x in init || x == c;
      GroupOf(init, s) + (if Eligible(c) && c.schedule == s then [c] else [])
  }

  /** courseGroups: a Map keeps its keys in insertion order. */
  datatype Grouping = Grouping(order: seq<string>, groups: map<string, seq<SetupCourse>>)

  /** The grouping loop of selectConflictCourses. */
  function GroupBySchedule(l: seq<SetupCourse>): (r: Grouping)
    ensures forall s :: s in r.groups <==> s in r.order
    ensures forall s :: s in r.groups ==> |r.groups[s]| >= 1
  {
    if |l| == 0 then Grouping([], map[])
    else
      var g := GroupBySchedule(l[..|l| - 1]);
      var c := l[|l| - 1];
      if c.enrolled != 0 then g
      else if c.schedule !in g.groups then Grouping(g.order + [c.schedule], g.groups[c.schedule := [c]])
      else Grouping(g.order, g.groups[c.schedule := g.groups[c.schedule] + [c]])
  }

  function ScheduleList(l: seq<SetupCourse>): seq<string> {
    seq(|l|, i requires 0 <= i < |l| => l[i].schedule)
  }

  lemma ScheduleListMembers(l: seq<SetupCourse>)
    ensures forall s :: s in ScheduleList(l) <==> s in ScheduleSet(l)
  {
    var sl := ScheduleList(l);
    forall s | s in ScheduleSet(l)
      ensures s in sl
    {
      var x :| x in l && x.schedule == s;
      var i :| 0 <= i < |l| && l[i] == x;
      assert sl[i] == s;
    }
  }

  /** The grouping loop opens a group for exactly the schedules of the
      eligible courses. */
  lemma {:induction false} GroupingKeys(l: seq<SetupCourse>)
    ensures forall s :: s in GroupBySchedule(l).groups <==> s in EligibleSchedules(l)
  {
    if |l| > 0 {
      var init := l[..|l| - 1];
      var c := l[|l| - 1];
      GroupingKeys(init);
      EligibleSchedulesSnoc(l);
    }
  }

  lemma EligibleSchedulesSnoc(l: seq<SetupCourse>)
    requires |l| > 0
    ensures var c := l[|l| - 1];
            EligibleSchedules(l) == EligibleSchedules(l[..|l| - 1]) + (if Eligible(c) then {c.schedule} else {})
  {
    var init := l[..|l| - 1];
    assert forall x :: x in l <==> x in init || x == l[|l| - 1];
  }

  /** A schedule no eligible course has has an empty group. */
  lemma {:induction false} EmptyGroupOf(l: seq<SetupCourse>, s: string)
    requires s !in EligibleSchedules(l)
    ensures GroupOf(l, s) == []
  {
    if |l| > 0 {
      EligibleSchedulesSnoc(l);
      EmptyGroupOf(l[..|l| - 1], s);
    }
  }

  /** The groups follow the first appearance of their schedule among the
      eligible courses. */
  lemma {:induction false} GroupingOrder(l: seq<SetupCourse>)
    ensures GroupBySchedule(l).order == ScheduleList(FirstPerSchedule(l))
  {
    if |l| > 0 {
      var init := l[..|l| - 1];
      var c := l[|l| - 1];
      GroupingOrder(init);
      GroupingKeys(init);
      var fps := FirstPerSchedule(init);
      if Eligible(c) && c.schedule !in GroupBySchedule(init).groups {
        assert ScheduleList(fps + [c]) == ScheduleList(fps) + [c.schedule];
      }
    }
  }

  /** Each group holds exactly its schedule's eligible courses, in list
      order. */
  lemma {:induction false} GroupingGroups(l: seq<SetupCourse>)
    ensures var g := GroupBySchedule(l);
            forall s :: s in g.groups ==> g.groups[s] == GroupOf(l, s)
  {
    if |l| > 0 {
      var init := l[..|l| - 1];
      var c := l[|l| - 1];
      GroupingGroups(init);
      GroupingKeys(init);
      if Eligible(c) && c.schedule !in GroupBySchedule(init).groups {
        EmptyGroupOf(init, c.schedule);
      }
    }
  }

  /** The grouping loop builds, in first-appearance order, one group per
      schedule of an eligible course, holding exactly that schedule's
      eligible courses in list order. */
  lemma GroupingIsReference(l: seq<SetupCourse>)
    ensures var g := GroupBySchedule(l);
            && g.order == ScheduleList(FirstPerSchedule(l))
            && forall s :: s in g.groups ==> g.groups[s] == GroupOf(l, s)
  {
    GroupingOrder(l);
    GroupingGroups(l);
  }

  /** Array.from(courseGroups.values()). */
  function GroupList(g: Grouping): seq<seq<SetupCourse>>
    requires forall s :: s in g.order ==> s in g.groups
  {
    seq(|g.order|, i requires 0 <= i < |g.order| => g.groups[g.order[i]])
  }

  /** The groups of a list are exactly the groups of its eligible courses'
      schedules. */
  lemma GroupListMembers(l: seq<SetupCourse>)
    ensures var gl := GroupList(GroupBySchedule(l));
            forall h :: h in gl <==> exists c :: c in l && Eligible(c) && h == GroupOf(l, c.schedule)
  {
    var g := GroupBySchedule(l);
    var gl := GroupList(g);
    GroupingKeys(l);
    GroupingGroups(l);
    forall h | h in gl
      ensures exists c :: c in l && Eligible(c) && h == GroupOf(l, c.schedule)
    {
      var i :| 0 <= i < |gl| && gl[i] == h;
      var s := g.order[i];
      assert s in EligibleSchedules(l);
      var x :| x in l && Eligible(x) && x.schedule == s;
      assert h == GroupOf(l, x.schedule);
    }
    forall c | c in l && Eligible(c)
      ensures GroupOf(l, c.schedule) in gl
    {
      assert c.schedule in EligibleSchedules(l);
      assert c.schedule in g.order;
      var i :| 0 <= i < |g.order| && g.order[i] == c.schedule;
      assert gl[i] == GroupOf(l, c.schedule);
    }
  }

  /** The groups long enough, in order. */
  function LargeGroups(gs: seq<seq<SetupCourse>>, courseCount: nat): (r: seq<seq<SetupCourse>>)
    ensures forall h :: h in r <==> h in gs && |h| >= courseCount
  {
    if |gs| == 0 then []
    else
      var init := gs[..|gs| - 1];
      var h := gs[|gs| - 1];
      assert forall x :: x in gs <==> x in init || x == h;
      LargeGroups(init, courseCount) + (if |h| >= courseCount then [h] else [])
  }

  /** The comparator of the sort: a longer group first, then the group
      whose first course has the smaller id. */
  predicate Better(a: seq<SetupCourse>, b: seq<SetupCourse>)
    requires |a| >= 1 && |b| >= 1
  {
    |a| > |b| || (|a| == |b| && a[0].id < b[0].id)
  }

  /** The position of groups[0] after the stable sort: the earliest group
      that no other group beats. */
  function BestIndex(gs: seq<seq<SetupCourse>>): (j: nat)
    requires |gs| >= 1 && forall i :: 0 <= i < |gs| ==> |gs[i]| >= 1
    ensures j < |gs|
    ensures forall i :: 0 <= i < |gs| ==> !Better(gs[i], gs[j])
    ensures forall i :: 0 <= i < j ==> Better(gs[j], gs[i])
  {
    if |gs| == 1 then 0
    else
      var b := BestIndex(gs[..|gs| - 1]);
      if Better(gs[|gs| - 1], gs[b]) then
        assert forall i :: 0 <= i < |gs| - 1 ==> !Better(gs[i], gs[b]);
        |gs| - 1
      else b
  }

  /** selectConflictCourses: the first courseCount courses of the best
      group among those with at least courseCount courses. */
  function SelectConflictCourses(courses: seq<SetupCourse>, courseCount: nat): (r: Outcome<seq<SetupCourse>>)
    ensures r.Thrown? ==> r.error == NoConflictGroup(courseCount)
    ensures r.Done? ==> |r.value| == courseCount
  {
    var large := LargeGroups(GroupList(GroupBySchedule(courses)), courseCount);
    if |large| == 0 then Thrown(NoConflictGroup(courseCount))
    else
      assert forall i :: 0 <= i < |large| ==> large[i] in large;
      var best := large[BestIndex(large)];
      Done(best[..courseCount])
  }

  /** A schedule some eligible course has, with at least n such courses. */
  predicate HasGroupOf(courses: seq<SetupCourse>, n: nat) {
    exists c :: c in courses && Eligible(c) && |GroupOf(courses, c.schedule)| >= n
  }

  /** The long-enough groups are exactly the groups of eligible courses'
      schedules with at least courseCount courses. */
  lemma LargeGroupsMembers(courses: seq<SetupCourse>, courseCount: nat)
    ensures var large := LargeGroups(GroupList(GroupBySchedule(courses)), courseCount);
            forall h :: h in large <==>
              exists c :: c in courses && Eligible(c) && h == GroupOf(courses, c.schedule) && |h| >= courseCount
  {
    GroupListMembers(courses);
  }

  /** The conflict selection succeeds exactly when some schedule has
      courseCount eligible courses. */
  lemma ConflictSelectionSucceeds(courses: seq<SetupCourse>, courseCount: nat)
    ensures SelectConflictCourses(courses, courseCount).Done? <==> HasGroupOf(courses, courseCount)
  {
    var large := LargeGroups(GroupList(GroupBySchedule(courses)), courseCount);
    LargeGroupsMembers(courses, courseCount);
    if HasGroupOf(courses, courseCount) {
      var c :| c in courses && Eligible(c) && |GroupOf(courses, c.schedule)| >= courseCount;
      assert GroupOf(courses, c.schedule) in large;
    }
    if |large| > 0 {
      assert large[0] in large;
    }
  }

  /** A successful conflict selection is the lowest-listed courseCount
      courses of a schedule with the most eligible courses, ties going to
      the group whose first course has the smaller id. */
  lemma ConflictSelectionIsLargestGroup(courses: seq<SetupCourse>, courseCount: nat)
    requires SelectConflictCourses(courses, courseCount).Done?
    ensures exists c :: && c in courses && Eligible(c)
                        && |GroupOf(courses, c.schedule)| >= courseCount
                        && SelectConflictCourses(courses, courseCount).value == GroupOf(courses, c.schedule)[..courseCount]
                        && LargestGroup(courses, GroupOf(courses, c.schedule))
  {
    var large := LargeGroups(GroupList(GroupBySchedule(courses)), courseCount);
    LargeGroupsMembers(courses, courseCount);
    assert forall i :: 0 <= i < |large| ==> large[i] in large;
    var j := BestIndex(large);
    var best := large[j];
    assert best in large;
    var c0 :| c0 in courses && Eligible(c0) && best == GroupOf(courses, c0.schedule) && |best| >= courseCount;
    assert c0 in best;
    forall c | c in courses && Eligible(c)
      ensures BeatsOrTies(best, GroupOf(courses, c.schedule))
    {
      var other := GroupOf(courses, c.schedule);
      assert c in other;
      if |other| >= courseCount {
        assert other in large;
        var i :| 0 <= i < |large| && large[i] == other;
        assert !Better(large[i], best);
      }
    }
    assert LargestGroup(courses, best);
    assert SelectConflictCourses(courses, courseCount).value == best[..courseCount];
  }

  /** best is at least as long as other, and on equal length its first
      course has an id no greater. */
  predicate BeatsOrTies(best: seq<SetupCourse>, other: seq<SetupCourse>) {
    && |best| >= 1 && |other| >= 1
    && |other| <= |best|
    && (|other| == |best| ==> best[0].id <= other[0].id)
  }

  predicate LargestGroup(courses: seq<SetupCourse>, best: seq<SetupCourse>) {
    forall c :: c in courses && Eligible(c) ==> BeatsOrTies(best, GroupOf(courses, c.schedule))
  }

  // ---------------------------------------------------------------------
  // setupSingleStudentData

  /** The fields of a selected course the run keeps. */
  datatype PlannedCourse = PlannedCourse(id: int, capacity: int, credits: int, schedule: string)

  function Planned(c: SetupCourse): PlannedCourse {
    PlannedCourse(c.id, c.capacity, c.credits, c.schedule)
  }

  datatype SingleSetupData = SingleSetupData(
    studentId: int,
    requests: seq<MultiSetup.Request>,
    courses: seq<PlannedCourse>,
    plannedAttempts: nat,
    selectionMode: string)

  /** One request per selected course, all by the one student, in
      selection order. */
  function RequestsOf(studentId: int, selected: seq<SetupCourse>): seq<MultiSetup.Request> {
    seq(|selected|, i requires 0 <= i < |selected| => MultiSetup.Request(studentId, selected[i].id))
  }

  /** The selection a mode asks for. */
  function Selection(courses: seq<SetupCourse>, selectionMode: string, courseCount: nat): Outcome<seq<SetupCourse>> {
    if selectionMode == "conflict" then SelectConflictCourses(courses, courseCount)
    else if selectionMode == "spread" then SpreadSelection(courses, courseCount)
    else Thrown(UnsupportedSelectionMode(selectionMode))
  }

  /** The selection step, dispatching on the mode. */
  method Select(courses: seq<SetupCourse>, selectionMode: string, courseCount: nat) returns (r: Outcome<seq<SetupCourse>>)
    ensures r == Selection(courses, selectionMode, courseCount)
  {
    if selectionMode == "conflict" {
      r := SelectConflictCourses(courses, courseCount);
    } else if selectionMode == "spread" {
      r := SelectSpreadCourses(courses, courseCount);
    } else {
      r := Thrown(UnsupportedSelectionMode(selectionMode));
    }
  }

  /** The selected courses' requests, shuffled: the same requests, each as
      often, all by the one student. */
  method ShuffledRequests(studentId: int, selected: seq<SetupCourse>, draws: nat -> nat)
    returns (requests: seq<MultiSetup.Request>)
    requires forall k :: IsDraw(draws(k))
    ensures |requests| == |selected|
    ensures multiset(requests) == multiset(RequestsOf(studentId, selected))
    ensures forall q :: q in requests ==> q.studentId == studentId
  {
    var ordered := RequestsOf(studentId, selected);
    requests := ShuffleInPlace(ordered, draws);
    forall q | q in requests
      ensures q.studentId == studentId
    {
      ShuffleKeepsMembers(ordered, requests, q);
    }
  }

  /** setupSingleStudentData: resolve the student, list the courses (an
      empty listing throws), select, then shuffle one request per selected
      course. */
  method SetupSingleStudentData(configured: Option<int>, requireEmptyTimetable: bool, students: seq<int>,
                                timetables: int -> TimetableView, listing: seq<ListedCourse>,
                                selectionMode: string, courseCount: nat, draws: nat -> nat)
    returns (r: Outcome<SingleSetupData>)
    requires forall k :: IsDraw(draws(k))
    ensures var student := ResolveStudent(configured, requireEmptyTimetable, students, timetables);
            var selection := Selection(NormalizeCourses(listing), selectionMode, courseCount);
            && (student.Thrown? ==> r == Thrown(student.error))
            && (student.Done? && |listing| == 0 ==> r == Thrown(NoCoursesListed))
            && (student.Done? && |listing| > 0 ==> (r.Done? <==> selection.Done?))
            && (student.Done? && |listing| > 0 && selection.Thrown? ==> r == Thrown(selection.error))
    ensures r.Done? ==>
              var student := ResolveStudent(configured, requireEmptyTimetable, students, timetables).value;
              var selected := Selection(NormalizeCourses(listing), selectionMode, courseCount).value;
              && r.value.studentId == student
              && |r.value.courses| == |selected|
              && (forall i :: 0 <= i < |selected| ==> r.value.courses[i] == Planned(selected[i]))
              && r.value.plannedAttempts == |r.value.requests| == |selected|
              && multiset(r.value.requests) == multiset(RequestsOf(student, selected))
              && (forall q :: q in r.value.requests ==> q.studentId == student)
  {
    var student := ResolveStudent(configured, requireEmptyTimetable, students, timetables);
    if student.Thrown? {
      return Thrown(student.error);
    }
    if |listing| == 0 {
      return Thrown(NoCoursesListed);
    }
    var selected := Select(NormalizeCourses(listing), selectionMode, courseCount);
    if selected.Thrown? {
      return Thrown(selected.error);
    }
    var requests := ShuffledRequests(student.value, selected.value, draws);
    var planned := seq(|selected.value|, i requires 0 <= i < |selected.value| => Planned(selected.value[i]));
    r := Done(SingleSetupData(student.value, requests, planned, |requests|, selectionMode));
  }
}

=== FILE: legacy_service.dfy ===
/** The older application service that carries the three locking variants
    itself instead of routing to strategies: a pessimistic variant without
    retry, an optimistic variant with an explicit retry loop, and an atomic
    variant that validates before it takes the seat. */
module LegacyService {
  import opened Common
  import opened Enrollments
  import opened Store
  import opened SeatCounter
  import opened RuleValidator
  import opened PersistenceSupport
  import opened EnrollBody
  import opened Cancellation
  import Pessimistic
  import Optimistic
  import OptimisticExecutor
  import Atomic

  const OPTIMISTIC_RETRY_LIMIT: nat := 3

  /** enrollWithPessimisticLock: lock the course, then the student, validate,
      take the seat and save, in one transaction and without any retry; a
      lock timeout escapes as it is. */
  function EnrollWithPessimisticLock(s: Store, student: StudentId, course: CourseId, locks: Pessimistic.Locks): (r: Tx<Enrollment>)
    ensures r == Rollback(LockFailure) <==> Pessimistic.LockFails(s, course, locks)
    ensures !Pessimistic.LockFails(s, course, locks) ==> (r.Commit? <==> EnrollAllowed(s, student, course))
    ensures r == Pessimistic.EnrollOnce(s, student, course, locks)
  {
    if locks.course.TimedOut? then Rollback(LockFailure)
    else if course !in s.courses then Rollback(CourseNotFound)
    else if locks.student.TimedOut? then Rollback(LockFailure)
    else if student !in s.students then Rollback(StudentNotFound)
    else RunEnroll(s, student, course)
  }

  /** The body of one optimistic attempt, a fresh READ_COMMITTED
      transaction: load the course, lock the student, validate, take the
      seat in memory and save. Its commit runs against whatever another
      transaction committed after the read; it is the executor's attempt. */
  function OptimisticAttempt(s: Store, student: StudentId, course: CourseId, a: Optimistic.Attempt): (r: Tx<Enrollment>)
    ensures r == OptimisticExecutor.ExecuteInterleaved(s, student, course, a.studentLock, a.meanwhile)
  {
    match OptimisticExecutor.PrepareOnce(s, student, course, a.studentLock)
    case Err(e) => Rollback(e)
    case Ok(p) => FlushEnroll(Latest(s, a.meanwhile), p)
  }

  /** enrollWithOptimisticLock: attempts 1 to 3; a version failure on the
      last attempt becomes EnrollmentConcurrencyConflict carrying the
      attempt number, any other outcome ends the loop. The explicit loop
      behaves as the retrying optimistic strategy does. */
  method EnrollWithOptimisticLock(s: Store, student: StudentId, course: CourseId, attempts: seq<Optimistic.Attempt>)
    returns (r: Result<Enrollment>, t: Store, calls: nat)
    ensures 1 <= calls <= OPTIMISTIC_RETRY_LIMIT
    ensures forall k :: 0 <= k < calls - 1 ==>
              Optimistic.Attempted(s, student, course, attempts, k) == Rollback(VersionConflict)
    ensures r == Err(EnrollmentConcurrencyConflict(OPTIMISTIC_RETRY_LIMIT))
            <==> forall k :: 0 <= k < OPTIMISTIC_RETRY_LIMIT ==>
                   Optimistic.Attempted(s, student, course, attempts, k) == Rollback(VersionConflict)
    ensures r == Err(EnrollmentConcurrencyConflict(OPTIMISTIC_RETRY_LIMIT)) ==>
              t == Optimistic.ReadBy(s, attempts, OPTIMISTIC_RETRY_LIMIT) && calls == OPTIMISTIC_RETRY_LIMIT
    ensures r != Err(EnrollmentConcurrencyConflict(OPTIMISTIC_RETRY_LIMIT)) ==>
              var once := Optimistic.Attempted(s, student, course, attempts, calls - 1);
              && once != Rollback(VersionConflict)
              && (once.Commit? ==> r == Ok(once.value) && t == once.store)
              && (once.Rollback? ==> r == Err(once.error) && t == Optimistic.ReadBy(s, attempts, calls))
  {
    var attempt := 1;
    var cur := s;
    calls := 0;
    while attempt <= OPTIMISTIC_RETRY_LIMIT
      invariant 1 <= attempt <= OPTIMISTIC_RETRY_LIMIT
      invariant calls == attempt - 1
      invariant cur == Optimistic.ReadBy(s, attempts, calls)
      invariant forall k :: 0 <= k < calls ==>
                  Optimistic.Attempted(s, student, course, attempts, k) == Rollback(VersionConflict)
      decreases OPTIMISTIC_RETRY_LIMIT - attempt
    {
      var a := Optimistic.AttemptAt(attempts, attempt - 1);
      var once := OptimisticAttempt(cur, student, course, a);
      assert once == Optimistic.Attempted(s, student, course, attempts, calls);
      calls := calls + 1;
      cur := Latest(cur, a.meanwhile);
      if once.Commit? {
        r, t := Ok(once.value), once.store;
        return;
      }
      if once.error != VersionConflict {
        r, t := Err(once.error), cur;
        return;
      }
      if attempt == OPTIMISTIC_RETRY_LIMIT {
        r, t := Err(EnrollmentConcurrencyConflict(attempt)), cur;
        return;
      }
      attempt := attempt + 1;
    }
    r, t := Err(EnrollmentConcurrencyConflict(OPTIMISTIC_RETRY_LIMIT)), cur;
  }

  /** enrollWithAtomicUpdate, which enroll also uses: lock the student, load
      the course, insert the row, validate against the student's other
      ACTIVE rows, and only then take the seat. */
  function EnrollWithAtomicUpdate(s: Store, student: StudentId, course: CourseId, studentLock: Lock): (r: Tx<Enrollment>)
    ensures studentLock.TimedOut? ==> r == Rollback(LockFailure)
    ensures studentLock.Granted? && student !in s.students ==> r == Rollback(StudentNotFound)
    ensures studentLock.Granted? && student in s.students && course !in s.courses ==> r == Rollback(CourseNotFound)
    ensures studentLock.Granted? && student in s.students && course in s.courses && ExistsActive(s, student, course)
            ==> r == Rollback(DuplicateEnrollment)
    ensures r.Commit? ==> r.value == Enrollments.Enroll(s.nextId, student, course) && r.store == Enrolled(s, student, course)
  {
    if studentLock.TimedOut? then Rollback(LockFailure)
    else if student !in s.students then Rollback(StudentNotFound)
    else
      match FindCourse(s, course)
      case None => Rollback(CourseNotFound)
      case Some(c) =>
        match InsertActiveOrThrow(s, student, course)
        case Rollback(e) => Rollback(e)
        case Commit(id, s1) =>
          match ValidateAfterInsert(s1, student, id, c)
          case Err(e) => Rollback(e)
          case Ok(_) =>
            match IncrementLoadedSeatOrThrow(s1, course)
            case Rollback(e) => Rollback(e)
            case Commit(_, s2) =>
              match FindRow(s2, id)
              case None => Rollback(EnrollmentNotFound)
              case Some(row) => Commit(row, s2)
  }

  /** The legacy atomic variant and the atomic strategy succeed in exactly
      the same situations and then write the same store; they differ only
      in which error a request breaking several rules reports: the legacy
      order is student, course, duplicate, credits, schedule, capacity. */
  lemma AtomicVariantsAgree(s: Store, student: StudentId, course: CourseId)
    requires RowsIndexed(s)
    ensures var legacy := EnrollWithAtomicUpdate(s, student, course, Granted);
            var strategy := Atomic.Enroll(s, student, course, Granted);
            && (legacy.Commit? <==> EnrollAllowed(s, student, course))
            && (legacy.Commit? <==> strategy.Commit?)
            && (legacy.Commit? ==> legacy == strategy)
            && (legacy.Rollback? && student in s.students && course in s.courses && !ExistsActive(s, student, course)
                && ValidateCreditAndSchedule(ActiveCourses(s, student, None), s.courses[course]).Ok?
                ==> legacy.error == CourseCapacityExceeded)
  {
    if student in s.students && course in s.courses && !ExistsActive(s, student, course) {
      var s1 := InsertActive(s, student, course).store;
      AfterInsertValidationAgrees(s, s1, student, course);
    }
    Atomic.MatchesReference(s, student, course, Granted);
  }

  /** A full course with a student over the credit limit: the strategy
      reports the capacity, the legacy variant the credits. */
  lemma ErrorOrderDiffers(s: Store, student: StudentId, course: CourseId)
    requires RowsIndexed(s) && student in s.students && course in s.courses && !ExistsActive(s, student, course)
    requires s.courses[course].enrolledCount >= s.courses[course].capacity
    requires CreditSum(ActiveCourses(s, student, None)) + s.courses[course].credits > Students.MAX_CREDITS
    ensures Atomic.Enroll(s, student, course, Granted) == Rollback(CourseCapacityExceeded)
    ensures EnrollWithAtomicUpdate(s, student, course, Granted) == Rollback(CreditLimitExceeded)
  {
    var s1 := InsertActive(s, student, course).store;
    AfterInsertValidationAgrees(s, s1, student, course);
  }

  /** cancel: the same steps as the shared cancellation routine. */
  function Cancel(s: Store, id: EnrollmentId, lock: Lock, now: Instant): (r: Tx<()>)
    ensures r == CancelEnrollment(s, id, lock, now)
  {
    match ReadForCancel(s, id, lock, now)
    case Err(e) => Rollback(e)
    case Ok(p) => FlushCancel(s, p)
  }
}

=== FILE: lifecycle.dfy ===
/** The enrollment lifecycle across transactions: cancel, re-enroll, cancel
    again, under the unique key (student_id, course_id, status) as the
    schema declares it. */
module Lifecycle {
  import opened Common
  import opened Enrollments
  import opened Store
  import opened RuleValidator
  import opened EnrollBody
  import opened Cancellation
  import opened SeatCounter

  /** Under the unique key, a committed cancellation leaves its
      (student, course) pair without an ACTIVE row, so the pair may enroll
      again. */
  lemma CancelFreesPair(s: Store, id: EnrollmentId, now: Instant)
    requires Consistent(s)
    requires CancelEnrollment(s, id, Granted, now).Commit?
    ensures var t := CancelEnrollment(s, id, Granted, now).store;
            !ExistsActive(t, s.rows[id].student, s.rows[id].course)
  {
    var t := CancelEnrollment(s, id, Granted, now).store;
    var e := s.rows[id];
    forall k | k in t.rows
      ensures KeyOf(t.rows[k]) != Key(e.student, e.course, Active)
    {
      if k != id {
        assert KeyOf(s.rows[k]) != KeyOf(s.rows[id]);
      }
    }
  }

  /** Cancelling a re-enrollment fails: the status-inclusive unique key
      already holds the first cancelled row, so turning the second row
      CANCELED violates it and the transaction rolls back. */
  lemma SecondCancelCollides(s: Store, id: EnrollmentId, now: Instant, later: Instant)
    requires Consistent(s)
    requires CancelEnrollment(s, id, Granted, now).Commit?
    requires var t := CancelEnrollment(s, id, Granted, now).store;
             s.rows[id].student in t.students
    requires var t := CancelEnrollment(s, id, Granted, now).store;
             RunEnroll(t, s.rows[id].student, s.rows[id].course).Commit?
    ensures var t := CancelEnrollment(s, id, Granted, now).store;
            var u := RunEnroll(t, s.rows[id].student, s.rows[id].course);
            CancelEnrollment(u.store, u.value.id, Granted, later) == Rollback(DataIntegrityViolation)
  {
    var t := CancelEnrollment(s, id, Granted, now).store;
    var e := s.rows[id];
    var u := RunEnroll(t, e.student, e.course);
    var v := u.value.id;
    var w := Enrolled(t, e.student, e.course);
    assert u.store.rows == w.rows;
    assert v == t.nextId && v != id;
    assert u.store.rows[v] == Enroll(v, e.student, e.course);
    assert u.store.rows[id] == t.rows[id];
    assert KeyOf(u.store.rows[id]) == Key(e.student, e.course, Canceled);
    assert CanceledTwinExists(u.store, v);
  }

  /** The course save of a cancellation is guarded only by the version it
      read, and the conditional seat update does not bump that version: a
      seat taken by the conditional update between the cancellation's read
      and its commit is overwritten, and the counter ends one below where
      it started although one seat was taken and one given back. */
  lemma ConditionalIncrementLostUnderCancel(s: Store, id: EnrollmentId, now: Instant)
    requires CoursesWellFormed(s)
    requires ReadForCancel(s, id, Granted, now).Ok?
    requires var p := ReadForCancel(s, id, Granted, now).value;
             p.loaded.enrolledCount > 0 && !CanceledTwinExists(s, id)
    requires IncrementIfAvailable(s, s.rows[id].course).affected == 1
    ensures var p := ReadForCancel(s, id, Granted, now).value;
            var u := IncrementIfAvailable(s, p.course).store;
            && u.courses[p.course].enrolledCount == s.courses[p.course].enrolledCount + 1
            && FlushCancel(u, p).Commit?
            && FlushCancel(u, p).store.courses[p.course].enrolledCount == s.courses[p.course].enrolledCount - 1
  {
    var p := ReadForCancel(s, id, Granted, now).value;
    var u := IncrementIfAvailable(s, p.course).store;
    assert p.updated != p.loaded;
    assert u.courses[p.course].version == p.loaded.version;
    var s1 := SaveCourse(u, p.course, p.loaded, p.updated).value;
    assert s1.rows == s.rows;
    assert KeyOf(p.row) == Key(s.rows[id].student, s.rows[id].course, Canceled);
  }
}

=== FILE: optimistic.dfy ===
/** The optimistic strategy: call the executor, retrying only on a version
    conflict, at most RETRY_LIMIT attempts in total, with no backoff. */
module Optimistic {
  import opened Common
  import opened Enrollments
  import opened Store
  import opened RuleValidator
  import opened Cancellation
  import opened OptimisticExecutor
  import ExceptionHandler

  const RETRY_LIMIT: nat := 3

  /** How one attempt goes: the outcome of its student lock, and what
      another transaction commits between the attempt's read and its
      commit, if anything. */
  datatype Attempt = Attempt(studentLock: Lock, meanwhile: Option<Store>)

  /** Attempts past the given outcomes get their lock and meet no other
      writer. */
  function AttemptAt(attempts: seq<Attempt>, i: nat): Attempt {
    if i < |attempts| then attempts[i] else Attempt(Granted, None)
  }

  /** The database attempt k reads: each attempt starts a new transaction,
      so it sees whatever other transactions committed during the earlier
      ones. */
  function ReadBy(s: Store, attempts: seq<Attempt>, k: nat): Store {
    if k == 0 then s else Latest(ReadBy(s, attempts, k - 1), AttemptAt(attempts, k - 1).meanwhile)
  }

  /** No other transaction commits during any attempt. */
  predicate Undisturbed(attempts: seq<Attempt>) {
    forall i :: 0 <= i < |attempts| ==> attempts[i].meanwhile.None?
  }

  /** Without other writers every attempt reads the call's store. */
  lemma {:induction false} UndisturbedReadsStay(s: Store, attempts: seq<Attempt>, k: nat)
    requires Undisturbed(attempts)
    ensures ReadBy(s, attempts, k) == s
  {
    if k > 0 {
      UndisturbedReadsStay(s, attempts, k - 1);
    }
  }


  /** Attempt k: one call of executeOnce on the database it reads. */
  function Attempted(s: Store, student: StudentId, course: CourseId, attempts: seq<Attempt>, k: nat): Tx<Enrollment> {
    var a := AttemptAt(attempts, k);
    ExecuteInterleaved(ReadBy(s, attempts, k), student, course, a.studentLock, a.meanwhile)
  }

  /** enroll with its retry and recovery. Three version conflicts in a row
      end in EnrollmentConcurrencyConflict with retryCount 3, and the store
      is what the other writers left; otherwise the first attempt without a
      conflict decides the outcome. An error of its own is not retried and
      no @Recover handler takes it: it leaves wrapped in
      ExhaustedRetryException. A successful attempt met the rules on the
      database it read. */
  method Enroll(s: Store, student: StudentId, course: CourseId, attempts: seq<Attempt>)
    returns (r: Result<Enrollment>, t: Store, calls: nat)
    ensures 1 <= calls <= RETRY_LIMIT
    ensures forall k :: 0 <= k < calls - 1 ==> Attempted(s, student, course, attempts, k) == Rollback(VersionConflict)
    ensures r == Err(EnrollmentConcurrencyConflict(RETRY_LIMIT))
            <==> forall k :: 0 <= k < RETRY_LIMIT ==> Attempted(s, student, course, attempts, k) == Rollback(VersionConflict)
    ensures r == Err(EnrollmentConcurrencyConflict(RETRY_LIMIT)) ==>
              t == ReadBy(s, attempts, RETRY_LIMIT) && calls == RETRY_LIMIT
    ensures r != Err(EnrollmentConcurrencyConflict(RETRY_LIMIT)) ==>
              var once := Attempted(s, student, course, attempts, calls - 1);
              && once != Rollback(VersionConflict)
              && (once.Commit? ==> r == Ok(once.value) && t == once.store)
              && (once.Rollback? ==> r == Err(ExhaustedRetry(once.error)) && t == ReadBy(s, attempts, calls))
    ensures r.Ok? ==> EnrollAllowed(ReadBy(s, attempts, calls - 1), student, course)
  {
    var cur := s;
    calls := 0;
    while calls < RETRY_LIMIT
      invariant 0 <= calls <= RETRY_LIMIT
      invariant cur == ReadBy(s, attempts, calls)
      invariant forall k :: 0 <= k < calls ==> Attempted(s, student, course, attempts, k) == Rollback(VersionConflict)
    {
      var a := AttemptAt(attempts, calls);
      var once := ExecuteInterleaved(cur, student, course, a.studentLock, a.meanwhile);
      assert once == Attempted(s, student, course, attempts, calls);
      calls := calls + 1;
      cur := Latest(cur, a.meanwhile);
      if once != Rollback(VersionConflict) {
        if once.Commit? {
          r, t := Ok(once.value), once.store;
        } else {
          r, t := Err(Recover(once.error)), cur;
        }
        return;
      }
    }
    r, t := Err(Recover(VersionConflict)), cur;
  }

  /** The recovery Spring Retry runs on the error that ends enroll. The
      @Recover handlers take the version conflict that survives the
      retries, which becomes EnrollmentConcurrencyConflict with the retry
      limit. Any other error reaches the recoverer at once; no handler
      accepts it, so ExhaustedRetryException is raised with the error as
      its cause. */
  function Recover(e: Error): (r: Error)
    ensures e == VersionConflict ==> r == EnrollmentConcurrencyConflict(RETRY_LIMIT)
    ensures e != VersionConflict ==> r == ExhaustedRetry(e)
  {
    if e == VersionConflict then EnrollmentConcurrencyConflict(RETRY_LIMIT) else ExhaustedRetry(e)
  }

  /** Whatever error ends the strategy's enroll, the client gets
      409 ENROLLMENT_CONCURRENCY_CONFLICT once it has been recovered: the
      domain errors of the enrollment rules included. */
  lemma RecoveredFailuresAreConflicts(e: Error, suffix: string)
    requires suffix == "Exception"
    ensures ExceptionHandler.Handle(ExceptionHandler.Engine(Recover(e)), suffix)
            == ExceptionHandler.Response(ExceptionHandler.CONFLICT, "ENROLLMENT_CONCURRENCY_CONFLICT")
  {
    ExceptionHandler.ConcurrencyFailuresAreConflicts(ExceptionHandler.Engine(Recover(e)), suffix);
  }

  /** An attempt that would pass on the database it read loses to a writer
      that commits a new version of the course first, unless that writer
      left an ACTIVE row for the same pair. */
  lemma LosesToNewerVersion(cur: Store, w: Store, student: StudentId, course: CourseId)
    requires EnrollAllowed(cur, student, course)
    requires course in w.courses && !ExistsActive(w, student, course)
    requires w.courses[course].version != cur.courses[course].version
    ensures ExecuteInterleaved(cur, student, course, Granted, Some(w)) == Rollback(VersionConflict)
  {
  }

  /** The attempts of a call during which each writer of `ws` commits, one
      per attempt, between that attempt's read and its commit. */
  function Interleaved(ws: seq<Store>): (r: seq<Attempt>)
    ensures |r| == |ws|
    ensures forall i :: 0 <= i < |ws| ==> r[i] == Attempt(Granted, Some(ws[i]))
  {
    if |ws| == 0 then [] else [Attempt(Granted, Some(ws[0]))] + Interleaved(ws[1..])
  }

  /** Two writers that each commit a new version of the course make the
      first two attempts conflict; the third reads the second writer's
      database and commits there. */
  lemma TwoWritersThenCommit(s: Store, w1: Store, w2: Store, student: StudentId, course: CourseId)
    requires EnrollAllowed(s, student, course) && EnrollAllowed(w1, student, course) && EnrollAllowed(w2, student, course)
    requires w1.courses[course].version != s.courses[course].version
    requires w2.courses[course].version != w1.courses[course].version
    ensures Attempted(s, student, course, Interleaved([w1, w2]), 0) == Rollback(VersionConflict)
    ensures Attempted(s, student, course, Interleaved([w1, w2]), 1) == Rollback(VersionConflict)
    ensures Attempted(s, student, course, Interleaved([w1, w2]), 2).Commit?
    ensures Attempted(s, student, course, Interleaved([w1, w2]), 2).value == Enrollments.Enroll(w2.nextId, student, course)
  {
    var attempts := Interleaved([w1, w2]);
    assert ReadBy(s, attempts, 1) == w1;
    assert ReadBy(s, attempts, 2) == w2;
    LosesToNewerVersion(s, w1, student, course);
    LosesToNewerVersion(w1, w2, student, course);
    assert Attempted(s, student, course, attempts, 2) == ExecuteOnce(w2, student, course, Granted);
  }

  /** Each of the first two attempts loses to a writer that commits a new
      version of the course; the third reads the latest database and
      commits there. */
  method TwoConflictsThenSuccess(s: Store, w1: Store, w2: Store, student: StudentId, course: CourseId)
    returns (r: Result<Enrollment>, calls: nat)
    requires EnrollAllowed(s, student, course) && EnrollAllowed(w1, student, course) && EnrollAllowed(w2, student, course)
    requires w1.courses[course].version != s.courses[course].version
    requires w2.courses[course].version != w1.courses[course].version
    ensures r == Ok(Enrollments.Enroll(w2.nextId, student, course)) && calls == 3
  {
    TwoWritersThenCommit(s, w1, w2, student, course);
    var t;
    r, t, calls := Enroll(s, student, course, Interleaved([w1, w2]));
  }

  /** A writer that takes the last seat, with a new version, makes the
      first attempt conflict; the second reads the full course. */
  lemma WriterTakesTheLastSeat(s: Store, w: Store, student: StudentId, course: CourseId)
    requires EnrollAllowed(s, student, course)
    requires course in w.courses && student in w.students && w.courses[course].version != s.courses[course].version
    requires ValidatePreInsert(w, student, course, w.courses[course]).Ok?
    requires w.courses[course].enrolledCount >= w.courses[course].capacity
    ensures Attempted(s, student, course, Interleaved([w]), 0) == Rollback(VersionConflict)
    ensures Attempted(s, student, course, Interleaved([w]), 1) == Rollback(CourseCapacityExceeded)
    ensures ReadBy(s, Interleaved([w]), 2) == w
  {
    var attempts := Interleaved([w]);
    assert ReadBy(s, attempts, 1) == w;
    LosesToNewerVersion(s, w, student, course);
    assert Attempted(s, student, course, attempts, 1) == ExecuteOnce(w, student, course, Granted);
  }

  /** The retry reads the database again: when the writer that won took the
      last seat, the second attempt fails on capacity instead of
      committing. That error is not retried and no @Recover handler takes
      it, so it leaves wrapped in ExhaustedRetryException. */
  method RetryAfterTheLastSeatIsTaken(s: Store, w: Store, student: StudentId, course: CourseId)
    returns (r: Result<Enrollment>, t: Store, calls: nat)
    requires EnrollAllowed(s, student, course)
    requires course in w.courses && student in w.students && w.courses[course].version != s.courses[course].version
    requires ValidatePreInsert(w, student, course, w.courses[course]).Ok?
    requires w.courses[course].enrolledCount >= w.courses[course].capacity
    ensures r == Err(ExhaustedRetry(CourseCapacityExceeded)) && t == w && calls == 2
  {
    WriterTakesTheLastSeat(s, w, student, course);
    r, t, calls := Enroll(s, student, course, Interleaved([w]));
  }

  /** Three conflicts: EnrollmentConcurrencyConflict with retryCount 3, and
      the store the last writer committed. */
  method ThreeConflicts(s: Store, w1: Store, w2: Store, w3: Store, student: StudentId, course: CourseId)
    returns (r: Result<Enrollment>, t: Store, calls: nat)
    requires EnrollAllowed(s, student, course) && EnrollAllowed(w1, student, course) && EnrollAllowed(w2, student, course)
    requires course in w3.courses && !ExistsActive(w3, student, course)
    requires w1.courses[course].version != s.courses[course].version
    requires w2.courses[course].version != w1.courses[course].version
    requires w3.courses[course].version != w2.courses[course].version
    ensures r == Err(EnrollmentConcurrencyConflict(3)) && r.error.retryCount == 3
    ensures t == w3 && calls == 3
  {
    var attempts := Interleaved([w1, w2, w3]);
    assert ReadBy(s, attempts, 1) == w1;
    assert ReadBy(s, attempts, 2) == w2;
    assert ReadBy(s, attempts, 3) == w3;
    LosesToNewerVersion(s, w1, student, course);
    LosesToNewerVersion(w1, w2, student, course);
    LosesToNewerVersion(w2, w3, student, course);
    r, t, calls := Enroll(s, student, course, attempts);
  }
}

=== FILE: optimistic_executor.dfy ===
/** The optimistic executor: one enrollment attempt in its own new
    transaction. The course is read without a lock, the student row is
    locked, and the course save at commit is guarded by the version read. */
module OptimisticExecutor {
  import opened Common
  import opened Enrollments
  import opened Store
  import opened RuleValidator
  import opened EnrollBody
  import opened Cancellation

  /** The read part of executeOnce: load the course, lock the student, run
      the checks and take the seat in memory. */
  function PrepareOnce(s: Store, student: StudentId, course: CourseId, studentLock: Lock): (r: Result<EnrollPlan>)
    ensures course !in s.courses ==> r == Err(CourseNotFound)
    ensures course in s.courses && studentLock.TimedOut? ==> r == Err(LockFailure)
    ensures course in s.courses && studentLock.Granted? && student !in s.students ==> r == Err(StudentNotFound)
    ensures course in s.courses && student in s.students && studentLock.Granted? ==>
              r == PrepareEnroll(s, student, course)
    ensures r.Ok? ==> r.value.course == course && r.value.student == student
                      && r.value.loaded == s.courses[course] && r.value.updated != r.value.loaded
  {
    if course !in s.courses then Err(CourseNotFound)
    else if studentLock.TimedOut? then Err(LockFailure)
    else if student !in s.students then Err(StudentNotFound)
    else PrepareEnroll(s, student, course)
  }

  /** executeOnce run without interference between its read and its commit. */
  function ExecuteOnce(s: Store, student: StudentId, course: CourseId, studentLock: Lock): (r: Tx<Enrollment>)
    ensures course !in s.courses ==> r == Rollback(CourseNotFound)
    ensures course in s.courses && studentLock.TimedOut? ==> r == Rollback(LockFailure)
    ensures course in s.courses && studentLock.Granted? && student !in s.students ==> r == Rollback(StudentNotFound)
    ensures studentLock.Granted? ==> (r.Commit? <==> EnrollAllowed(s, student, course))
    ensures r.Rollback? ==> r.error != VersionConflict
    ensures r.Commit? ==> && r.value == Enroll(s.nextId, student, course)
                          && EqualUpToVersions(r.store, Enrolled(s, student, course))
                          && r.store.courses[course].version == s.courses[course].version + 1
  {
    match PrepareOnce(s, student, course, studentLock)
    case Err(e) => Rollback(e)
    case Ok(p) => FlushEnroll(s, p)
  }

  /** executeOnce when another transaction may commit between this
      attempt's read and its commit: the read part runs on `s`, the commit
      against the database that transaction left behind. The seat count
      written is the one read plus one, whatever the other transaction did
      to it. */
  function ExecuteInterleaved(s: Store, student: StudentId, course: CourseId, studentLock: Lock,
                              meanwhile: Option<Store>): (r: Tx<Enrollment>)
    ensures meanwhile.None? || meanwhile == Some(s) ==> r == ExecuteOnce(s, student, course, studentLock)
    ensures PrepareOnce(s, student, course, studentLock).Err? ==>
              r == Rollback(PrepareOnce(s, student, course, studentLock).error)
    ensures r.Commit? ==> studentLock.Granted? && EnrollAllowed(s, student, course)
    ensures r == Rollback(VersionConflict) <==>
              && PrepareOnce(s, student, course, studentLock).Ok?
              && var w := Latest(s, meanwhile);
              && !ExistsActive(w, student, course)
              && !(course in w.courses && w.courses[course].version == s.courses[course].version)
    ensures r.Commit? ==>
              var w := Latest(s, meanwhile);
              var c := s.courses[course];
              && r.value == Enroll(w.nextId, student, course)
              && r.store == w.(courses := w.courses[course := c.(enrolledCount := c.enrolledCount + 1, version := c.version + 1)],
                               rows := w.rows[w.nextId := Enroll(w.nextId, student, course)],
                               nextId := w.nextId + 1)
  {
    match PrepareOnce(s, student, course, studentLock)
    case Err(e) => Rollback(e)
    case Ok(p) => FlushEnroll(Latest(s, meanwhile), p)
  }

  /** The commit of a prepared attempt fails with a version conflict
      whenever a committed save changed the course's version after the
      read, and the new row is not a duplicate. */
  lemma StaleReadIsRejected(s: Store, p: EnrollPlan, s': Store)
    requires p.updated != p.loaded
    requires p.course in s'.courses && s'.courses[p.course].version != p.loaded.version
    requires !ExistsActive(s', p.student, p.course)
    ensures FlushEnroll(s', p) == Rollback(VersionConflict)
  {
  }

  /** A duplicate row fails the insert before the stale version is noticed:
      the failure is the integrity violation, not a version conflict, and
      so it is not retried. */
  lemma DuplicateBeatsStaleRead(s: Store, p: EnrollPlan, s': Store)
    requires p.updated != p.loaded
    requires p.course in s'.courses && s'.courses[p.course].version != p.loaded.version
    requires ExistsActive(s', p.student, p.course)
    ensures FlushEnroll(s', p) == Rollback(DataIntegrityViolation)
  {
  }
}

=== FILE: orchestration.dfy ===
/** The application service in front of the router: each entry point names
    the strategy type it uses and hands the call over unchanged. */
module Orchestration {
  import opened Common
  import opened Enrollments
  import opened Store
  import opened RuleValidator
  import opened Cancellation
  import opened Router

  datatype EntryPoint =
    | DefaultEnroll
    | EnrollWithPessimisticLock
    | EnrollWithOptimisticLock
    | EnrollWithAtomicUpdate
    | EnrollWithSeparatedTransaction

  /** The strategy type each entry point asks the router for. */
  function TypeFor(e: EntryPoint): StrategyType {
    match e
    case DefaultEnroll => ATOMIC
    case EnrollWithPessimisticLock => PESSIMISTIC
    case EnrollWithOptimisticLock => OPTIMISTIC
    case EnrollWithAtomicUpdate => ATOMIC
    case EnrollWithSeparatedTransaction => SEPARATED
  }

  /** A router as its constructor leaves it: every type has the strategy of
      that type. */
  predicate Complete(router: Router) {
    forall t :: t in router.byType && router.byType[t].Type() == t
  }

  lemma ConstructedRouterIsComplete(strategies: seq<Strategy>)
    requires NewRouter(strategies).Ok?
    ensures Complete(NewRouter(strategies).value)
  {
  }

  /** The strategy an entry point runs on a complete router. The default
      entry point and the atomic one run the same strategy; the other entry
      points run the strategy their name promises, and no two of those
      coincide. */
  function StrategyFor(router: Router, e: EntryPoint): (r: Strategy)
    requires Complete(router)
    ensures r.Type() == TypeFor(e)
    ensures e == DefaultEnroll || e == EnrollWithAtomicUpdate <==> r == AtomicStrategy
    ensures e == EnrollWithPessimisticLock <==> r == PessimisticStrategy
    ensures e == EnrollWithOptimisticLock <==> r == OptimisticStrategy
    ensures e == EnrollWithSeparatedTransaction <==> r == SeparatedStrategy
  {
    TypeDeterminesStrategy(router.byType[TypeFor(e)], StrategyOf(TypeFor(e)));
    Get(router, TypeFor(e)).value
  }

  /** An enroll entry point: whatever strategy it reaches honours the common
      contract, and its result is passed back as it is. */
  method Enroll(router: Router, e: EntryPoint, s: Store, student: StudentId, course: CourseId, env: Environment)
    returns (r: Result<Enrollment>, t: Store, read: Store, base: Store)
    requires Complete(router)
    ensures Undisturbed(env) ==> read == s && base == s
    ensures r.Ok? ==> course in read.courses && r.value == Enrollments.Enroll(base.nextId, student, course)
                      && t.rows == base.rows[base.nextId := r.value]
    ensures r.Ok? && base == read ==> EqualUpToVersions(t, Enrolled(read, student, course))
    ensures r.Err? && e != EnrollWithSeparatedTransaction ==> t == base
    ensures RowsIndexed(s) && CoursesWellFormed(s) && env == Quiet ==> (r.Ok? <==> EnrollAllowed(s, student, course))
  {
    r, t, read, base := EnrollVia(StrategyFor(router, e), s, student, course, env);
  }

  /** cancel(enrollmentId) always goes through the atomic strategy, which
      runs the shared cancellation routine. */
  function Cancel(router: Router, s: Store, id: EnrollmentId, lock: Lock, now: Instant): (r: Tx<()>)
    requires Complete(router)
    ensures r == CancelEnrollment(s, id, lock, now)
  {
    CancelVia(Get(router, ATOMIC).value, s, id, lock, now)
  }

  /** Two entry points reach the same strategy exactly when they ask for the
      same type: only the default and the atomic entry points share one. */
  lemma EntryPointsShareOnlyAtomic(router: Router, a: EntryPoint, b: EntryPoint)
    requires Complete(router) && a != b
    ensures StrategyFor(router, a) == StrategyFor(router, b)
            <==> {a, b} == {DefaultEnroll, EnrollWithAtomicUpdate}
  {
  }
}

=== FILE: paging.dfy ===
/** Paging of the read-only list queries (students, courses, professors):
    the requested offset and limit are normalised before the repository is
    asked for one window of rows in id order. */
module Paging {
  import opened Common

  const DEFAULT_LIMIT: int := 50
  const MAX_LIMIT: int := 100

  /** normalizeOffset: a missing or negative offset starts at the first row. */
  function NormalizeOffset(offset: Option<int>): (r: int)
    ensures r >= 0
    ensures offset.Some? && offset.value >= 0 ==> r == offset.value
    ensures offset.None? || offset.value < 0 ==> r == 0
  {
    if offset.None? || offset.value < 0 then 0 else offset.value
  }

  /** normalizeLimit: a missing or non-positive limit takes the default, a
      larger one is capped. */
  function NormalizeLimit(limit: Option<int>): (r: int)
    ensures 1 <= r <= MAX_LIMIT
    ensures limit.None? || limit.value < 1 ==> r == DEFAULT_LIMIT
    ensures limit.Some? && 1 <= limit.value <= MAX_LIMIT ==> r == limit.value
    ensures limit.Some? && limit.value > MAX_LIMIT ==> r == MAX_LIMIT
  {
    if limit.None? || limit.value < 1 then DEFAULT_LIMIT else Min(limit.value, MAX_LIMIT)
  }

  /** Normalised values are fixed points: normalising them again changes
      nothing. */
  lemma NormalizeIdempotent(offset: Option<int>, limit: Option<int>)
    ensures NormalizeOffset(Some(NormalizeOffset(offset))) == NormalizeOffset(offset)
    ensures NormalizeLimit(Some(NormalizeLimit(limit))) == NormalizeLimit(limit)
  {
  }

  datatype PageRequest = PageRequest(offset: nat, limit: nat)

  /** The page request getStudents, getProfessors and getCourses send to
      their repositories; the three services normalise alike. */
  function Normalize(offset: Option<int>, limit: Option<int>): (r: PageRequest)
    ensures 1 <= r.limit <= MAX_LIMIT
  {
    PageRequest(NormalizeOffset(offset), NormalizeLimit(limit))
  }

  /** A normalised request passes through normalisation unchanged. */
  lemma NormalizeStable(offset: Option<int>, limit: Option<int>)
    ensures var r := Normalize(offset, limit);
            Normalize(Some(r.offset), Some(r.limit)) == r
  {
    NormalizeIdempotent(offset, limit);
  }

  datatype CourseRequest = CourseRequest(departmentId: Option<nat>, page: PageRequest)

  /** getCourses: the department filter is passed on untouched. */
  function CoursePage(departmentId: Option<nat>, offset: Option<int>, limit: Option<int>): (r: CourseRequest)
    ensures r.departmentId == departmentId && r.page == Normalize(offset, limit)
  {
    CourseRequest(departmentId, Normalize(offset, limit))
  }

  /** The rows an OFFSET/LIMIT query returns from rows ordered by id. */
  function Window<T>(rows: seq<T>, p: PageRequest): (r: seq<T>)
    ensures p.offset <= |rows| ==> |r| == Min(p.limit, |rows| - p.offset) && r == rows[p.offset..p.offset + |r|]
    ensures p.offset >= |rows| ==> r == []
  {
    if p.offset >= |rows| then []
    else if p.offset + p.limit >= |rows| then rows[p.offset..]
    else rows[p.offset..p.offset + p.limit]
  }

  /** Two consecutive pages of the same size read the same rows as one page
      of twice the size: paging neither skips nor repeats a row. */
  lemma ConsecutivePages<T>(rows: seq<T>, offset: nat, limit: nat)
    ensures Window(rows, PageRequest(offset, limit)) + Window(rows, PageRequest(offset + limit, limit))
            == Window(rows, PageRequest(offset, 2 * limit))
  {
  }
}

=== FILE: persistence_support.dfy ===
/** The guarded insert of an ACTIVE enrollment and the guarded seat
    increment, each translating the store's low-level outcome into a domain
    error. */
module PersistenceSupport {
  import opened Common
  import opened Courses
  import opened Store
  import opened SeatCounter
  import opened Text

  const DUPLICATE_MARKER: string := "duplicate"
  const UNIQUE_KEY_NAME: string := "uk_enrollments_student_course_status"

  /** An integrity-violation message names the enrollment unique key: its
      lower-cased text contains "duplicate" or the key's name. A missing
      message never does. */
  function IsDuplicateEnrollmentViolation(message: Option<string>): (r: bool)
    ensures r <==> message.Some?
                   && (IsSubstring(DUPLICATE_MARKER, Lower(message.value))
                       || IsSubstring(UNIQUE_KEY_NAME, Lower(message.value)))
  {
    match message
    case None => false
    case Some(m) =>
      var lowered := Lower(m);
      Contains(lowered, DUPLICATE_MARKER) || Contains(lowered, UNIQUE_KEY_NAME)
  }

  /** A MySQL duplicate-entry message is recognised through its first word,
      whatever its case. */
  lemma DuplicateEntryIsRecognised(m: string)
    requires m == "Duplicate entry for key"
    ensures IsDuplicateEnrollmentViolation(Some(m))
  {
    var l := Lower(m);
    forall i | 0 <= i < 9
      ensures l[i] == DUPLICATE_MARKER[i]
    {
      assert l[i] == LowerChar(m[i]);
    }
    assert OccursAt(l, DUPLICATE_MARKER, 0);
  }

  /** A message too short to hold either marker is not recognised, and
      neither is a missing message. */
  lemma ShortOrMissingMessageIsNotRecognised(m: string)
    requires |m| < |DUPLICATE_MARKER|
    ensures !IsDuplicateEnrollmentViolation(Some(m))
    ensures !IsDuplicateEnrollmentViolation(None)
  {
  }

  /** Upper-case variants of a recognised message are recognised too. */
  lemma RecognitionIgnoresCase(m: string)
    requires IsDuplicateEnrollmentViolation(Some(Lower(m)))
    ensures IsDuplicateEnrollmentViolation(Some(m))
  {
    LowerIdempotent(m);
  }

  /** The error insertActiveOrThrow raises for a failed insert: a duplicate
      key, or an integrity violation whose message names the key, is a
      duplicate enrollment; any other integrity violation is blamed on a
      missing student, then a missing course, and otherwise is an illegal
      state. */
  function TranslateInsertFailure(s: Store, student: StudentId, course: CourseId, f: InsertFailure): (e: Error)
    ensures e == DuplicateEnrollment <==> f.DuplicateKey? || IsDuplicateEnrollmentViolation(f.message)
    ensures e == StudentNotFound <==> f.IntegrityViolation? && !IsDuplicateEnrollmentViolation(f.message)
                                      && !StudentExists(s, student)
    ensures e == CourseNotFound <==> f.IntegrityViolation? && !IsDuplicateEnrollmentViolation(f.message)
                                     && StudentExists(s, student) && course !in s.courses
    ensures e == IllegalState <==> f.IntegrityViolation? && !IsDuplicateEnrollmentViolation(f.message)
                                   && StudentExists(s, student) && course in s.courses
  {
    match f
    case DuplicateKey => DuplicateEnrollment
    case IntegrityViolation(message) =>
      if IsDuplicateEnrollmentViolation(message) then DuplicateEnrollment
      else if !StudentExists(s, student) then StudentNotFound
      else if course !in s.courses then CourseNotFound
      else IllegalState
  }

  /** insertActiveOrThrow. The only constraint on the enrollments table is
      the unique key, so the insert fails exactly when the pair already has
      an ACTIVE row, and then with DuplicateEnrollment. */
  function InsertActiveOrThrow(s: Store, student: StudentId, course: CourseId): (r: Tx<EnrollmentId>)
    ensures r.Rollback? <==> ExistsActive(s, student, course)
    ensures r.Rollback? ==> r.error == DuplicateEnrollment
    ensures r.Commit? ==> InsertActive(s, student, course) == Inserted(r.value, r.store) && r.value == s.nextId
  {
    match InsertActive(s, student, course)
    case Inserted(id, t) => Commit(id, t)
    case InsertFailed(f) => Rollback(TranslateInsertFailure(s, student, course, f))
  }

  /** incrementSeatOrThrow(courseId): when no row was updated, the course is
      looked up to tell a missing course from a full one. */
  function IncrementSeatOrThrow(s: Store, course: CourseId): (r: Tx<()>)
    ensures r.Commit? <==> course in s.courses && s.courses[course].enrolledCount < s.courses[course].capacity
    ensures r.Rollback? ==> r.error == (if course in s.courses then CourseCapacityExceeded else CourseNotFound)
    ensures r.Commit? ==> IncrementIfAvailable(s, course) == Update(1, r.store)
  {
    var u := IncrementIfAvailable(s, course);
    if u.affected == 0 then
      Rollback(if course in s.courses then CourseCapacityExceeded else CourseNotFound)
    else
      Commit((), u.store)
  }

  /** incrementSeatOrThrow(courseId, course): the caller already holds the
      course, so no row updated always means CourseCapacityExceeded. */
  function IncrementLoadedSeatOrThrow(s: Store, course: CourseId): (r: Tx<()>)
    ensures r.Commit? <==> course in s.courses && s.courses[course].enrolledCount < s.courses[course].capacity
    ensures r.Rollback? ==> r.error == CourseCapacityExceeded
    ensures r.Commit? ==> IncrementIfAvailable(s, course) == Update(1, r.store)
  {
    var u := IncrementIfAvailable(s, course);
    if u.affected == 0 then Rollback(CourseCapacityExceeded) else Commit((), u.store)
  }

  /** The two increments agree whenever the course exists. */
  lemma IncrementVariantsAgree(s: Store, course: CourseId)
    requires course in s.courses
    ensures IncrementSeatOrThrow(s, course) == IncrementLoadedSeatOrThrow(s, course)
  {
  }
}

=== FILE: pessimistic.dfy ===
/** The pessimistic strategy: lock the course row, then the student row, then
    run the shared enrollment body, all in one transaction. A lock failure
    retries the whole transaction, at most RETRY_LIMIT attempts in total,
    with no backoff. */
module Pessimistic {
  import opened Common
  import opened Enrollments
  import opened Store
  import opened RuleValidator
  import opened EnrollBody
  import opened Cancellation
  import ExceptionHandler

  const RETRY_LIMIT: nat := 3

  /** The outcome of the two lock requests of one attempt. */
  datatype Locks = Locks(course: Lock, student: Lock)

  /** One attempt: the outcome of its two lock requests and, when it fails
      on a lock, what other transactions (the lock holder among them)
      commit before the next attempt starts. An attempt that holds both
      locks runs undisturbed: nothing it reads can change meanwhile. */
  datatype Attempt = Attempt(locks: Locks, meanwhile: Option<Store>)

  /** Attempts past the given outcomes get both locks. */
  function AttemptAt(attempts: seq<Attempt>, i: nat): Attempt {
    if i < |attempts| then attempts[i] else Attempt(Locks(Granted, Granted), None)
  }

  /** The database attempt k reads: each retry starts a new transaction
      and sees what was committed while the earlier attempts waited. */
  function ReadBy(s: Store, attempts: seq<Attempt>, k: nat): Store {
    if k == 0 then s else Latest(ReadBy(s, attempts, k - 1), AttemptAt(attempts, k - 1).meanwhile)
  }

  /** No other transaction commits between the attempts. */
  predicate Undisturbed(attempts: seq<Attempt>) {
    forall i :: 0 <= i < |attempts| ==> attempts[i].meanwhile.None?
  }

  /** Without other writers every attempt reads the call's store. */
  lemma {:induction false} UndisturbedReadsStay(s: Store, attempts: seq<Attempt>, k: nat)
    requires Undisturbed(attempts)
    ensures ReadBy(s, attempts, k) == s
  {
    if k > 0 {
      UndisturbedReadsStay(s, attempts, k - 1);
    }
  }


  /** The attempt ends in a lock failure: the course lock times out, or the
      course exists and the student lock times out. */
  predicate LockFails(s: Store, course: CourseId, a: Locks) {
    a.course.TimedOut? || (course in s.courses && a.student.TimedOut?)
  }

  /** One attempt: one transaction. The course is locked and checked before
      the student. */
  function EnrollOnce(s: Store, student: StudentId, course: CourseId, a: Locks): (r: Tx<Enrollment>)
    ensures r == Rollback(LockFailure) <==> LockFails(s, course, a)
    ensures a.course.Granted? && course !in s.courses ==> r == Rollback(CourseNotFound)
    ensures !LockFails(s, course, a) && course in s.courses && student !in s.students ==> r == Rollback(StudentNotFound)
    ensures !LockFails(s, course, a) ==> (r.Commit? <==> EnrollAllowed(s, student, course))
    ensures r.Commit? ==> && r.value == Enrollments.Enroll(s.nextId, student, course)
                          && EqualUpToVersions(r.store, Enrolled(s, student, course))
                          && r.store.courses[course].version == s.courses[course].version + 1
  {
    if a.course.TimedOut? then Rollback(LockFailure)
    else if course !in s.courses then Rollback(CourseNotFound)
    else if a.student.TimedOut? then Rollback(LockFailure)
    else if student !in s.students then Rollback(StudentNotFound)
    else RunEnroll(s, student, course)
  }

  /** Attempts that get past their locks behave alike. */
  lemma AttemptsPastTheLocksAgree(s: Store, student: StudentId, course: CourseId, a: Locks)
    requires !LockFails(s, course, a)
    ensures EnrollOnce(s, student, course, a) == EnrollOnce(s, student, course, Locks(Granted, Granted))
  {
  }

  /** Attempt k fails on a lock, on the database it reads. */
  predicate FailsOnLock(s: Store, course: CourseId, attempts: seq<Attempt>, k: nat) {
    LockFails(ReadBy(s, attempts, k), course, AttemptAt(attempts, k).locks)
  }

  /** The number of student-lock requests among the first n attempts: one for
      every attempt whose course lock was granted on an existing course. */
  function StudentLockCalls(s: Store, course: CourseId, attempts: seq<Attempt>, n: nat): nat {
    if n == 0 then 0
    else StudentLockCalls(s, course, attempts, n - 1)
         + (if AttemptAt(attempts, n - 1).locks.course.Granted? && course in ReadBy(s, attempts, n - 1).courses then 1 else 0)
  }

  /** enroll with its retry: only LockFailure is retried. When every attempt
      fails on a lock, the raw LockFailure is returned and the store is what
      the other transactions left. Otherwise the first attempt that gets
      past its locks decides the outcome on the database it reads, as if
      every lock had been granted. */
  method Enroll(s: Store, student: StudentId, course: CourseId, attempts: seq<Attempt>)
    returns (r: Result<Enrollment>, t: Store, courseLockCalls: nat, studentLockCalls: nat)
    ensures 1 <= courseLockCalls <= RETRY_LIMIT
    ensures forall k :: 0 <= k < courseLockCalls - 1 ==> FailsOnLock(s, course, attempts, k)
    ensures studentLockCalls == StudentLockCalls(s, course, attempts, courseLockCalls)
    ensures r == Err(LockFailure) <==> forall k :: 0 <= k < RETRY_LIMIT ==> FailsOnLock(s, course, attempts, k)
    ensures r == Err(LockFailure) ==> t == ReadBy(s, attempts, RETRY_LIMIT) && courseLockCalls == RETRY_LIMIT
    ensures r != Err(LockFailure) ==>
              var read := ReadBy(s, attempts, courseLockCalls - 1);
              var once := EnrollOnce(read, student, course, Locks(Granted, Granted));
              && !FailsOnLock(s, course, attempts, courseLockCalls - 1)
              && (once.Commit? ==> r == Ok(once.value) && t == once.store)
              && (once.Rollback? ==> r == Err(once.error) && t == read)
    ensures r.Ok? <==> r != Err(LockFailure) && EnrollAllowed(ReadBy(s, attempts, courseLockCalls - 1), student, course)
  {
    var i := 0;
    var cur := s;
    courseLockCalls := 0;
    studentLockCalls := 0;
    while i < RETRY_LIMIT
      invariant 0 <= i <= RETRY_LIMIT
      invariant courseLockCalls == i
      invariant cur == ReadBy(s, attempts, i)
      invariant studentLockCalls == StudentLockCalls(s, course, attempts, i)
      invariant forall k :: 0 <= k < i ==> FailsOnLock(s, course, attempts, k)
    {
      var a := AttemptAt(attempts, i);
      courseLockCalls := courseLockCalls + 1;
      if a.locks.course.Granted? && course in cur.courses {
        studentLockCalls := studentLockCalls + 1;
      }
      var once := EnrollOnce(cur, student, course, a.locks);
      if !LockFails(cur, course, a.locks) {
        AttemptsPastTheLocksAgree(cur, student, course, a.locks);
        assert !FailsOnLock(s, course, attempts, i);
        if once.Commit? {
          r, t := Ok(once.value), once.store;
        } else {
          r, t := Err(once.error), cur;
        }
        return;
      }
      cur := Latest(cur, a.meanwhile);
      i := i + 1;
    }
    r, t := Err(LockFailure), cur;
  }

  /** The recovery Spring Retry runs on the error that ends enroll. The
      @Recover handlers take the lock failures, which become
      EnrollmentConcurrencyConflict carrying the retry limit. Any other
      error also reaches the recoverer, at once since it is not retried;
      no handler accepts it, so ExhaustedRetryException is raised with the
      error as its cause. */
  function Recover(e: Error): (r: Error)
    ensures e == LockFailure ==> r == EnrollmentConcurrencyConflict(RETRY_LIMIT)
    ensures e != LockFailure ==> r == ExhaustedRetry(e)
  {
    if e == LockFailure then EnrollmentConcurrencyConflict(RETRY_LIMIT) else ExhaustedRetry(e)
  }

  /** Whatever error ends the strategy's enroll, the client gets
      409 ENROLLMENT_CONCURRENCY_CONFLICT once it has been recovered: the
      domain errors of the enrollment rules included. */
  lemma RecoveredFailuresAreConflicts(e: Error, suffix: string)
    requires suffix == "Exception"
    ensures ExceptionHandler.Handle(ExceptionHandler.Engine(Recover(e)), suffix)
            == ExceptionHandler.Response(ExceptionHandler.CONFLICT, "ENROLLMENT_CONCURRENCY_CONFLICT")
  {
    ExceptionHandler.ConcurrencyFailuresAreConflicts(ExceptionHandler.Engine(Recover(e)), suffix);
  }

  /** Two lock timeouts on the course and then success: three course-lock
      requests, one student-lock request. */
  method TwoLockFailuresThenSuccess(s: Store, student: StudentId, course: CourseId)
    returns (r: Result<Enrollment>, courseLockCalls: nat, studentLockCalls: nat)
    requires EnrollAllowed(s, student, course)
    ensures r == Ok(Enrollments.Enroll(s.nextId, student, course))
    ensures courseLockCalls == 3 && studentLockCalls == 1
  {
    var timeout := Attempt(Locks(TimedOut, Granted), None);
    var attempts := [timeout, timeout, Attempt(Locks(Granted, Granted), None)];
    UndisturbedReadsStay(s, attempts, 1);
    UndisturbedReadsStay(s, attempts, 2);
    assert FailsOnLock(s, course, attempts, 0) && FailsOnLock(s, course, attempts, 1);
    assert !FailsOnLock(s, course, attempts, 2);
    var t;
    r, t, courseLockCalls, studentLockCalls := Enroll(s, student, course, attempts);
    assert StudentLockCalls(s, course, attempts, 1) == 0;
    assert StudentLockCalls(s, course, attempts, 2) == 0;
  }

  /** The retry reads the database again: when the transaction that held
      the course lock took the last seat, the second attempt fails on
      capacity. No @Recover handler takes that error, so the caller gets
      ExhaustedRetryException with it as the cause. */
  method RetryAfterTheLastSeatIsTaken(s: Store, w: Store, student: StudentId, course: CourseId)
    returns (r: Result<Enrollment>, t: Store, courseLockCalls: nat)
    requires course in w.courses && student in w.students
    requires ValidatePreInsert(w, student, course, w.courses[course]).Ok?
    requires w.courses[course].enrolledCount >= w.courses[course].capacity
    ensures r == Err(ExhaustedRetry(CourseCapacityExceeded)) && t == w && courseLockCalls == 2
  {
    var attempts := [Attempt(Locks(TimedOut, Granted), Some(w))];
    assert ReadBy(s, attempts, 1) == w;
    assert FailsOnLock(s, course, attempts, 0);
    assert !FailsOnLock(s, course, attempts, 1);
    var raw, studentLockCalls;
    raw, t, courseLockCalls, studentLockCalls := Enroll(s, student, course, attempts);
    r := if raw.Err? then Err(Recover(raw.error)) else raw;
  }

  /** Three lock timeouts on the course: the lock failure escapes, the
      student is never locked and nothing changes. */
  method ThreeLockFailures(s: Store, student: StudentId, course: CourseId)
    returns (r: Result<Enrollment>, t: Store, courseLockCalls: nat, studentLockCalls: nat)
    ensures r == Err(LockFailure) && t == s
    ensures courseLockCalls == 3 && studentLockCalls == 0
  {
    var timeout := Attempt(Locks(TimedOut, Granted), None);
    var attempts := [timeout, timeout, timeout];
    UndisturbedReadsStay(s, attempts, 3);
    r, t, courseLockCalls, studentLockCalls := Enroll(s, student, course, attempts);
    assert StudentLockCalls(s, course, attempts, 1) == 0;
    assert StudentLockCalls(s, course, attempts, 2) == 0;
  }
}

=== FILE: router.dfy ===
/** The four strategies behind one contract, and the router that indexes
    them by type. The router is built once from the registered strategies
    and refuses a type registered twice or a type left without a
    strategy. */
module Router {
  import opened Common
  import opened Enrollments
  import opened Store
  import opened RuleValidator
  import opened Cancellation
  import opened OptimisticExecutor
  import Pessimistic
  import Optimistic
  import Atomic
  import Separated

  datatype StrategyType = PESSIMISTIC | OPTIMISTIC | ATOMIC | SEPARATED

  /** The values of the strategy-type enumeration, in declaration order. */
  const AllTypes: seq<StrategyType> := [PESSIMISTIC, OPTIMISTIC, ATOMIC, SEPARATED]

  /** The four implementations; each reports its own fixed type. */
  datatype Strategy = PessimisticStrategy | OptimisticStrategy | AtomicStrategy | SeparatedStrategy {
    function Type(): StrategyType {
      match this
      case PessimisticStrategy => PESSIMISTIC
      case OptimisticStrategy => OPTIMISTIC
      case AtomicStrategy => ATOMIC
      case SeparatedStrategy => SEPARATED
    }
  }

  /** The one implementation reporting each type. */
  function StrategyOf(t: StrategyType): (r: Strategy)
    ensures r.Type() == t
  {
    match t
    case PESSIMISTIC => PessimisticStrategy
    case OPTIMISTIC => OptimisticStrategy
    case ATOMIC => AtomicStrategy
    case SEPARATED => SeparatedStrategy
  }

  lemma TypeDeterminesStrategy(a: Strategy, b: Strategy)
    ensures a.Type() == b.Type() <==> a == b
  {
  }

  lemma EveryTypeIsListed(t: StrategyType)
    ensures t in AllTypes
  {
  }

  datatype Router = Router(byType: map<StrategyType, Strategy>)

  /** No two registered strategies report the same type. */
  predicate DistinctTypes(strategies: seq<Strategy>) {
    forall i, j :: 0 <= i < j < |strategies| ==> strategies[i].Type() != strategies[j].Type()
  }

  /** Some registered strategy reports type t. */
  predicate Covers(strategies: seq<Strategy>, t: StrategyType) {
    exists i :: 0 <= i < |strategies| && strategies[i].Type() == t
  }

  /** The first loop of the constructor: put every strategy under its type;
      finding the type already taken fails with IllegalState. */
  function Register(strategies: seq<Strategy>): (r: Result<map<StrategyType, Strategy>>)
    ensures r.Ok? <==> DistinctTypes(strategies)
    ensures r.Err? ==> r.error == IllegalState
    ensures r.Ok? ==> forall t :: t in r.value <==> Covers(strategies, t)
    ensures r.Ok? ==> forall t :: t in r.value ==> r.value[t].Type() == t
    decreases |strategies|
  {
    if |strategies| == 0 then Ok(map[])
    else
      var init := strategies[..|strategies| - 1];
      var last := strategies[|strategies| - 1];
      assert forall i :: 0 <= i < |init| ==> init[i] == strategies[i];
      var m :- Register(init);
      if last.Type() in m then Err(IllegalState)
      else Ok(m[last.Type() := last])
  }

  /** The second loop of the constructor: every type of the enumeration
      must have a strategy. */
  function FirstMissing(m: map<StrategyType, Strategy>, types: seq<StrategyType>): (r: Option<StrategyType>)
    ensures r.None? <==> forall t :: t in types ==> t in m
    ensures r.Some? ==> r.value in types && r.value !in m
  {
    if |types| == 0 then None
    else if types[0] !in m then Some(types[0])
    else FirstMissing(m, types[1..])
  }

  /** new EnrollmentStrategyRouter(strategies). */
  function NewRouter(strategies: seq<Strategy>): (r: Result<Router>)
    ensures r.Ok? <==> DistinctTypes(strategies) && forall t :: Covers(strategies, t)
    ensures r.Err? ==> r.error == IllegalState
    ensures r.Ok? ==> forall t :: t in r.value.byType && r.value.byType[t].Type() == t
  {
    var m :- Register(strategies);
    match FirstMissing(m, AllTypes)
    case Some(_) => Err(IllegalState)
    case None =>
      assert forall t :: t in m by {
        forall t
          ensures t in m
        {
          EveryTypeIsListed(t);
        }
      }
      Ok(Router(m))
  }

  /** get(type): the registered strategy, or IllegalArgument. */
  function Get(router: Router, t: StrategyType): (r: Result<Strategy>)
    ensures r.Ok? <==> t in router.byType
    ensures r.Ok? ==> r.value == router.byType[t]
    ensures r.Err? ==> r.error == IllegalArgument
  {
    if t in router.byType then Ok(router.byType[t]) else Err(IllegalArgument)
  }

  /** A constructed router answers every type with the strategy of that
      type, so get never fails on it. */
  lemma ConstructedRouterIsTotal(strategies: seq<Strategy>, t: StrategyType)
    requires NewRouter(strategies).Ok?
    ensures Get(NewRouter(strategies).value, t) == Ok(StrategyOf(t))
  {
    var router := NewRouter(strategies).value;
    TypeDeterminesStrategy(router.byType[t], StrategyOf(t));
  }

  /** Registering each implementation once, in any order, builds a router. */
  lemma FullRegistration()
    ensures NewRouter([SeparatedStrategy, AtomicStrategy, OptimisticStrategy, PessimisticStrategy]).Ok?
  {
    var full := [SeparatedStrategy, AtomicStrategy, OptimisticStrategy, PessimisticStrategy];
    assert full[3].Type() == PESSIMISTIC && full[2].Type() == OPTIMISTIC;
    assert full[1].Type() == ATOMIC && full[0].Type() == SEPARATED;
  }

  /** Registering one implementation twice fails. */
  lemma DuplicateRegistration()
    ensures NewRouter([PessimisticStrategy, PessimisticStrategy, OptimisticStrategy, AtomicStrategy, SeparatedStrategy])
            == Err(IllegalState)
  {
    var twice := [PessimisticStrategy, PessimisticStrategy, OptimisticStrategy, AtomicStrategy, SeparatedStrategy];
    assert twice[0].Type() == twice[1].Type();
  }

  /** Leaving one implementation out fails. */
  lemma MissingRegistration()
    ensures NewRouter([PessimisticStrategy, OptimisticStrategy, AtomicStrategy]) == Err(IllegalState)
  {
    var three := [PessimisticStrategy, OptimisticStrategy, AtomicStrategy];
    assert !Covers(three, SEPARATED);
  }

  // ---------------------------------------------------------------------
  // The common contract

  /** What the environment decides for one call: the lock outcomes of the
      pessimistic attempts and what other transactions commit between them,
      the student locks of the optimistic attempts and what other
      transactions commit between each one's read and its commit, the
      student lock of the atomic and separated strategies, and whether the
      separated strategy's compensation commits. */
  datatype Environment = Environment(
    locks: seq<Pessimistic.Attempt>,
    attempts: seq<Optimistic.Attempt>,
    studentLock: Lock,
    releaseCompletes: bool)

  /** No other transaction commits during the call. */
  predicate Undisturbed(env: Environment) {
    Pessimistic.Undisturbed(env.locks) && Optimistic.Undisturbed(env.attempts)
  }

  /** An environment without lock timeouts or interference. */
  const Quiet: Environment := Environment([], [], Granted, true)

  /** The common contract of one enroll call. `read` is the database the
      deciding attempt read, `base` the one its commit ran against; both
      are the call's store when no other transaction commits during the
      call. A success inserts the enrollment over `base` and met the rules
      on `read`; a failure writes nothing unless `compensates`. */
  predicate Honours(s: Store, student: StudentId, course: CourseId, undisturbed: bool, compensates: bool,
                    r: Result<Enrollment>, t: Store, read: Store, base: Store)
  {
    && (undisturbed ==> read == s && base == s)
    && (r.Ok? ==> && course in read.courses
                  && r.value == Enrollments.Enroll(base.nextId, student, course)
                  && t.rows == base.rows[base.nextId := r.value] && t.nextId == base.nextId + 1
                  && t.students == base.students)
    && (r.Ok? && base == read ==> EqualUpToVersions(t, Enrolled(read, student, course)))
    && (r.Err? && !compensates ==> t == base)
    && (RowsIndexed(read) && CoursesWellFormed(read) ==> (r.Ok? ==> EnrollAllowed(read, student, course)))
  }

  /** The pessimistic strategy's enroll, with its recovery. */
  method ViaPessimistic(s: Store, student: StudentId, course: CourseId, locks: seq<Pessimistic.Attempt>)
    returns (r: Result<Enrollment>, t: Store, read: Store, base: Store)
    ensures Honours(s, student, course, Pessimistic.Undisturbed(locks), false, r, t, read, base)
    ensures r.Err? ==> || r.error == EnrollmentConcurrencyConflict(Pessimistic.RETRY_LIMIT)
                       || (r.error.ExhaustedRetry? && r.error.cause != LockFailure)
    ensures locks == [] ==> (r.Ok? <==> EnrollAllowed(s, student, course))
  {
    var res, store, calls, _ := Pessimistic.Enroll(s, student, course, locks);
    r := if res.Err? then Err(Pessimistic.Recover(res.error)) else res;
    t := store;
    read := if res == Err(LockFailure) then store else Pessimistic.ReadBy(s, locks, calls - 1);
    base := read;
    if Pessimistic.Undisturbed(locks) {
      Pessimistic.UndisturbedReadsStay(s, locks, calls - 1);
      Pessimistic.UndisturbedReadsStay(s, locks, Pessimistic.RETRY_LIMIT);
    }
    if locks == [] {
      assert !Pessimistic.FailsOnLock(s, course, locks, 0);
    }
  }

  /** The optimistic strategy's enroll, retry and recovery included. */
  method ViaOptimistic(s: Store, student: StudentId, course: CourseId, attempts: seq<Optimistic.Attempt>)
    returns (r: Result<Enrollment>, t: Store, read: Store, base: Store)
    ensures Honours(s, student, course, Optimistic.Undisturbed(attempts), false, r, t, read, base)
    ensures r.Err? ==> || r.error == EnrollmentConcurrencyConflict(Optimistic.RETRY_LIMIT)
                       || (r.error.ExhaustedRetry? && r.error.cause != VersionConflict)
    ensures attempts == [] ==> (r.Ok? <==> EnrollAllowed(s, student, course))
  {
    var res, store, calls := Optimistic.Enroll(s, student, course, attempts);
    r, t := res, store;
    if res == Err(EnrollmentConcurrencyConflict(Optimistic.RETRY_LIMIT)) {
      read, base := store, store;
    } else {
      read, base := Optimistic.ReadBy(s, attempts, calls - 1), Optimistic.ReadBy(s, attempts, calls);
    }
    if Optimistic.Undisturbed(attempts) {
      Optimistic.UndisturbedReadsStay(s, attempts, calls - 1);
      Optimistic.UndisturbedReadsStay(s, attempts, calls);
      Optimistic.UndisturbedReadsStay(s, attempts, Optimistic.RETRY_LIMIT);
    }
    if attempts == [] {
      assert Optimistic.Attempted(s, student, course, attempts, 0) == ExecuteOnce(s, student, course, Granted);
      assert calls == 1;
    }
  }

  /** The atomic strategy's enroll: one transaction, no retry. */
  method ViaAtomic(s: Store, student: StudentId, course: CourseId, studentLock: Lock)
    returns (r: Result<Enrollment>, t: Store, read: Store, base: Store)
    ensures Honours(s, student, course, true, false, r, t, read, base)
    ensures RowsIndexed(s) && CoursesWellFormed(s) && studentLock.Granted? ==>
              (r.Ok? <==> EnrollAllowed(s, student, course))
  {
    var tx := Atomic.Enroll(s, student, course, studentLock);
    if RowsIndexed(s) {
      Atomic.MatchesReference(s, student, course, studentLock);
    }
    r, t := if tx.Commit? then Ok(tx.value) else Err(tx.error), tx.After(s);
    read, base := s, s;
  }

  /** The separated strategy's enroll: reserve, finalize, and release the
      seat when the finalize phase fails. */
  method ViaSeparated(s: Store, student: StudentId, course: CourseId, studentLock: Lock, releaseCompletes: bool)
    returns (r: Result<Enrollment>, t: Store, read: Store, base: Store)
    ensures Honours(s, student, course, true, true, r, t, read, base)
    ensures RowsIndexed(s) && CoursesWellFormed(s) && studentLock.Granted? ==>
              (r.Ok? <==> EnrollAllowed(s, student, course))
  {
    var o := Separated.Enroll(s, student, course, studentLock, releaseCompletes);
    if RowsIndexed(s) && CoursesWellFormed(s) && studentLock.Granted? {
      Separated.MatchesReference(s, student, course, releaseCompletes);
    }
    r, t := o.result, o.store;
    read, base := s, s;
  }

  /** enroll(studentId, courseId) through a strategy, including the
      recovery that turns a retry-exhausting failure into
      EnrollmentConcurrencyConflict. `read` is the database the deciding
      attempt read, `base` the one its commit ran against; both are the
      call's store unless other transactions commit during the call. */
  method EnrollVia(strategy: Strategy, s: Store, student: StudentId, course: CourseId, env: Environment)
    returns (r: Result<Enrollment>, t: Store, read: Store, base: Store)
    ensures Undisturbed(env) ==> read == s && base == s
    ensures r.Ok? ==> && course in read.courses
                      && r.value == Enrollments.Enroll(base.nextId, student, course)
                      && t.rows == base.rows[base.nextId := r.value] && t.nextId == base.nextId + 1
                      && t.students == base.students
    ensures r.Ok? && base == read ==> EqualUpToVersions(t, Enrolled(read, student, course))
    ensures r.Err? && !strategy.SeparatedStrategy? ==> t == base
    ensures RowsIndexed(read) && CoursesWellFormed(read) ==> (r.Ok? ==> EnrollAllowed(read, student, course))
    ensures RowsIndexed(s) && CoursesWellFormed(s) && env == Quiet ==> (r.Ok? <==> EnrollAllowed(s, student, course))
  {
    match strategy
    case PessimisticStrategy =>
      r, t, read, base := ViaPessimistic(s, student, course, env.locks);
    case OptimisticStrategy =>
      r, t, read, base := ViaOptimistic(s, student, course, env.attempts);
    case AtomicStrategy =>
      r, t, read, base := ViaAtomic(s, student, course, env.studentLock);
    case SeparatedStrategy =>
      r, t, read, base := ViaSeparated(s, student, course, env.studentLock, env.releaseCompletes);
  }

  /** cancel(enrollmentId): every strategy delegates to the shared routine,
      which cancels exactly an ACTIVE row whose course exists, gives its
      seat back and reports a missing, already canceled or locked row. */
  function CancelVia(strategy: Strategy, s: Store, id: EnrollmentId, lock: Lock, now: Instant): (r: Tx<()>)
    ensures r == CancelEnrollment(s, id, lock, now)
    ensures r.Commit? <==> lock.Granted? && id in s.rows && IsActive(s.rows[id]) && s.rows[id].course in s.courses
                           && !CanceledTwinExists(s, id)
    ensures lock.TimedOut? ==> r == Rollback(LockFailure)
    ensures lock.Granted? && id !in s.rows ==> r == Rollback(EnrollmentNotFound)
    ensures r.Commit? ==> id in r.store.rows && r.store.rows[id].status == Canceled
  {
    CancelEnrollment(s, id, lock, now)
  }
}

=== FILE: rule_validator.dfy ===
/** The enrollment business rules: no duplicate ACTIVE enrollment, at most
    MAX_CREDITS credits, no overlapping time slots, and a free seat. The
    validator checks the first three against the store in two modes; the
    reference predicate EnrollAllowed states all four at once, and Enrolled
    is the store every strategy must commit when they hold. */
module RuleValidator {
  import opened Common
  import opened TimeSlots
  import opened Courses
  import opened Students
  import opened Enrollments
  import opened Store

  /** Sum of the credits of a list of courses. */
  function CreditSum(cs: seq<Course>): int {
    if |cs| == 0 then 0 else CreditSum(cs[..|cs| - 1]) + cs[|cs| - 1].credits
  }

  /** Some course of the list overlaps the requested one. */
  predicate AnyOverlap(cs: seq<Course>, requested: Course) {
    exists i :: 0 <= i < |cs| && Overlaps(cs[i].slot, requested.slot)
  }

  /** No two courses of the list overlap. */
  predicate ScheduleFree(cs: seq<Course>) {
    forall i, j :: 0 <= i < j < |cs| ==> !Overlaps(cs[i].slot, cs[j].slot)
  }

  lemma CreditSumAppend(a: seq<Course>, x: Course)
    ensures CreditSum(a + [x]) == CreditSum(a) + x.credits
  {
    assert (a + [x])[..|a|] == a;
  }

  /** The credit sum only reads credits. */
  lemma {:induction false} CreditSumCatalog(a: seq<Course>, b: seq<Course>)
    requires CatalogEq(a, b)
    ensures CreditSum(a) == CreditSum(b)
    decreases |a|
  {
    if |a| > 0 {
      CreditSumCatalog(a[..|a| - 1], b[..|b| - 1]);
    }
  }

  /** Credits are positive, so the sum is never negative. */
  lemma {:induction false} CreditSumNonNegative(cs: seq<Course>)
    requires forall i :: 0 <= i < |cs| ==> cs[i].credits > 0
    ensures CreditSum(cs) >= 0
    decreases |cs|
  {
    if |cs| > 0 {
      CreditSumNonNegative(cs[..|cs| - 1]);
    }
  }

  /** Credit check first, then the schedule check; the requested course is
      compared with every active course. */
  function ValidateCreditAndSchedule(active: seq<Course>, requested: Course): (r: Check)
    ensures r.Ok? <==> CreditSum(active) + requested.credits <= MAX_CREDITS && !AnyOverlap(active, requested)
    ensures r.Err? && CreditSum(active) + requested.credits > MAX_CREDITS ==> r.error == CreditLimitExceeded
    ensures r.Err? && CreditSum(active) + requested.credits <= MAX_CREDITS ==> r.error == ScheduleConflict
  {
    var _ :- ValidateCreditLimit(CreditSum(active), requested.credits);
    if exists i :: 0 <= i < |active| && Overlaps(active[i].slot, requested.slot) then Err(ScheduleConflict)
    else Pass()
  }

  /** The checks only read credits and slots: lists that agree on those give
      the same verdict. */
  lemma ValidationReadsCatalogOnly(a: seq<Course>, b: seq<Course>, r: Course, r': Course)
    requires CatalogEq(a, b) && r.credits == r'.credits && r.slot == r'.slot
    ensures ValidateCreditAndSchedule(a, r) == ValidateCreditAndSchedule(b, r')
  {
    CreditSumCatalog(a, b);
    if AnyOverlap(a, r) {
      var i :| 0 <= i < |a| && Overlaps(a[i].slot, r.slot);
      assert Overlaps(b[i].slot, r'.slot);
    }
    if AnyOverlap(b, r') {
      var i :| 0 <= i < |b| && Overlaps(b[i].slot, r'.slot);
      assert Overlaps(a[i].slot, r.slot);
    }
  }

  /** validateForPreInsert: the duplicate check, then credits and schedule
      against the student's ACTIVE enrollments. */
  function ValidatePreInsert(s: Store, student: StudentId, course: CourseId, requested: Course): (r: Check)
    ensures r.Ok? <==> !ExistsActive(s, student, course)
                       && ValidateCreditAndSchedule(ActiveCourses(s, student, None), requested).Ok?
    ensures ExistsActive(s, student, course) ==> r == Err(DuplicateEnrollment)
    ensures !ExistsActive(s, student, course) ==> r == ValidateCreditAndSchedule(ActiveCourses(s, student, None), requested)
  {
    if ExistsActive(s, student, course) then Err(DuplicateEnrollment)
    else ValidateCreditAndSchedule(ActiveCourses(s, student, None), requested)
  }

  /** validateAfterAtomicInsert: credits and schedule against the student's
      ACTIVE enrollments other than the one just inserted; no duplicate
      check. */
  function ValidateAfterInsert(s: Store, student: StudentId, inserted: EnrollmentId, requested: Course): (r: Check)
    ensures var others := ActiveCourses(s, student, Some(inserted));
            r.Ok? <==> CreditSum(others) + requested.credits <= MAX_CREDITS && !AnyOverlap(others, requested)
    ensures var others := ActiveCourses(s, student, Some(inserted));
            r.Err? && CreditSum(others) + requested.credits > MAX_CREDITS ==> r.error == CreditLimitExceeded
    ensures var others := ActiveCourses(s, student, Some(inserted));
            r.Err? && CreditSum(others) + requested.credits <= MAX_CREDITS ==> r.error == ScheduleConflict
  {
    ValidateCreditAndSchedule(ActiveCourses(s, student, Some(inserted)), requested)
  }

  // ---------------------------------------------------------------------
  // Reference semantics of one enrollment

  /** All preconditions of a successful enrollment, independent of how a
      strategy orders its checks. */
  predicate EnrollAllowed(s: Store, student: StudentId, course: CourseId) {
    && course in s.courses
    && student in s.students
    && !ExistsActive(s, student, course)
    && s.courses[course].enrolledCount < s.courses[course].capacity
    && CreditSum(ActiveCourses(s, student, None)) + s.courses[course].credits <= MAX_CREDITS
    && !AnyOverlap(ActiveCourses(s, student, None), s.courses[course])
  }

  /** The store after a successful enrollment: a new ACTIVE row under the
      next id and one more seat taken. Versions are left as they were. */
  function Enrolled(s: Store, student: StudentId, course: CourseId): (t: Store)
    requires course in s.courses
    ensures t.nextId == s.nextId + 1 && t.students == s.students
    ensures t.rows.Keys == s.rows.Keys + {s.nextId} && t.rows[s.nextId] == Enroll(s.nextId, student, course)
    ensures forall id :: id in s.rows && id != s.nextId ==> t.rows[id] == s.rows[id]
    ensures t.courses.Keys == s.courses.Keys
    ensures SameExceptCount(s.courses[course], t.courses[course])
    ensures t.courses[course].enrolledCount == s.courses[course].enrolledCount + 1
    ensures forall c :: c in s.courses && c != course ==> t.courses[c] == s.courses[c]
  {
    var c := s.courses[course];
    s.(courses := s.courses[course := c.(enrolledCount := c.enrolledCount + 1)],
       rows := s.rows[s.nextId := Enroll(s.nextId, student, course)],
       nextId := s.nextId + 1)
  }

  /** Two stores that differ at most in course versions. */
  predicate EqualUpToVersions(a: Store, b: Store) {
    && a.students == b.students && a.rows == b.rows && a.nextId == b.nextId
    && a.courses.Keys == b.courses.Keys
    && forall c :: c in a.courses ==> a.courses[c].(version := b.courses[c].version) == b.courses[c]
  }

  /** Versions play no part in the invariants. */
  lemma ConsistentUpToVersions(a: Store, b: Store)
    requires Consistent(a) && EqualUpToVersions(a, b)
    ensures Consistent(b)
  {
    forall c | c in b.courses
      ensures b.courses[c].enrolledCount == ActiveCount(b, c)
    {
      assert a.courses[c].enrolledCount == ActiveCount(a, c);
    }
  }

  /** After an insert, the list of the student's other ACTIVE courses equals
      the list before the insert, on everything the rules read; so does the
      list of every other student. Seat counters changed afterwards do not
      matter. */
  lemma ActiveCoursesAfterInsert(s: Store, t: Store, student: StudentId, course: CourseId, other: StudentId)
    requires RowsIndexed(s)
    requires InsertActive(s, student, course).Inserted?
    requires t.rows == InsertActive(s, student, course).store.rows && t.nextId == s.nextId + 1
    requires SameCatalog(s.courses, t.courses)
    ensures CatalogEq(ActiveCourses(t, student, Some(s.nextId)), ActiveCourses(s, student, None))
    ensures other != student ==> CatalogEq(ActiveCourses(t, other, None), ActiveCourses(s, other, None))
  {
    var n := s.nextId;
    assert RowsAgreeBelow(t, s, n);
    ActiveCoursesAgree(t, s, student, Some(n), None, n);
    assert ActiveCoursesBelow(t, student, Some(n), n + 1) == ActiveCoursesBelow(t, student, Some(n), n);
    if other != student {
      ActiveCoursesAgree(t, s, other, None, None, n);
      assert !Kept(t, n, other, None);
      assert ActiveCoursesBelow(t, other, None, n + 1) == ActiveCoursesBelow(t, other, None, n);
    }
  }

  /** Validation after an insert, against the store that holds the new row
      and whatever seat counters, gives the verdict the pre-insert
      validation would have given (less the duplicate check). */
  lemma AfterInsertValidationAgrees(s: Store, t: Store, student: StudentId, course: CourseId)
    requires RowsIndexed(s) && course in s.courses
    requires InsertActive(s, student, course).Inserted?
    requires t.rows == InsertActive(s, student, course).store.rows && t.nextId == s.nextId + 1
    requires SameCatalog(s.courses, t.courses)
    ensures ValidateAfterInsert(t, student, s.nextId, t.courses[course])
         == ValidateCreditAndSchedule(ActiveCourses(s, student, None), s.courses[course])
  {
    ActiveCoursesAfterInsert(s, t, student, course, student);
    ValidationReadsCatalogOnly(ActiveCourses(t, student, Some(s.nextId)), ActiveCourses(s, student, None),
                               t.courses[course], s.courses[course]);
  }

  /** The student's ACTIVE list after a successful enrollment is the old
      list followed by the new course. */
  lemma ActiveCoursesAfterEnroll(s: Store, student: StudentId, course: CourseId)
    requires RowsIndexed(s) && course in s.courses
    ensures var t := Enrolled(s, student, course);
            CatalogEq(ActiveCourses(t, student, None), ActiveCourses(s, student, None) + [s.courses[course]])
  {
    var t := Enrolled(s, student, course);
    var n := s.nextId;
    assert RowsAgreeBelow(t, s, n);
    ActiveCoursesAgree(t, s, student, None, None, n);
    assert Kept(t, n, student, None);
    assert ActiveCoursesBelow(t, student, None, n + 1)
        == ActiveCoursesBelow(t, student, None, n) + [t.courses[course]];
    CatalogEqAppend(ActiveCoursesBelow(t, student, None, n), ActiveCoursesBelow(s, student, None, n),
                    t.courses[course], s.courses[course]);
  }

  /** A successful enrollment keeps the store invariants, leaves the student
      within MAX_CREDITS, and keeps a clash-free timetable clash-free. */
  lemma EnrolledKeepsInvariants(s: Store, student: StudentId, course: CourseId)
    requires Consistent(s) && EnrollAllowed(s, student, course)
    ensures var t := Enrolled(s, student, course);
            && Consistent(t)
            && CreditSum(ActiveCourses(t, student, None)) <= MAX_CREDITS
            && (ScheduleFree(ActiveCourses(s, student, None)) ==> ScheduleFree(ActiveCourses(t, student, None)))
  {
    var t := Enrolled(s, student, course);
    var ins := InsertActive(s, student, course);
    InsertActiveEffect(s, student, course);
    forall c | c in t.courses
      ensures t.courses[c].enrolledCount == ActiveCount(t, c)
    {
      assert ActiveCount(t, c) == ActiveCount(ins.store, c);
    }
    assert Consistent(t);
    var before := ActiveCourses(s, student, None);
    var after := ActiveCourses(t, student, None);
    ActiveCoursesAfterEnroll(s, student, course);
    CreditSumCatalog(after, before + [s.courses[course]]);
    CreditSumAppend(before, s.courses[course]);
    if ScheduleFree(before) {
      forall i, j | 0 <= i < j < |after|
        ensures !Overlaps(after[i].slot, after[j].slot)
      {
        var ext := before + [s.courses[course]];
        if j < |before| {
          assert !Overlaps(before[i].slot, before[j].slot);
        } else {
          assert !Overlaps(before[i].slot, s.courses[course].slot);
        }
      }
    }
  }
}

=== FILE: schedule_check.dfy ===
/** The schedule text the server renders, read back by the load test's
    parser: every rendered slot parses to its own day, start and end, and
    the load test's conflict check on rendered slots is exactly the
    server's overlap test. */
module ScheduleCheck {
  import opened Common
  import opened TimeSlots
  import opened Text
  import opened ScheduleFormat
  import opened TimetableAssertion

  /** What parseSchedule should recover from a rendered slot. */
  function ParsedOf(slot: TimeSlot): Parsed {
    Parsed(DayAbbrev(slot.day), slot.start, slot.end)
  }

  /** The layout of a rendered slot as the parser's pattern reads it. */
  lemma FormatShape(slot: TimeSlot)
    ensures var f := Format(slot);
            && |f| == 15 && IsUpper(f[0]) && IsUpper(f[1]) && IsUpper(f[2])
            && IsJsSpace(f[3]) && !IsJsSpace(f[14])
            && f[..3] == DayAbbrev(slot.day)
            && ClockRange(f[4..])
            && RangeStart(f[4..]) == slot.start && RangeEnd(f[4..]) == slot.end
  {
    var f := Format(slot);
    var c := f[4..];
    var a := FormatTime(slot.start);
    var b := FormatTime(slot.end);
    assert c == a + ['-'] + b;
    assert c[0..2] == a[..2] && c[3..5] == a[3..];
    assert c[6..8] == b[..2] && c[9..11] == b[3..];
  }

  /** Round trip: a rendered slot parses back to its day, start and end. */
  lemma FormatThenParse(slot: TimeSlot)
    requires Valid(slot)
    ensures ParseSchedule(Format(slot)) == Some(ParsedOf(slot))
  {
    var f := Format(slot);
    FormatShape(slot);
    TrimKeeps(f);
    assert f[|f| - 11..] == f[4..];
    assert MatchesPattern(f);
  }

  /** Parsed slots clash exactly when the slots overlap. */
  lemma ClashIsOverlap(a: TimeSlot, b: TimeSlot)
    ensures Clash(ParsedOf(a), ParsedOf(b)) <==> Overlaps(a, b)
  {
    DayAbbrevInjective(a.day, b.day);
  }

  /** The schedule column of a list of rendered slots. */
  function FormattedAll(slots: seq<TimeSlot>): seq<Option<string>> {
    seq(|slots|, i requires 0 <= i < |slots| => Some(Format(slots[i])))
  }

  /** Parsing one more schedule appends its parse, if any. */
  lemma ParseAllSnoc(xs: seq<Option<string>>, x: string)
    ensures ParseAll(xs + [Some(x)])
            == ParseAll(xs) + (if ParseSchedule(x).Some? then [ParseSchedule(x).value] else [])
  {
    assert (xs + [Some(x)])[..|xs|] == xs;
  }

  /** The parses a list of slots should give. */
  function ParsedAll(slots: seq<TimeSlot>): (r: seq<Parsed>)
    ensures |r| == |slots| && forall i :: 0 <= i < |slots| ==> r[i] == ParsedOf(slots[i])
  {
    if |slots| == 0 then [] else ParsedAll(slots[..|slots| - 1]) + [ParsedOf(slots[|slots| - 1])]
  }

  /** Rendered valid slots all parse, in order. */
  lemma {:induction false} ParseAllFormatted(slots: seq<TimeSlot>)
    requires forall i :: 0 <= i < |slots| ==> Valid(slots[i])
    ensures ParseAll(FormattedAll(slots)) == ParsedAll(slots)
  {
    if |slots| > 0 {
      var init := slots[..|slots| - 1];
      var last := slots[|slots| - 1];
      assert FormattedAll(slots) == FormattedAll(init) + [Some(Format(last))];
      ParseAllFormatted(init);
      FormatThenParse(last);
      ParseAllSnoc(FormattedAll(init), Format(last));
    }
  }

  /** Parsed slots clash pairwise exactly where the slots overlap. */
  lemma ClashesAreOverlaps(slots: seq<TimeSlot>)
    ensures HasClash(ParsedAll(slots)) <==> exists i, j :: 0 <= i < j < |slots| && Overlaps(slots[i], slots[j])
  {
    var p := ParsedAll(slots);
    if HasClash(p) {
      var i, j :| 0 <= i < j < |p| && Clash(p[i], p[j]);
      ClashIsOverlap(slots[i], slots[j]);
    }
    if exists i, j :: 0 <= i < j < |slots| && Overlaps(slots[i], slots[j]) {
      var i, j :| 0 <= i < j < |slots| && Overlaps(slots[i], slots[j]);
      ClashIsOverlap(slots[i], slots[j]);
      assert Clash(p[i], p[j]);
    }
  }

  /** The load test sees a timetable conflict in rendered valid slots
      exactly when two of the slots overlap in the server's sense. */
  lemma ConflictIsOverlap(slots: seq<TimeSlot>)
    requires forall i :: 0 <= i < |slots| ==> Valid(slots[i])
    ensures HasTimetableConflict(FormattedAll(slots))
            <==> exists i, j :: 0 <= i < j < |slots| && Overlaps(slots[i], slots[j])
  {
    ConflictMeansClash(FormattedAll(slots));
    ParseAllFormatted(slots);
    ClashesAreOverlaps(slots);
  }

  /** Back-to-back rendered slots are not a conflict. */
  lemma BackToBackIsNoConflict(x: TimeSlot, y: TimeSlot)
    requires x == TimeSlot(Monday, 540, 630) && y == TimeSlot(Monday, 630, 720)
    ensures !HasTimetableConflict(FormattedAll([x, y]))
  {
    var l := [x, y];
    ConflictIsOverlap(l);
    assert !exists i, j :: 0 <= i < j < |l| && Overlaps(l[i], l[j]) by {
      forall i, j | 0 <= i < j < |l|
        ensures !Overlaps(l[i], l[j])
      {
        assert i == 0 && j == 1;
      }
    }
  }

  /** Overlapping rendered slots on one day are a conflict. */
  lemma OverlapIsConflict(x: TimeSlot, y: TimeSlot)
    requires x == TimeSlot(Tuesday, 540, 660) && y == TimeSlot(Tuesday, 600, 720)
    ensures HasTimetableConflict(FormattedAll([x, y]))
  {
    ConflictIsOverlap([x, y]);
    assert Overlaps([x, y][0], [x, y][1]);
  }
}

=== FILE: schedule_format.dfy ===
/** The schedule text shown for a time slot: the first three letters of
    the day name, a space, then start and end as zero-padded 24-hour HH:mm
    joined by '-', e.g. "MON 09:00-10:30". */
module ScheduleFormat {
  import opened TimeSlots
  import opened Text

  /** The first three letters of DayOfWeek.name(). */
  function DayAbbrev(d: Day): (r: string)
    ensures |r| == 3 && IsUpper(r[0]) && IsUpper(r[1]) && IsUpper(r[2])
  {
    match d
    case Monday => "MON"
    case Tuesday => "TUE"
    case Wednesday => "WED"
    case Thursday => "THU"
    case Friday => "FRI"
    case Saturday => "SAT"
    case Sunday => "SUN"
  }

  /** Different days have different abbreviations. */
  lemma DayAbbrevInjective(a: Day, b: Day)
    ensures DayAbbrev(a) == DayAbbrev(b) <==> a == b
  {
    if a != b {
      assert DayAbbrev(a)[..3] != DayAbbrev(b)[..3];
    }
  }

  /** HH:mm of a time of day. */
  function FormatTime(t: Time): (r: string)
    ensures |r| == 5 && r[2] == ':'
    ensures IsDigit(r[0]) && IsDigit(r[1]) && IsDigit(r[3]) && IsDigit(r[4])
    ensures Parse2(r[..2]) * 60 + Parse2(r[3..]) == t
    ensures Parse2(r[..2]) < 24 && Parse2(r[3..]) < 60
  {
    var r := Pad2(t / 60) + ":" + Pad2(t % 60);
    assert r[..2] == Pad2(t / 60) && r[3..] == Pad2(t % 60);
    Parse2OfPad2(t / 60);
    Parse2OfPad2(t % 60);
    r
  }

  /** ScheduleFormatter.format. */
  function Format(slot: TimeSlot): (r: string)
    ensures |r| == 15
    ensures r[..3] == DayAbbrev(slot.day) && r[3] == ' ' && r[4..9] == FormatTime(slot.start)
    ensures r[9] == '-' && r[10..] == FormatTime(slot.end)
  {
    DayAbbrev(slot.day) + " " + FormatTime(slot.start) + "-" + FormatTime(slot.end)
  }

  /** Monday 9:00 to 10:30 is shown as "MON 09:00-10:30". */
  lemma MondayMorningExample(expected: string)
    requires expected == "MON 09:00-10:30"
    ensures Format(TimeSlot(Monday, 540, 630)) == expected
  {
    NineAndHalfPastTen();
    assert expected == "MON" + " " + "09:00" + "-" + "10:30";
  }

  lemma NineAndHalfPastTen()
    ensures FormatTime(540) == "09:00" && FormatTime(630) == "10:30"
  {
    assert Pad2(9) == "09" && Pad2(0) == "00";
    assert Pad2(10) == "10" && Pad2(30) == "30";
  }

  /** The text determines the slot: formatting is injective. */
  lemma FormatInjective(a: TimeSlot, b: TimeSlot)
    requires Format(a) == Format(b)
    ensures a == b
  {
    assert Format(a)[..3] == Format(b)[..3];
    DayAbbrevInjective(a.day, b.day);
    assert FormatTime(a.start) == Format(a)[4..9];
    assert FormatTime(a.end) == Format(a)[10..];
  }
}

=== FILE: seat_counter.dfy ===
/** The conditional seat-counter updates of the course repository. Each is a
    single guarded UPDATE that reports the number of rows it changed; a bulk
    update does not touch the optimistic-lock version. */
module SeatCounter {
  import opened Common
  import opened Courses
  import opened Store

  /** The result of a bulk update: rows changed and the store after it. */
  datatype Update = Update(affected: nat, store: Store)

  /** update ... set enrolledCount = enrolledCount + 1
      where id = :courseId and enrolledCount < capacity */
  function IncrementIfAvailable(s: Store, course: CourseId): (r: Update)
    ensures r.affected == 1 <==> course in s.courses && s.courses[course].enrolledCount < s.courses[course].capacity
    ensures r.affected == 0 || r.affected == 1
    ensures r.affected == 0 ==> r.store == s
    ensures r.affected == 1 ==>
              && r.store.rows == s.rows && r.store.students == s.students && r.store.nextId == s.nextId
              && r.store.courses.Keys == s.courses.Keys
              && r.store.courses[course] == s.courses[course].(enrolledCount := s.courses[course].enrolledCount + 1)
              && (forall c :: c in s.courses && c != course ==> r.store.courses[c] == s.courses[c])
  {
    if course in s.courses && s.courses[course].enrolledCount < s.courses[course].capacity then
      var c := s.courses[course];
      Update(1, s.(courses := s.courses[course := c.(enrolledCount := c.enrolledCount + 1)]))
    else
      Update(0, s)
  }

  /** update ... set enrolledCount = enrolledCount - 1
      where id = :courseId and enrolledCount > 0 */
  function DecrementIfPositive(s: Store, course: CourseId): (r: Update)
    ensures r.affected == 1 <==> course in s.courses && s.courses[course].enrolledCount > 0
    ensures r.affected == 0 || r.affected == 1
    ensures r.affected == 0 ==> r.store == s
    ensures r.affected == 1 ==>
              && r.store.rows == s.rows && r.store.students == s.students && r.store.nextId == s.nextId
              && r.store.courses.Keys == s.courses.Keys
              && r.store.courses[course] == s.courses[course].(enrolledCount := s.courses[course].enrolledCount - 1)
              && (forall c :: c in s.courses && c != course ==> r.store.courses[c] == s.courses[c])
  {
    if course in s.courses && s.courses[course].enrolledCount > 0 then
      var c := s.courses[course];
      Update(1, s.(courses := s.courses[course := c.(enrolledCount := c.enrolledCount - 1)]))
    else
      Update(0, s)
  }

  /** Neither update changes credits, slots or the set of courses, and both
      keep every course well formed. */
  lemma UpdatesKeepCatalog(s: Store, course: CourseId)
    requires CoursesWellFormed(s)
    ensures SameCatalog(s.courses, IncrementIfAvailable(s, course).store.courses)
    ensures SameCatalog(s.courses, DecrementIfPositive(s, course).store.courses)
    ensures CoursesWellFormed(IncrementIfAvailable(s, course).store)
    ensures CoursesWellFormed(DecrementIfPositive(s, course).store)
  {
  }

  /** A successful increment undone by a decrement restores the store. */
  lemma IncrementThenDecrementRestores(s: Store, course: CourseId)
    requires CoursesWellFormed(s)
    requires IncrementIfAvailable(s, course).affected == 1
    ensures var t := IncrementIfAvailable(s, course).store;
            DecrementIfPositive(t, course) == Update(1, s)
  {
    var t := IncrementIfAvailable(s, course).store;
    assert t.courses[course := s.courses[course]] == s.courses;
  }

  /** n increments in a row against one course. Returns how many succeeded.
      Starting from k taken seats out of capacity, exactly min(n, capacity - k)
      succeed and the counter ends there: the guard never lets it pass the
      capacity. */
  method IncrementRepeatedly(s: Store, course: CourseId, n: nat) returns (succeeded: nat, t: Store)
    requires course in s.courses && 0 <= s.courses[course].enrolledCount <= s.courses[course].capacity
    ensures succeeded == Min(n, s.courses[course].capacity - s.courses[course].enrolledCount)
    ensures course in t.courses
    ensures t.courses[course] == s.courses[course].(enrolledCount := s.courses[course].enrolledCount + succeeded)
    ensures t.courses[course].enrolledCount <= t.courses[course].capacity
    ensures t.rows == s.rows
  {
    succeeded := 0;
    t := s;
    var i := 0;
    while i < n
      invariant 0 <= i <= n
      invariant succeeded == Min(i, s.courses[course].capacity - s.courses[course].enrolledCount)
      invariant course in t.courses
      invariant t.courses[course] == s.courses[course].(enrolledCount := s.courses[course].enrolledCount + succeeded)
      invariant t.rows == s.rows
    {
      var u := IncrementIfAvailable(t, course);
      succeeded := succeeded + u.affected;
      t := u.store;
      i := i + 1;
    }
  }
}

=== FILE: seed_generator.dfy ===
/** The initial data generator: when every table is empty it creates the
    configured departments, professors, students and courses. Persistence,
    batching and java.util.Random are outside the model; the random rolls
    it draws are inputs. */
module SeedGenerator {
  import opened Common
  import opened TimeSlots
  import opened Text
  import opened SeedProperties

  // -------------------------------------------------------------------
  // Time slots

  /** START_TIMES: 09:00, 10:30, 13:00, 14:30, 16:00. */
  const START_TIMES: seq<Time> := [540, 630, 780, 870, 960]

  const LECTURE_MINUTES: nat := 90

  /** DayOfWeek.of(k + 1) for k in 0..4. */
  function Weekday(k: nat): (d: Day)
    requires k < 5
    ensures d != Saturday && d != Sunday
  {
    if k == 0 then Monday
    else if k == 1 then Tuesday
    else if k == 2 then Wednesday
    else if k == 3 then Thursday
    else Friday
  }

  lemma WeekdayInjective(a: nat, b: nat)
    requires a < 5 && b < 5
    ensures Weekday(a) == Weekday(b) <==> a == b
  {
  }

  /** createTimeSlot: the weekday cycles with the index, the start time
      with every fifth index, and every lecture lasts 90 minutes. */
  function SlotFor(index: nat): (r: TimeSlot)
    ensures Valid(r) && r.end == r.start + LECTURE_MINUTES
    ensures r.day == Weekday(index % 5) && r.start == START_TIMES[(index / 5) % 5]
  {
    var start := START_TIMES[(index / 5) % 5];
    TimeSlot(Weekday(index % 5), start, start + LECTURE_MINUTES)
  }

  /** The index modulo 25 is determined by the weekday and start position. */
  lemma Mod25(i: nat)
    ensures i % 25 == (i / 5) % 5 * 5 + i % 5
  {
    var q := i / 5;
    var r := i % 5;
    var a := q / 5;
    var b := q % 5;
    assert i == 25 * a + (5 * b + r);
    assert 0 <= 5 * b + r < 25;
  }

  /** Two indices get the same slot exactly when they agree modulo 25. */
  lemma SlotsEqualIff(i: nat, j: nat)
    ensures SlotFor(i) == SlotFor(j) <==> i % 25 == j % 25
  {
    Mod25(i);
    Mod25(j);
    WeekdayInjective(i % 5, j % 5);
    if SlotFor(i) == SlotFor(j) {
      var a := (i / 5) % 5;
      var b := (j / 5) % 5;
      assert START_TIMES[a] == START_TIMES[b];
      assert a == b;
    }
  }

  /** The daily starts are 90 or more minutes apart, so two different
      generated slots never overlap; neighbouring slots are back to back. */
  lemma DistinctSlotsDisjoint(i: nat, j: nat)
    requires SlotFor(i) != SlotFor(j)
    ensures !Overlaps(SlotFor(i), SlotFor(j))
  {
  }

  // -------------------------------------------------------------------
  // Credits and capacity

  /** pickCredits on a roll of nextInt(10). */
  function PickCredits(roll: int): (r: int)
    requires 0 <= roll < 10
    ensures 2 <= r <= 4
  {
    if roll < 2 then 2 else if roll < 8 then 3 else 4
  }

  /** How many of the rolls below n give k credits. */
  function RollsGiving(k: int, n: nat): (r: nat)
    requires n <= 10
    ensures r <= n
  {
    if n == 0 then 0 else RollsGiving(k, n - 1) + (if PickCredits(n - 1) == k then 1 else 0)
  }

  /** Of the ten equally likely rolls, two give 2 credits, six give 3 and
      two give 4. */
  lemma CreditOdds()
    ensures RollsGiving(2, 10) == 2 && RollsGiving(3, 10) == 6 && RollsGiving(4, 10) == 2
  {
  }

  const MIN_CAPACITY: int := 20
  const CAPACITY_SPREAD: int := 41

  /** pickCapacity: the first course is the hot course; every other one
      takes 20 plus a roll of nextInt(41). */
  function PickCapacity(index: nat, hotCourseCapacity: int, roll: int): (r: int)
    requires 0 <= roll < CAPACITY_SPREAD
    ensures index == 0 ==> r == hotCourseCapacity
    ensures index > 0 ==> MIN_CAPACITY <= r <= MIN_CAPACITY + CAPACITY_SPREAD - 1 && r - MIN_CAPACITY == roll
  {
    if index == 0 then hotCourseCapacity else MIN_CAPACITY + roll
  }

  // -------------------------------------------------------------------
  // Codes

  /** createCourseCode: the department code followed by 100 + sequence
      rendered with %03d. */
  function CourseCode(departmentCode: string, sequence: nat): (r: string)
    ensures |r| >= |departmentCode| + 3 && r[..|departmentCode|] == departmentCode
    ensures forall k :: |departmentCode| <= k < |r| ==> IsDigit(r[k])
    ensures ParseNat(r[|departmentCode|..]) == 100 + sequence
    ensures sequence < 900 ==> |r| == |departmentCode| + 3
  {
    var digits := ZeroPad(100 + sequence, 3);
    ParseZeroPad(100 + sequence, 3);
    NatToStringLength(100 + sequence);
    assert (departmentCode + digits)[|departmentCode|..] == digits;
    departmentCode + digits
  }

  /** Within one department the sequence number can be read back from the
      code, so distinct sequences give distinct codes. */
  lemma CourseCodeInjective(d: string, s1: nat, s2: nat)
    requires CourseCode(d, s1) == CourseCode(d, s2)
    ensures s1 == s2
  {
  }

  const BASE_DEPARTMENT_NAMES: seq<string> := [
    "컴퓨터공학과", "전자공학과", "기계공학과", "화학공학과", "산업공학과", "수학과",
    "물리학과", "경영학과", "경제학과", "심리학과", "생명과학과", "국어국문학과"]

  const BASE_DEPARTMENT_CODES: seq<string> := [
    "CSE", "EEE", "MEE", "CHE", "INE", "MAT", "PHY", "BUS", "ECO", "PSY", "BIO", "KOR"]

  datatype DepartmentTemplate = DepartmentTemplate(name: string, code: string)

  /** The code of a generated department beyond the twelve base ones:
      "DEP%02d" of index + 1. */
  function GeneratedCode(index: nat): (r: string)
    ensures |r| >= 5 && r[..3] == "DEP"
    ensures forall k :: 3 <= k < |r| ==> IsDigit(r[k])
    ensures ParseNat(r[3..]) == index + 1
  {
    ParseZeroPad(index + 1, 2);
    assert ("DEP" + ZeroPad(index + 1, 2))[3..] == ZeroPad(index + 1, 2);
    "DEP" + ZeroPad(index + 1, 2)
  }

  /** resolveDepartmentTemplate: the base name and code for the first
      twelve indices; later ones reuse a base name with a numeric suffix
      and get a generated code. */
  function ResolveDepartmentTemplate(index: nat): (r: DepartmentTemplate)
    ensures index < |BASE_DEPARTMENT_NAMES| ==>
              r.name == BASE_DEPARTMENT_NAMES[index] && r.code == BASE_DEPARTMENT_CODES[index] && |r.code| == 3
    ensures index >= |BASE_DEPARTMENT_CODES| ==> r.code == GeneratedCode(index)
    ensures var base := BASE_DEPARTMENT_NAMES[index % |BASE_DEPARTMENT_NAMES|];
            |r.name| >= |base| && r.name[..|base|] == base
  {
    if index < |BASE_DEPARTMENT_NAMES| then
      DepartmentTemplate(BASE_DEPARTMENT_NAMES[index], BASE_DEPARTMENT_CODES[index])
    else
      var suffix := index / |BASE_DEPARTMENT_NAMES| + 1;
      var base := BASE_DEPARTMENT_NAMES[index % |BASE_DEPARTMENT_NAMES|];
      assert (base + " " + NatToString(suffix))[..|base|] == base;
      DepartmentTemplate(base + " " + NatToString(suffix), GeneratedCode(index))
  }

  /** Past the twelve base departments the name goes on, after the base
      name, with a space and a decimal suffix that reads back as the round
      the index falls in, counted from 1. */
  lemma DepartmentNameSuffix(index: nat)
    requires index >= |BASE_DEPARTMENT_NAMES|
    ensures var name := ResolveDepartmentTemplate(index).name;
            var base := BASE_DEPARTMENT_NAMES[index % |BASE_DEPARTMENT_NAMES|];
            && |name| > |base| + 1 && name[|base|] == ' '
            && var tail := name[|base| + 1..];
            && (forall k :: 0 <= k < |tail| ==> IsDigit(tail[k]))
            && ParseNat(tail) == index / |BASE_DEPARTMENT_NAMES| + 1
  {
    var suffix := index / |BASE_DEPARTMENT_NAMES| + 1;
    var base := BASE_DEPARTMENT_NAMES[index % |BASE_DEPARTMENT_NAMES|];
    assert ResolveDepartmentTemplate(index).name == base + " " + NatToString(suffix);
    SuffixReadsBack(base, suffix);
  }

  /** A name, a space and a rendered number: the part after the space is
      all digits and parses back to the number. */
  lemma SuffixReadsBack(base: string, suffix: nat)
    ensures var name := base + " " + NatToString(suffix);
            && |name| > |base| + 1 && name[|base|] == ' '
            && var tail := name[|base| + 1..];
            && (forall k :: 0 <= k < |tail| ==> IsDigit(tail[k]))
            && ParseNat(tail) == suffix
  {
    var name := base + " " + NatToString(suffix);
    assert name[|base| + 1..] == NatToString(suffix);
    ParseNatToString(suffix);
  }

  lemma BaseCodesDistinct(i: nat, j: nat)
    requires i < j < |BASE_DEPARTMENT_CODES|
    ensures BASE_DEPARTMENT_CODES[i] != BASE_DEPARTMENT_CODES[j]
  {
    var c := BASE_DEPARTMENT_CODES;
    assert c[i][0] != c[j][0] || c[i][1] != c[j][1] || c[i][2] != c[j][2];
  }

  /** Every department gets its own code. */
  lemma DepartmentCodesDistinct(i: nat, j: nat)
    requires i != j
    ensures ResolveDepartmentTemplate(i).code != ResolveDepartmentTemplate(j).code
  {
    var n := |BASE_DEPARTMENT_CODES|;
    if i < n && j < n {
      if i < j { BaseCodesDistinct(i, j); } else { BaseCodesDistinct(j, i); }
    } else if i >= n && j >= n {
      assert ParseNat(GeneratedCode(i)[3..]) != ParseNat(GeneratedCode(j)[3..]);
    }
  }

  /** The department codes generateDepartments assigns, in creation order. */
  function DepartmentCodes(count: nat): (r: seq<string>)
    ensures |r| == count && forall k :: 0 <= k < count ==> r[k] == ResolveDepartmentTemplate(k).code
  {
    if count == 0 then [] else DepartmentCodes(count - 1) + [ResolveDepartmentTemplate(count - 1).code]
  }

  // -------------------------------------------------------------------
  // Courses

  /** The rolls one course draws: credits from nextInt(10) and, for every
      course but the first, capacity from nextInt(41). The roll for the
      name only picks a topic and is left out. */
  datatype CourseRolls = CourseRolls(credits: int, capacity: int)

  predicate RollsInRange(r: CourseRolls) {
    0 <= r.credits < 10 && 0 <= r.capacity < CAPACITY_SPREAD
  }

  /** A generated course: no seat is taken yet. */
  datatype SeedCourse = SeedCourse(department: nat, code: string, credits: int, capacity: int,
                                   enrolledCount: int, slot: TimeSlot)

  /** The code of the i-th course: departments are used round robin, so
      course i belongs to department i mod D and is that department's
      (i div D + 1)-th course. */
  function SeedCourseCode(codes: seq<string>, i: nat): string
    requires |codes| >= 1
  {
    CourseCode(codes[i % |codes|], i / |codes| + 1)
  }

  /** The i-th course, given its department's sequence number. */
  function CourseNumbered(codes: seq<string>, i: nat, sequence: nat, hotCourseCapacity: int, rolls: CourseRolls): SeedCourse
    requires |codes| >= 1 && RollsInRange(rolls)
  {
    SeedCourse(i % |codes|, CourseCode(codes[i % |codes|], sequence), PickCredits(rolls.credits),
               PickCapacity(i, hotCourseCapacity, rolls.capacity), 0, SlotFor(i))
  }

  /** Reference definition of the i-th generated course. */
  function ExpectedCourse(codes: seq<string>, i: nat, hotCourseCapacity: int, rolls: CourseRolls): SeedCourse
    requires |codes| >= 1 && RollsInRange(rolls)
  {
    CourseNumbered(codes, i, i / |codes| + 1, hotCourseCapacity, rolls)
  }

  /** How many of the first i courses a department has received: the
      departments before i mod D have had one more round than the rest. */
  function ReceivedBefore(i: nat, departments: nat, d: nat): nat
    requires departments >= 1
  {
    i / departments + (if d < i % departments then 1 else 0)
  }

  lemma MulStep(a: nat, d: nat)
    ensures (a + 1) * d == a * d + d
  {
  }

  lemma SameQuotientAndRemainder(n: nat, m: nat, d: nat)
    requires d >= 1
    ensures n / d == m / d && n % d == m % d ==> n == m
  {
    assert n == n / d * d + n % d;
    assert m == m / d * d + m % d;
  }

  lemma MulLe(a: nat, b: nat, d: nat)
    requires a <= b
    ensures a * d <= b * d
  {
    var k := b - a;
    assert b * d == a * d + k * d;
  }

  /** Quotient and remainder are unique. */
  lemma DivModUnique(n: nat, d: nat, q: nat, r: nat)
    requires d >= 1 && r < d && n == q * d + r
    ensures n / d == q && n % d == r
  {
    var q' := n / d;
    var r' := n % d;
    assert n == q' * d + r';
    if q' < q {
      MulStep(q', d);
      MulLe(q' + 1, q, d);
    } else if q' > q {
      MulStep(q, d);
      MulLe(q + 1, q', d);
    }
  }

  lemma ReceivedStep(i: nat, departments: nat, d: nat)
    requires departments >= 1 && d < departments
    ensures ReceivedBefore(i + 1, departments, d)
            == ReceivedBefore(i, departments, d) + (if d == i % departments then 1 else 0)
  {
    var q := i / departments;
    var r := i % departments;
    if r + 1 < departments {
      DivModUnique(i + 1, departments, q, r + 1);
    } else {
      DivModUnique(i + 1, departments, q + 1, 0);
    }
  }

  /** A department's counter in courseSequenceByDepartment: absent means
      no course yet. */
  function Counter(m: map<nat, nat>, d: nat): nat {
    if d in m then m[d] else 0
  }

  /** The counters after i courses are ReceivedBefore(i, ...). */
  predicate CountersAt(m: map<nat, nat>, i: nat, departments: nat)
    requires departments >= 1
  {
    forall d :: 0 <= d < departments ==> Counter(m, d) == ReceivedBefore(i, departments, d)
  }

  /** merge(departmentId, 1, Integer::sum) for course i keeps the counters
      in step, and the merged value is i div D + 1. */
  lemma CounterStep(m: map<nat, nat>, i: nat, departments: nat)
    requires departments >= 1 && CountersAt(m, i, departments)
    ensures Counter(m, i % departments) + 1 == i / departments + 1
    ensures CountersAt(m[i % departments := Counter(m, i % departments) + 1], i + 1, departments)
  {
    var d := i % departments;
    var m' := m[d := Counter(m, d) + 1];
    assert Counter(m, d) == ReceivedBefore(i, departments, d);
    forall e | 0 <= e < departments
      ensures Counter(m', e) == ReceivedBefore(i + 1, departments, e)
    {
      ReceivedStep(i, departments, e);
    }
  }

  /** The department counters after the first i courses, one merge per
      course. */
  function CountersAfter(i: nat, departments: nat): map<nat, nat>
    requires departments >= 1
  {
    if i == 0 then map[]
    else
      var m := CountersAfter(i - 1, departments);
      m[(i - 1) % departments := Counter(m, (i - 1) % departments) + 1]
  }

  /** After i courses every department has received its share, so the next
      course's department is at round i div D. */
  lemma {:induction false} CountersAfterAreShares(i: nat, departments: nat)
    requires departments >= 1
    ensures CountersAt(CountersAfter(i, departments), i, departments)
    ensures Counter(CountersAfter(i, departments), i % departments) == i / departments
  {
    if i > 0 {
      CountersAfterAreShares(i - 1, departments);
      CounterStep(CountersAfter(i - 1, departments), i - 1, departments);
    }
    CounterStep(CountersAfter(i, departments), i, departments);
  }

  /** The counter merge hands course i the sequence number i div D + 1. */
  lemma NextSequence(i: nat, departments: nat)
    requires departments >= 1
    ensures Counter(CountersAfter(i, departments), i % departments) + 1 == i / departments + 1
  {
    CountersAfterAreShares(i, departments);
  }

  /** The courses generated for the first n indices, one per index. */
  function ExpectedCourses(codes: seq<string>, n: nat, hotCourseCapacity: int, rolls: seq<CourseRolls>): seq<SeedCourse>
    requires |codes| >= 1 && n <= |rolls|
    requires forall k :: 0 <= k < |rolls| ==> RollsInRange(rolls[k])
  {
    seq(n, k requires 0 <= k < n => ExpectedCourse(codes, k, hotCourseCapacity, rolls[k]))
  }

  /** One turn of generateCourses: the merge moves the counters on by one
      course, and the course it builds is the next entry of the list. */
  lemma GenerateStep(codes: seq<string>, i: nat, hotCourseCapacity: int, rolls: seq<CourseRolls>)
    requires |codes| >= 1 && i < |rolls|
    requires forall k :: 0 <= k < |rolls| ==> RollsInRange(rolls[k])
    ensures var m := CountersAfter(i, |codes|);
            m[i % |codes| := Counter(m, i % |codes|) + 1] == CountersAfter(i + 1, |codes|)
    ensures var m := CountersAfter(i, |codes|);
            ExpectedCourses(codes, i, hotCourseCapacity, rolls)
              + [CourseNumbered(codes, i, Counter(m, i % |codes|) + 1, hotCourseCapacity, rolls[i])]
            == ExpectedCourses(codes, i + 1, hotCourseCapacity, rolls)
  {
    var m := CountersAfter(i, |codes|);
    var d := i % |codes|;
    assert m[d := Counter(m, d) + 1] == CountersAfter(i + 1, |codes|);
    assert ExpectedCourses(codes, i, hotCourseCapacity, rolls)
             + [CourseNumbered(codes, i, Counter(m, d) + 1, hotCourseCapacity, rolls[i])]
           == ExpectedCourses(codes, i + 1, hotCourseCapacity, rolls) by {
      NextSequence(i, |codes|);
      ExpectedCoursesGrow(codes, i, hotCourseCapacity, rolls);
    }
  }

  /** The reference list for i + 1 indices is the one for i with course i
      appended. */
  lemma ExpectedCoursesGrow(codes: seq<string>, i: nat, hotCourseCapacity: int, rolls: seq<CourseRolls>)
    requires |codes| >= 1 && i < |rolls|
    requires forall k :: 0 <= k < |rolls| ==> RollsInRange(rolls[k])
    ensures ExpectedCourses(codes, i, hotCourseCapacity, rolls) + [ExpectedCourse(codes, i, hotCourseCapacity, rolls[i])]
            == ExpectedCourses(codes, i + 1, hotCourseCapacity, rolls)
  {
    var before := ExpectedCourses(codes, i, hotCourseCapacity, rolls);
    var after := ExpectedCourses(codes, i + 1, hotCourseCapacity, rolls);
    assert forall k :: 0 <= k < i ==> before[k] == after[k];
  }

  /** generateCourses: walks the course indices, keeping a per-department
      sequence counter (courseSequenceByDepartment.merge). */
  method GenerateCourses(codes: seq<string>, courseCount: nat, hotCourseCapacity: int, rolls: seq<CourseRolls>)
    returns (courses: seq<SeedCourse>)
    requires |codes| >= 1 && |rolls| == courseCount
    requires forall i :: 0 <= i < |rolls| ==> RollsInRange(rolls[i])
    ensures |courses| == courseCount
    ensures forall i :: 0 <= i < courseCount ==> courses[i] == ExpectedCourse(codes, i, hotCourseCapacity, rolls[i])
  {
    var sequenceByDepartment: map<nat, nat> := map[];
    courses := [];
    var i := 0;
    while i < courseCount
      invariant 0 <= i <= courseCount
      invariant sequenceByDepartment == CountersAfter(i, |codes|)
      invariant courses == ExpectedCourses(codes, i, hotCourseCapacity, rolls)
    {
      var d := i % |codes|;
      var sequence := Counter(sequenceByDepartment, d) + 1;
      GenerateStep(codes, i, hotCourseCapacity, rolls);
      sequenceByDepartment := sequenceByDepartment[d := sequence];
      var course := CourseNumbered(codes, i, sequence, hotCourseCapacity, rolls[i]);
      courses := courses + [course];
      i := i + 1;
    }
  }

  predicate PairwiseDistinct(codes: seq<string>) {
    forall a, b :: 0 <= a < b < |codes| ==> codes[a] != codes[b]
  }

  /** generateDepartments hands out pairwise distinct codes. */
  lemma DepartmentCodesPairwiseDistinct(count: nat)
    ensures PairwiseDistinct(DepartmentCodes(count))
  {
    var codes := DepartmentCodes(count);
    forall a, b | 0 <= a < b < |codes|
      ensures codes[a] != codes[b]
    {
      DepartmentCodesDistinct(a, b);
    }
  }

  /** Course codes of different departments or sequences differ while the
      suffix keeps three digits. */
  lemma CourseCodesDiffer(c1: string, c2: string, s1: nat, s2: nat)
    requires s1 < 900 && s2 < 900
    requires c1 != c2 || s1 != s2
    ensures CourseCode(c1, s1) != CourseCode(c2, s2)
  {
    var a := CourseCode(c1, s1);
    var b := CourseCode(c2, s2);
    if c1 != c2 {
      if |c1| == |c2| {
        assert a[..|c1|] != b[..|c2|];
      }
    } else if a == b {
      CourseCodeInjective(c1, s1, s2);
    }
  }

  /** Two different indices land in different departments or rounds, and
      so, with distinct department codes, on different code parts. */
  lemma DistinctIndicesDistinctParts(codes: seq<string>, i: nat, j: nat)
    requires |codes| >= 1 && i != j && PairwiseDistinct(codes)
    ensures codes[i % |codes|] != codes[j % |codes|] || i / |codes| != j / |codes|
  {
    SameQuotientAndRemainder(i, j, |codes|);
  }

  lemma DistinctPartsDistinctCodes(codes: seq<string>, i: nat, j: nat)
    requires |codes| >= 1
    requires codes[i % |codes|] != codes[j % |codes|] || i / |codes| != j / |codes|
    requires i / |codes| + 1 < 900 && j / |codes| + 1 < 900
    ensures SeedCourseCode(codes, i) != SeedCourseCode(codes, j)
  {
    var n := |codes|;
    var qi: nat, qj: nat := i / n, j / n;
    CourseCodesDiffer(codes[i % n], codes[j % n], qi + 1, qj + 1);
  }

  /** Generated course codes are unique as long as no department reaches
      its 900th course (the point where the %03d suffix grows a digit). */
  lemma GeneratedCodesDistinct(codes: seq<string>, i: nat, j: nat)
    requires |codes| >= 1 && PairwiseDistinct(codes) && i != j
    requires i / |codes| + 1 < 900 && j / |codes| + 1 < 900
    ensures SeedCourseCode(codes, i) != SeedCourseCode(codes, j)
  {
    DistinctIndicesDistinctParts(codes, i, j);
    DistinctPartsDistinctCodes(codes, i, j);
  }

  /** With the departments generateDepartments creates, every seeded course
      gets its own code while departments stay below 900 courses. */
  lemma SeededCourseCodesDistinct(departmentCount: nat, i: nat, j: nat)
    requires departmentCount >= 1 && i != j
    requires i / departmentCount + 1 < 900 && j / departmentCount + 1 < 900
    ensures SeedCourseCode(DepartmentCodes(departmentCount), i) != SeedCourseCode(DepartmentCodes(departmentCount), j)
  {
    DepartmentCodesPairwiseDistinct(departmentCount);
    GeneratedCodesDistinct(DepartmentCodes(departmentCount), i, j);
  }

  // -------------------------------------------------------------------
  // generateIfEmpty

  datatype TableCounts = TableCounts(departments: nat, professors: nat, students: nat, courses: nat)

  /** alreadySeeded: any of the four tables holds a row. */
  predicate AlreadySeeded(c: TableCounts) {
    c.departments > 0 || c.professors > 0 || c.students > 0 || c.courses > 0
  }

  /** generateIfEmpty on the table sizes: a seeded database is left alone;
      an empty one receives the configured number of rows per table. */
  function GenerateIfEmpty(c: TableCounts, p: SeedProperties): (r: TableCounts)
    requires NewSeedProperties(p).Ok? && p.enabled
    ensures AlreadySeeded(c) ==> r == c
    ensures !AlreadySeeded(c) ==> r.departments == p.departmentCount && r.professors == p.professorCount
                                  && r.students == p.studentCount && r.courses == p.courseCount
    ensures AlreadySeeded(r)
  {
    ConstructedIsPositive(p);
    if AlreadySeeded(c) then c
    else TableCounts(p.departmentCount, p.professorCount, p.studentCount, p.courseCount)
  }

  /** A second run changes nothing: after the first the tables are never
      all empty. */
  lemma SecondRunChangesNothing(c: TableCounts, p: SeedProperties)
    requires NewSeedProperties(p).Ok? && p.enabled
    ensures GenerateIfEmpty(GenerateIfEmpty(c, p), p) == GenerateIfEmpty(c, p)
  {
  }
}

=== FILE: seed_properties.dfy ===
/** The seed configuration (app.seed.*): when seeding is enabled, every
    count must be positive, and the first field that is not is the one
    reported. */
module SeedProperties {
  import opened Common

  datatype SeedProperties = SeedProperties(
    enabled: bool,
    randomSeed: int,
    departmentCount: int,
    professorCount: int,
    studentCount: int,
    courseCount: int,
    batchSize: int)

  /** The validated fields, in declaration order. */
  datatype SeedField = DepartmentCount | ProfessorCount | StudentCount | CourseCount | BatchSize

  function Position(f: SeedField): nat {
    match f
    case DepartmentCount => 0
    case ProfessorCount => 1
    case StudentCount => 2
    case CourseCount => 3
    case BatchSize => 4
  }

  function FieldValue(p: SeedProperties, f: SeedField): int {
    match f
    case DepartmentCount => p.departmentCount
    case ProfessorCount => p.professorCount
    case StudentCount => p.studentCount
    case CourseCount => p.courseCount
    case BatchSize => p.batchSize
  }

  /** An enabled configuration whose counts are all positive. */
  predicate AllPositive(p: SeedProperties) {
    forall f :: FieldValue(p, f) >= 1
  }

  /** The field the compact constructor rejects, if any: nothing when
      seeding is disabled, otherwise the first count below 1. */
  function Violation(p: SeedProperties): (r: Option<SeedField>)
    ensures r.None? <==> !p.enabled || AllPositive(p)
    ensures r.Some? ==> p.enabled && FieldValue(p, r.value) < 1
    ensures r.Some? ==> forall f :: Position(f) < Position(r.value) ==> FieldValue(p, f) >= 1
  {
    if !p.enabled then None
    else if p.departmentCount < 1 then Some(DepartmentCount)
    else if p.professorCount < 1 then Some(ProfessorCount)
    else if p.studentCount < 1 then Some(StudentCount)
    else if p.courseCount < 1 then Some(CourseCount)
    else if p.batchSize < 1 then Some(BatchSize)
    else None
  }

  /** The compact constructor: IllegalArgumentException naming the first
      offending field, otherwise the record as given. */
  function NewSeedProperties(p: SeedProperties): (r: Result<SeedProperties>)
    ensures r.Ok? <==> !p.enabled || AllPositive(p)
    ensures r.Ok? ==> r.value == p
    ensures r.Err? ==> r.error == IllegalArgument
  {
    if Violation(p).Some? then Err(IllegalArgument) else Ok(p)
  }

  /** A constructed, enabled configuration has all five counts positive. */
  lemma ConstructedIsPositive(p: SeedProperties)
    requires NewSeedProperties(p).Ok? && p.enabled
    ensures p.departmentCount >= 1 && p.professorCount >= 1 && p.studentCount >= 1
    ensures p.courseCount >= 1 && p.batchSize >= 1
  {
    assert FieldValue(p, DepartmentCount) >= 1 && FieldValue(p, ProfessorCount) >= 1;
    assert FieldValue(p, StudentCount) >= 1 && FieldValue(p, CourseCount) >= 1;
    assert FieldValue(p, BatchSize) >= 1;
  }

  /** The reported field is the earliest offending one: a later field is
      never blamed while an earlier one is also wrong. */
  lemma FirstOffenderReported(p: SeedProperties, f: SeedField)
    requires p.enabled && FieldValue(p, f) < 1
    ensures Violation(p).Some? && Position(Violation(p).value) <= Position(f)
  {
  }

  /** A disabled configuration is accepted whatever its counts. */
  lemma DisabledAcceptsAnything(p: SeedProperties)
    requires !p.enabled
    ensures NewSeedProperties(p) == Ok(p)
  {
  }
}

=== FILE: separated.dfy ===
/** The separated strategy: reserve, then finalize; when finalize fails,
    release the reservation on a best-effort basis and report the finalize
    error. The three steps are separate transactions, so the reservation is
    visible to everyone else before it is validated. */
module Separated {
  import opened Common
  import opened Students
  import opened Enrollments
  import opened Store
  import opened RuleValidator
  import opened Cancellation
  import opened SeparatedExecutor

  /** What the caller sees, and the store the three transactions leave. */
  datatype Outcome = Outcome(result: Result<Enrollment>, store: Store)

  /** enroll(studentId, courseId). `releaseCompletes` says whether the
      compensating release commits; its failure is swallowed. */
  function Enroll(s: Store, student: StudentId, course: CourseId, studentLock: Lock, releaseCompletes: bool): (o: Outcome)
    ensures ReserveSeat(s, course, student).Rollback? ==>
              o == Outcome(Err(ReserveSeat(s, course, student).error), s)
    ensures ReserveSeat(s, course, student).Commit? ==>
              var reserved := ReserveSeat(s, course, student).store;
              var f := FinalizeEnrollment(reserved, student, course, s.nextId, studentLock);
              && (f.Ok? ==> o == Outcome(Ok(f.value), reserved))
              && (f.Err? ==> o.result == Err(f.error)
                             && o.store == (if releaseCompletes then ReleaseSeat(reserved, course, s.nextId) else reserved))
  {
    match ReserveSeat(s, course, student)
    case Rollback(e) => Outcome(Err(e), s)
    case Commit(id, reserved) =>
      match FinalizeEnrollment(reserved, student, course, id, studentLock)
      case Ok(row) => Outcome(Ok(row), reserved)
      case Err(e) =>
        var after := if releaseCompletes then ReleaseSeat(reserved, course, id) else reserved;
        Outcome(Err(e), after)
  }

  /** With the student lock granted, the strategy succeeds exactly when the
      reference rules allow the enrollment, and then leaves the reference
      store. A failure whose release commits leaves the store as it was,
      but for the id counter. The reported error follows the order course,
      capacity, duplicate, student, credits, schedule. */
  lemma MatchesReference(s: Store, student: StudentId, course: CourseId, releaseCompletes: bool)
    requires RowsIndexed(s) && CoursesWellFormed(s)
    ensures var o := Enroll(s, student, course, Granted, releaseCompletes);
            && (o.result.Ok? <==> EnrollAllowed(s, student, course))
            && (o.result.Ok? ==> o.result.value == Enrollments.Enroll(s.nextId, student, course)
                                 && o.store == Enrolled(s, student, course))
            && (o.result.Err? && releaseCompletes ==> o.store.rows == s.rows && o.store.courses == s.courses
                                                      && o.store.students == s.students)
            && (o.result.Err? && course in s.courses && !ExistsActive(s, student, course)
                && s.courses[course].enrolledCount < s.courses[course].capacity && student in s.students
                ==> o.result.error == ValidateCreditAndSchedule(ActiveCourses(s, student, None), s.courses[course]).error)
  {
    var r := ReserveSeat(s, course, student);
    if r.Commit? {
      AfterInsertValidationAgrees(s, r.store, student, course);
      if releaseCompletes {
        ReleaseUndoesReserve(s, course, student);
      }
    }
  }

  /** Between reserve and finalize the reservation is an ordinary ACTIVE
      row: counters still match the rows, but a student over the credit
      limit already holds the seat, and the request then fails. */
  lemma ReservationPrecedesValidation(s: Store, student: StudentId, course: CourseId)
    requires Consistent(s) && student in s.students
    requires ReserveSeat(s, course, student).Commit?
    requires CreditSum(ActiveCourses(s, student, None)) + s.courses[course].credits > MAX_CREDITS
    ensures var reserved := ReserveSeat(s, course, student).store;
            && Consistent(reserved)
            && CreditSum(ActiveCourses(reserved, student, None)) > MAX_CREDITS
            && Enroll(s, student, course, Granted, true).result == Err(CreditLimitExceeded)
  {
    ReservedIsConsistent(s, student, course);
    ReservedOverLimit(s, student, course);
    MatchesReference(s, student, course, true);
  }

  lemma ReservedIsConsistent(s: Store, student: StudentId, course: CourseId)
    requires Consistent(s) && student in s.students
    requires ReserveSeat(s, course, student).Commit?
    ensures Consistent(ReserveSeat(s, course, student).store)
  {
    var reserved := ReserveSeat(s, course, student).store;
    InsertActiveEffect(s, student, course);
    var ins := InsertActive(s, student, course).store;
    forall c | c in reserved.courses
      ensures reserved.courses[c].enrolledCount == ActiveCount(reserved, c)
    {
      assert ActiveCount(reserved, c) == ActiveCount(ins, c);
    }
  }

  lemma ReservedOverLimit(s: Store, student: StudentId, course: CourseId)
    requires Consistent(s) && student in s.students
    requires ReserveSeat(s, course, student).Commit?
    requires CreditSum(ActiveCourses(s, student, None)) + s.courses[course].credits > MAX_CREDITS
    ensures CreditSum(ActiveCourses(ReserveSeat(s, course, student).store, student, None)) > MAX_CREDITS
  {
    var reserved := ReserveSeat(s, course, student).store;
    InsertActiveEffect(s, student, course);
    ActiveCoursesAfterEnroll(s, student, course);
    CreditSumCatalog(ActiveCourses(reserved, student, None), ActiveCourses(s, student, None) + [s.courses[course]]);
    CreditSumAppend(ActiveCourses(s, student, None), s.courses[course]);
  }

  /** A finalize failure is reported as it is, whether or not the release
      commits; the release decides only what the store looks like. */
  lemma ReleaseFailureIsSwallowed(s: Store, student: StudentId, course: CourseId, studentLock: Lock)
    ensures Enroll(s, student, course, studentLock, true).result == Enroll(s, student, course, studentLock, false).result
  {
  }
}

=== FILE: separated_executor.dfy ===
/** The three transactions of the separated strategy, each committed on
    its own: reserve (take the seat and insert the ACTIVE row), finalize
    (lock the student and validate, writing nothing), and release (give the
    seat back and delete the reserved row). */
module SeparatedExecutor {
  import opened Common
  import opened Enrollments
  import opened Store
  import opened SeatCounter
  import opened RuleValidator
  import opened PersistenceSupport
  import opened Cancellation

  /** reserveSeat(courseId, studentId): load the course, take a seat, then
      insert the row; a duplicate rolls the seat back with it. The student
      is not looked up. */
  function ReserveSeat(s: Store, course: CourseId, student: StudentId): (r: Tx<EnrollmentId>)
    ensures course !in s.courses ==> r == Rollback(CourseNotFound)
    ensures course in s.courses && s.courses[course].enrolledCount >= s.courses[course].capacity
            ==> r == Rollback(CourseCapacityExceeded)
    ensures course in s.courses && s.courses[course].enrolledCount < s.courses[course].capacity && ExistsActive(s, student, course)
            ==> r == Rollback(DuplicateEnrollment)
    ensures r.Commit? <==> course in s.courses && s.courses[course].enrolledCount < s.courses[course].capacity
                           && !ExistsActive(s, student, course)
    ensures r.Commit? ==> r.value == s.nextId && r.store == Enrolled(s, student, course)
  {
    match FindCourse(s, course)
    case None => Rollback(CourseNotFound)
    case Some(_) =>
      match IncrementLoadedSeatOrThrow(s, course)
      case Rollback(e) => Rollback(e)
      case Commit(_, s1) =>
        match InsertActiveOrThrow(s1, student, course)
        case Rollback(e) => Rollback(e)
        case Commit(id, s2) => Commit(id, s2)
  }

  /** finalizeEnrollment(studentId, courseId, enrollmentId): lock and load
      the student, load the course, check credits and schedule against the
      student's other ACTIVE rows, and return the reserved row. It only
      reads. */
  function FinalizeEnrollment(s: Store, student: StudentId, course: CourseId, id: EnrollmentId,
                              studentLock: Lock): (r: Result<Enrollment>)
    ensures studentLock.TimedOut? ==> r == Err(LockFailure)
    ensures studentLock.Granted? && student !in s.students ==> r == Err(StudentNotFound)
    ensures studentLock.Granted? && student in s.students && course !in s.courses ==> r == Err(CourseNotFound)
    ensures r.Ok? <==> && studentLock.Granted? && student in s.students && course in s.courses
                       && ValidateAfterInsert(s, student, id, s.courses[course]).Ok?
                       && id in s.rows
    ensures r.Ok? ==> r.value == s.rows[id]
    ensures r.Err? && studentLock.Granted? && student in s.students && course in s.courses
            && ValidateAfterInsert(s, student, id, s.courses[course]).Err?
            ==> r.error == ValidateAfterInsert(s, student, id, s.courses[course]).error
  {
    if studentLock.TimedOut? then Err(LockFailure)
    else if student !in s.students then Err(StudentNotFound)
    else
      match FindCourse(s, course)
      case None => Err(CourseNotFound)
      case Some(c) =>
        var _ :- ValidateAfterInsert(s, student, id, c);
        match FindRow(s, id)
        case None => Err(EnrollmentNotFound)
        case Some(row) => Ok(row)
  }

  /** releaseSeat(courseId, enrollmentId): the guarded decrement, then the
      delete of the row. Neither step can fail on its own. */
  function ReleaseSeat(s: Store, course: CourseId, id: EnrollmentId): (t: Store)
    ensures t.rows.Keys == s.rows.Keys - {id}
    ensures forall k :: k in t.rows ==> t.rows[k] == s.rows[k]
    ensures t.students == s.students && t.nextId == s.nextId && t.courses.Keys == s.courses.Keys
    ensures forall c :: c in s.courses && c != course ==> t.courses[c] == s.courses[c]
    ensures course in s.courses ==>
              t.courses[course] == s.courses[course].(enrolledCount := if s.courses[course].enrolledCount > 0
                                                                      then s.courses[course].enrolledCount - 1
                                                                      else s.courses[course].enrolledCount)
  {
    DeleteById(DecrementIfPositive(s, course).store, id)
  }

  /** Releasing a reservation undoes it: the course, the rows and the
      students are as before the reservation; only the id counter has moved
      on. */
  lemma ReleaseUndoesReserve(s: Store, course: CourseId, student: StudentId)
    requires s.nextId !in s.rows && CoursesWellFormed(s)
    requires ReserveSeat(s, course, student).Commit?
    ensures var r := ReserveSeat(s, course, student);
            ReleaseSeat(r.store, course, r.value) == s.(nextId := s.nextId + 1)
  {
    var r := ReserveSeat(s, course, student);
    var t := ReleaseSeat(r.store, course, r.value);
    assert t.rows == s.rows;
    var c := s.courses[course];
    assert r.store.courses[course] == c.(enrolledCount := c.enrolledCount + 1);
    assert t.courses == s.courses;
  }

  /** Release keeps counters equal to ACTIVE rows when the released row is
      the course's ACTIVE row: one fewer row, one fewer seat. */
  lemma ReleaseKeepsCounts(s: Store, course: CourseId, id: EnrollmentId)
    requires Consistent(s)
    requires id in s.rows && s.rows[id].course == course && IsActive(s.rows[id])
    ensures Consistent(ReleaseSeat(s, course, id))
  {
    var t := ReleaseSeat(s, course, id);
    assert id < s.nextId;
    forall c | c in t.courses
      ensures t.courses[c].enrolledCount == ActiveCount(t, c)
    {
      CountPointUpdate(s.rows, t.rows, id, c, s.nextId);
      if c == course {
        assert ActiveFor(s.rows, id, c) && !ActiveFor(t.rows, id, c);
        assert s.courses[c].enrolledCount == ActiveCount(s, c);
      }
    }
  }
}

=== FILE: sorting.dfy ===
/** Stable sorting by an integer key, as List.sort / Array.prototype.sort
    with a key comparator do it: the result is ordered by the key and holds
    the same elements. */
module Sorting {

  predicate SortedBy<T>(l: seq<T>, key: T -> int) {
    forall i, j :: 0 <= i < j < |l| ==> key(l[i]) <= key(l[j])
  }

  /** A head no greater than every element of a sorted tail keeps the
      list sorted. */
  lemma ConsSorted<T>(h: T, rest: seq<T>, key: T -> int)
    requires SortedBy(rest, key)
    requires forall j :: 0 <= j < |rest| ==> key(h) <= key(rest[j])
    ensures SortedBy([h] + rest, key)
  {
    var r := [h] + rest;
    forall i, j | 0 <= i < j < |r|
      ensures key(r[i]) <= key(r[j])
    {
      assert r[j] == rest[j - 1];
      if i > 0 {
        assert r[i] == rest[i - 1];
      }
    }
  }

  /** Every element of a permutation of tail + [x] has a key no smaller
      than a bound both tail and x respect. */
  lemma BoundSurvivesInsert<T>(b: int, x: T, tail: seq<T>, rest: seq<T>, key: T -> int)
    requires multiset(rest) == multiset(tail) + multiset{x}
    requires b <= key(x) && forall k :: 0 <= k < |tail| ==> b <= key(tail[k])
    ensures forall j :: 0 <= j < |rest| ==> b <= key(rest[j])
  {
    forall j | 0 <= j < |rest|
      ensures b <= key(rest[j])
    {
      var y := rest[j];
      assert y in multiset(rest);
      if y != x {
        assert y in multiset(tail);
        var k :| 0 <= k < |tail| && tail[k] == y;
      }
    }
  }

  /** Insert x after every element whose key is not greater. */
  function InsertBy<T(==)>(x: T, l: seq<T>, key: T -> int): (r: seq<T>)
    requires SortedBy(l, key)
    ensures |r| == |l| + 1
    ensures SortedBy(r, key)
    ensures multiset(r) == multiset(l) + multiset{x}
  {
    if |l| == 0 then [x]
    else if key(x) < key(l[0]) then
      ConsSorted(x, l, key);
      [x] + l
    else
      var tail := l[1..];
      var rest := InsertBy(x, tail, key);
      BoundSurvivesInsert(key(l[0]), x, tail, rest, key);
      ConsSorted(l[0], rest, key);
      assert l == [l[0]] + tail;
      [l[0]] + rest
  }

  /** Insertion sort, taking the elements left to right. */
  function SortBy<T(==)>(l: seq<T>, key: T -> int): (r: seq<T>)
    ensures SortedBy(r, key)
    ensures multiset(r) == multiset(l)
    ensures |r| == |l|
  {
    if |l| == 0 then []
    else
      var init := l[..|l| - 1];
      var last := l[|l| - 1];
      assert l == init + [last];
      InsertBy(last, SortBy(init, key), key)
  }

  /** Sorting keeps membership, in both directions. */
  lemma SortKeepsMembers<T>(l: seq<T>, key: T -> int, x: T)
    ensures x in SortBy(l, key) <==> x in l
  {
    var r := SortBy(l, key);
    assert x in r <==> x in multiset(r);
    assert x in l <==> x in multiset(l);
  }

  /** A value at two distinct positions occurs at least twice. */
  lemma TwiceCounted<T>(a: seq<T>, i: nat, j: nat)
    requires i < j < |a| && a[i] == a[j]
    ensures multiset(a)[a[i]] >= 2
  {
    var x := a[i];
    assert a == a[..j] + a[j..];
    assert a[..j][i] == x && a[j..][0] == x;
    assert x in multiset(a[..j]) && x in multiset(a[j..]);
  }

  /** A value counted at least twice sits at two distinct positions. */
  lemma CountedTwice<T>(b: seq<T>, x: T)
    requires multiset(b)[x] >= 2
    ensures exists i', j' :: 0 <= i' < j' < |b| && b[i'] == x && b[j'] == x
  {
    assert x in multiset(b);
    var p :| 0 <= p < |b| && b[p] == x;
    var rest := b[..p] + b[p + 1..];
    assert b == b[..p] + [x] + b[p + 1..];
    assert multiset(rest)[x] >= 1;
    var q :| 0 <= q < |rest| && rest[q] == x;
    if q < p {
      assert b[q] == x;
    } else {
      assert b[q + 1] == x;
    }
  }

  /** Two permutations of each other hold some value at two distinct
      positions alike: a value seen twice in one is seen twice in the
      other. */
  lemma SeenTwice<T>(a: seq<T>, i: nat, j: nat, b: seq<T>)
    requires i < j < |a| && a[i] == a[j]
    requires multiset(a) == multiset(b)
    ensures exists i', j' :: 0 <= i' < j' < |b| && b[i'] == a[i] && b[j'] == a[i]
  {
    TwiceCounted(a, i, j);
    CountedTwice(b, a[i]);
  }
}

=== FILE: store.dfy ===
/** The abstract relational store behind the repository ports: the courses
    table, the set of existing students, the enrollments table with its
    auto-increment id, and the unique key (student_id, course_id, status).
    Enrollment rows carry no foreign-key constraint, so a row may name a
    student or course that does not exist. */
module Store {
  import opened Common
  import opened TimeSlots
  import opened Courses
  import opened Enrollments

  datatype Store = Store(
    courses: map<CourseId, Course>,
    students: set<StudentId>,
    rows: map<EnrollmentId, Enrollment>,
    nextId: EnrollmentId)

  /** The outcome of one all-or-nothing transaction: it commits a new store
      and a value, or it rolls back with an error and the store is as before. */
  datatype Tx<T> = Commit(value: T, store: Store) | Rollback(error: Error) {
    function After(s: Store): Store {
      if Commit? then store else s
    }
  }

  /** The database once another transaction's commit, if one lands, has
      replaced it. */
  function Latest(s: Store, meanwhile: Option<Store>): Store {
    match meanwhile
    case Some(w) => w
    case None => s
  }

  // ---------------------------------------------------------------------
  // Invariants

  /** Every row sits under its own id, below the auto-increment counter. */
  predicate RowsIndexed(s: Store) {
    forall id :: id in s.rows ==> id < s.nextId && s.rows[id].id == id
  }

  predicate CoursesWellFormed(s: Store) {
    forall c :: c in s.courses ==> WellFormed(s.courses[c]) && s.courses[c].id == c
  }

  /** Every row's course exists. The schema does not enforce this; every
      committing transaction of the engine looks the course up first. */
  predicate RowsReferenceCourses(s: Store) {
    forall id :: id in s.rows ==> s.rows[id].course in s.courses
  }

  /** uk_enrollments_student_course_status: no two rows share
      (student, course, status). */
  predicate UniqueKey(s: Store) {
    forall i, j :: i in s.rows && j in s.rows && i != j ==> KeyOf(s.rows[i]) != KeyOf(s.rows[j])
  }

  /** Each course's counter equals its number of ACTIVE rows. */
  predicate CountsMatch(s: Store) {
    forall c :: c in s.courses ==> s.courses[c].enrolledCount == ActiveCount(s, c)
  }

  predicate ConsistentExceptCounts(s: Store) {
    RowsIndexed(s) && CoursesWellFormed(s) && RowsReferenceCourses(s) && UniqueKey(s)
  }

  predicate Consistent(s: Store) {
    ConsistentExceptCounts(s) && CountsMatch(s)
  }

  // ---------------------------------------------------------------------
  // Counting ACTIVE rows

  predicate ActiveFor(rows: map<EnrollmentId, Enrollment>, id: EnrollmentId, c: CourseId) {
    id in rows && rows[id].course == c && rows[id].status == Active
  }

  function Ind(rows: map<EnrollmentId, Enrollment>, id: EnrollmentId, c: CourseId): nat {
    if ActiveFor(rows, id, c) then 1 else 0
  }

  /** The number of ACTIVE rows of course c among the ids below n. */
  function CountActive(rows: map<EnrollmentId, Enrollment>, c: CourseId, n: nat): nat {
    if n == 0 then 0 else CountActive(rows, c, n - 1) + Ind(rows, n - 1, c)
  }

  function ActiveCount(s: Store, c: CourseId): nat {
    CountActive(s.rows, c, s.nextId)
  }

  /** Changing one row changes the count by that row's contribution only. */
  lemma {:induction false} CountPointUpdate(rows: map<EnrollmentId, Enrollment>,
                                            rows': map<EnrollmentId, Enrollment>,
                                            k: EnrollmentId, c: CourseId, n: nat)
    requires forall id: nat :: id != k ==> (ActiveFor(rows, id, c) <==> ActiveFor(rows', id, c))
    ensures k < n ==> CountActive(rows', c, n) + Ind(rows, k, c) == CountActive(rows, c, n) + Ind(rows', k, c)
    ensures k >= n ==> CountActive(rows', c, n) == CountActive(rows, c, n)
  {
    if n > 0 {
      CountPointUpdate(rows, rows', k, c, n - 1);
    }
  }

  /** Rows at or above n do not contribute to the count below n. */
  lemma {:induction false} CountIgnoresHighIds(rows: map<EnrollmentId, Enrollment>,
                                               rows': map<EnrollmentId, Enrollment>,
                                               c: CourseId, n: nat)
    requires forall id: nat :: id < n ==> (ActiveFor(rows, id, c) <==> ActiveFor(rows', id, c))
    ensures CountActive(rows', c, n) == CountActive(rows, c, n)
  {
    if n > 0 {
      CountIgnoresHighIds(rows, rows', c, n - 1);
    }
  }

  // ---------------------------------------------------------------------
  // Repository reads

  predicate StudentExists(s: Store, student: StudentId) {
    student in s.students
  }

  function FindCourse(s: Store, course: CourseId): Option<Course> {
    if course in s.courses then Some(s.courses[course]) else None
  }

  function FindRow(s: Store, id: EnrollmentId): Option<Enrollment> {
    if id in s.rows then Some(s.rows[id]) else None
  }

  /** Some row already holds this unique key. */
  predicate KeyTaken(s: Store, key: Key) {
    exists id | id in s.rows :: KeyOf(s.rows[id]) == key
  }

  /** existsActiveByStudentIdAndCourseId. */
  predicate ExistsActive(s: Store, student: StudentId, course: CourseId) {
    KeyTaken(s, Key(student, course, Active))
  }

  /** Row id is one of the student's ACTIVE enrollments as
      findActiveByStudentId returns them: the query inner-joins the course,
      so rows whose course is missing are not returned. */
  predicate ActiveOf(s: Store, id: EnrollmentId, student: StudentId) {
    id in s.rows && s.rows[id].student == student && s.rows[id].status == Active
    && s.rows[id].course in s.courses
  }

  predicate Kept(s: Store, id: EnrollmentId, student: StudentId, exclude: Option<EnrollmentId>) {
    ActiveOf(s, id, student) && exclude != Some(id)
  }

  /** The courses of the student's ACTIVE rows with id below n, in id order,
      leaving out the row `exclude` names. */
  function ActiveCoursesBelow(s: Store, student: StudentId, exclude: Option<EnrollmentId>, n: nat): seq<Course> {
    if n == 0 then []
    else ActiveCoursesBelow(s, student, exclude, n - 1)
         + (if Kept(s, n - 1, student, exclude) then [s.courses[s.rows[n - 1].course]] else [])
  }

  /** findActiveByStudentId (ordered by enrollment id), optionally filtered to
      drop one row by id. */
  function ActiveCourses(s: Store, student: StudentId, exclude: Option<EnrollmentId>): seq<Course> {
    ActiveCoursesBelow(s, student, exclude, s.nextId)
  }

  /** Two sequences of courses agree on everything the business rules read:
      credits and time slot, position by position. */
  predicate CatalogEq(a: seq<Course>, b: seq<Course>) {
    |a| == |b| && forall i :: 0 <= i < |a| ==> a[i].credits == b[i].credits && a[i].slot == b[i].slot
  }

  /** Two course tables agree on their keys, credits and time slots. */
  predicate SameCatalog(m: map<CourseId, Course>, m': map<CourseId, Course>) {
    m.Keys == m'.Keys
    && forall c :: c in m ==> m[c].credits == m'[c].credits && m[c].slot == m'[c].slot
  }

  predicate SameExclusionBelow(e: Option<EnrollmentId>, e': Option<EnrollmentId>, n: nat) {
    e == e' || ((e.None? || e.value >= n) && (e'.None? || e'.value >= n))
  }

  predicate RowsAgreeBelow(s: Store, t: Store, n: nat) {
    forall id: nat :: 0 <= id < n ==> (id in s.rows <==> id in t.rows) && (id in s.rows ==> s.rows[id] == t.rows[id])
  }

  /** The active-course list only depends on the rows below n and the course
      catalog; seat counters and versions do not affect it. */
  lemma {:induction false} ActiveCoursesAgree(s: Store, t: Store, student: StudentId,
                                              e: Option<EnrollmentId>, e': Option<EnrollmentId>, n: nat)
    requires SameCatalog(s.courses, t.courses)
    requires RowsAgreeBelow(s, t, n)
    requires SameExclusionBelow(e, e', n)
    ensures CatalogEq(ActiveCoursesBelow(s, student, e, n), ActiveCoursesBelow(t, student, e', n))
  {
    if n > 0 {
      ActiveCoursesAgree(s, t, student, e, e', n - 1);
      var id := n - 1;
      assert Kept(s, id, student, e) <==> Kept(t, id, student, e');
    }
  }

  lemma CatalogEqTransitive(a: seq<Course>, b: seq<Course>, c: seq<Course>)
    requires CatalogEq(a, b) && CatalogEq(b, c)
    ensures CatalogEq(a, c)
  {
  }

  lemma CatalogEqAppend(a: seq<Course>, b: seq<Course>, x: Course, y: Course)
    requires CatalogEq(a, b) && x.credits == y.credits && x.slot == y.slot
    ensures CatalogEq(a + [x], b + [y])
  {
  }

  // ---------------------------------------------------------------------
  // Writes

  datatype InsertFailure = DuplicateKey | IntegrityViolation(message: Option<string>)

  datatype InsertResult = Inserted(id: EnrollmentId, store: Store) | InsertFailed(failure: InsertFailure)

  /** insertActive: a plain INSERT of an ACTIVE row with the next id. The
      unique key is the only constraint; a missing student or course is not
      rejected. */
  function InsertActive(s: Store, student: StudentId, course: CourseId): (r: InsertResult)
    ensures r.InsertFailed? <==> ExistsActive(s, student, course)
    ensures r.InsertFailed? ==> r.failure == DuplicateKey
    ensures r.Inserted? ==>
              && r.id == s.nextId
              && r.store == s.(rows := s.rows[s.nextId := Enroll(s.nextId, student, course)], nextId := s.nextId + 1)
  {
    if ExistsActive(s, student, course) then InsertFailed(DuplicateKey)
    else
      var id := s.nextId;
      Inserted(id, s.(rows := s.rows[id := Enroll(id, student, course)], nextId := id + 1))
  }

  /** Inserting a fresh ACTIVE row keeps the row invariants and adds exactly
      one ACTIVE row, to the requested course. */
  lemma InsertActiveEffect(s: Store, student: StudentId, course: CourseId)
    requires ConsistentExceptCounts(s) && course in s.courses
    requires InsertActive(s, student, course).Inserted?
    ensures var t := InsertActive(s, student, course).store;
            && ConsistentExceptCounts(t)
            && (forall c :: ActiveCount(t, c) == ActiveCount(s, c) + (if c == course then 1 else 0))
            && RowsAgreeBelow(s, t, s.nextId)
  {
    var t := InsertActive(s, student, course).store;
    var n := s.nextId;
    forall c
      ensures ActiveCount(t, c) == ActiveCount(s, c) + (if c == course then 1 else 0)
    {
      CountIgnoresHighIds(s.rows, t.rows, c, n);
      assert n !in s.rows;
    }
    forall i, j | i in t.rows && j in t.rows && i != j
      ensures KeyOf(t.rows[i]) != KeyOf(t.rows[j])
    {
      if i == n {
        assert !ExistsActive(s, student, course);
        assert KeyOf(s.rows[j]) != Key(student, course, Active);
      } else if j == n {
        assert !ExistsActive(s, student, course);
        assert KeyOf(s.rows[i]) != Key(student, course, Active);
      }
    }
  }

  /** deleteById: removes the row if present. */
  function DeleteById(s: Store, id: EnrollmentId): (t: Store)
    ensures t.rows.Keys == s.rows.Keys - {id}
    ensures forall k :: k in t.rows ==> t.rows[k] == s.rows[k]
    ensures t.courses == s.courses && t.students == s.students && t.nextId == s.nextId
  {
    s.(rows := s.rows - {id})
  }

  /** save(enrollment) of the existing row under id: an UPDATE that the
      unique key may reject. */
  function SaveRow(s: Store, id: EnrollmentId, e: Enrollment): (r: Result<Store>)
    ensures r.Err? <==> exists k | k in s.rows && k != id :: KeyOf(s.rows[k]) == KeyOf(e)
    ensures r.Err? ==> r.error == DataIntegrityViolation
    ensures r.Ok? ==> r.value == s.(rows := s.rows[id := e])
  {
    if exists k | k in s.rows && k != id :: KeyOf(s.rows[k]) == KeyOf(e) then Err(DataIntegrityViolation)
    else Ok(s.(rows := s.rows[id := e]))
  }

  /** save(course) of the course under key `course`, read earlier as
      `loaded` and changed in memory to `updated`: nothing is written when
      nothing changed; otherwise the UPDATE is guarded by the version read
      and writes the whole row with the version incremented. */
  function SaveCourse(s: Store, course: CourseId, loaded: Course, updated: Course): (r: Result<Store>)
    ensures updated == loaded ==> r == Ok(s)
    ensures updated != loaded ==>
              (r.Ok? <==> course in s.courses && s.courses[course].version == loaded.version)
    ensures r.Err? ==> r.error == VersionConflict
    ensures r.Ok? && updated != loaded ==>
              r.value == s.(courses := s.courses[course := updated.(version := loaded.version + 1)])
  {
    if updated == loaded then Ok(s)
    else if course !in s.courses || s.courses[course].version != loaded.version then Err(VersionConflict)
    else Ok(s.(courses := s.courses[course := updated.(version := loaded.version + 1)]))
  }
}

=== FILE: student.dfy ===
/** The Student aggregate's credit policy. */
module Students {
  import opened Common

  const MAX_CREDITS: int := 18

  /** Fails with CreditLimitExceeded when the current credits plus the
      requested credits exceed the maximum. */
  function ValidateCreditLimit(currentCredits: int, requestCredits: int): (r: Check)
    ensures r.Err? <==> currentCredits + requestCredits > MAX_CREDITS
    ensures r.Err? ==> r.error == CreditLimitExceeded
  {
    if currentCredits + requestCredits > MAX_CREDITS then Err(CreditLimitExceeded) else Pass()
  }

  /** A rejection stays a rejection for any larger current credit total. */
  lemma RejectionIsMonotone(current: int, larger: int, requested: int)
    requires ValidateCreditLimit(current, requested).Err?
    requires larger >= current
    ensures ValidateCreditLimit(larger, requested).Err?
  {
  }

  /** 15 + 3 = 18 is accepted; 16 + 3 is rejected. */
  lemma EighteenIsTheBoundary()
    ensures ValidateCreditLimit(15, 3) == Pass()
    ensures ValidateCreditLimit(16, 3) == Err(CreditLimitExceeded)
  {
  }
}

=== FILE: text.dfy ===
/** Character and string helpers over ASCII: case mapping, substring search,
    and fixed-width decimal rendering and parsing. */
module Text {

  predicate IsUpper(c: char) {
    'A' <= c <= 'Z'
  }

  predicate IsLower(c: char) {
    'a' <= c <= 'z'
  }

  predicate IsDigit(c: char) {
    '0' <= c <= '9'
  }

  function LowerChar(c: char): (r: char)
    ensures IsUpper(c) ==> IsLower(r) && r as int == c as int + 32
    ensures !IsUpper(c) ==> r == c
  {
    if IsUpper(c) then (c as int + 32) as char else c
  }

  function UpperChar(c: char): (r: char)
    ensures IsLower(c) ==> IsUpper(r) && r as int == c as int - 32
    ensures !IsLower(c) ==> r == c
  {
    if IsLower(c) then (c as int - 32) as char else c
  }

  /** toLowerCase restricted to ASCII letters. */
  function Lower(s: string): string {
    seq(|s|, i requires 0 <= i < |s| => LowerChar(s[i]))
  }

  /** toUpperCase restricted to ASCII letters. */
  function Upper(s: string): string {
    seq(|s|, i requires 0 <= i < |s| => UpperChar(s[i]))
  }

  /** Lower-casing twice is lower-casing once. */
  lemma LowerIdempotent(s: string)
    ensures Lower(Lower(s)) == Lower(s)
  {
    assert forall i :: 0 <= i < |s| ==> LowerChar(LowerChar(s[i])) == LowerChar(s[i]);
  }

  predicate OccursAt(hay: string, needle: string, i: int) {
    0 <= i && i + |needle| <= |hay| && hay[i..i + |needle|] == needle
  }

  /** Reference meaning of String.contains. */
  ghost predicate IsSubstring(needle: string, hay: string) {
    exists i :: OccursAt(hay, needle, i)
  }

  /** A left-to-right scan for an occurrence starting at i or later. */
  function ContainsFrom(hay: string, needle: string, i: nat): (r: bool)
    requires i <= |hay|
    ensures r <==> exists j :: i <= j && OccursAt(hay, needle, j)
    decreases |hay| - i
  {
    if i + |needle| > |hay| then
      assert forall j :: i <= j ==> !OccursAt(hay, needle, j);
      false
    else if hay[i..i + |needle|] == needle then
      assert OccursAt(hay, needle, i);
      true
    else
      ContainsFrom(hay, needle, i + 1)
  }

  function Contains(hay: string, needle: string): (r: bool)
    ensures r <==> IsSubstring(needle, hay)
  {
    ContainsFrom(hay, needle, 0)
  }

  // -------------------------------------------------------------------
  // Decimal digits

  function DigitChar(d: nat): (c: char)
    requires d < 10
    ensures IsDigit(c) && c as int - '0' as int == d
  {
    ('0' as int + d) as char
  }

  function DigitValue(c: char): (d: nat)
    requires IsDigit(c)
    ensures d < 10 && DigitChar(d) == c
  {
    c as int - '0' as int
  }

  /** %02d for 0 <= n < 100. */
  function Pad2(n: nat): (r: string)
    requires n < 100
    ensures |r| == 2 && IsDigit(r[0]) && IsDigit(r[1])
    ensures DigitValue(r[0]) * 10 + DigitValue(r[1]) == n
  {
    [DigitChar(n / 10), DigitChar(n % 10)]
  }

  /** %03d for 0 <= n < 1000. */
  function Pad3(n: nat): (r: string)
    requires n < 1000
    ensures |r| == 3 && IsDigit(r[0]) && IsDigit(r[1]) && IsDigit(r[2])
    ensures DigitValue(r[0]) * 100 + DigitValue(r[1]) * 10 + DigitValue(r[2]) == n
  {
    [DigitChar(n / 100), DigitChar(n / 10 % 10), DigitChar(n % 10)]
  }

  /** The value of a two-digit string. */
  function Parse2(s: string): (n: nat)
    requires |s| == 2 && IsDigit(s[0]) && IsDigit(s[1])
    ensures n < 100
  {
    DigitValue(s[0]) * 10 + DigitValue(s[1])
  }

  lemma Parse2OfPad2(n: nat)
    requires n < 100
    ensures Parse2(Pad2(n)) == n
  {
  }

  /** Integer.toString for naturals. */
  function NatToString(n: nat): (r: string)
    ensures |r| >= 1 && forall i :: 0 <= i < |r| ==> IsDigit(r[i])
    decreases n
  {
    if n < 10 then [DigitChar(n)] else NatToString(n / 10) + [DigitChar(n % 10)]
  }

  /** The value of a decimal digit string. */
  function ParseNat(s: string): (n: nat)
    requires forall i :: 0 <= i < |s| ==> IsDigit(s[i])
  {
    if |s| == 0 then 0 else ParseNat(s[..|s| - 1]) * 10 + DigitValue(s[|s| - 1])
  }

  /** Rendering then parsing a natural gives it back. */
  lemma {:induction false} ParseNatToString(n: nat)
    ensures ParseNat(NatToString(n)) == n
    decreases n
  {
    if n >= 10 {
      ParseNatToString(n / 10);
      var r := NatToString(n);
      assert r[..|r| - 1] == NatToString(n / 10);
    }
  }
  /** A run of k zeros. */
  function Zeros(k: nat): (r: string)
    ensures |r| == k && forall i :: 0 <= i < k ==> r[i] == '0'
  {
    seq(k, _ => '0')
  }

  /** String.format("%0wd", n) for a natural n: the decimal digits of n,
      padded on the left with zeros up to width w. */
  function ZeroPad(n: nat, w: nat): (r: string)
    ensures |r| >= w && |r| >= |NatToString(n)|
    ensures |NatToString(n)| >= w ==> r == NatToString(n)
    ensures forall i :: 0 <= i < |r| ==> IsDigit(r[i])
  {
    var s := NatToString(n);
    if |s| >= w then s else Zeros(w - |s|) + s
  }

  lemma {:induction false} ParseNatZeros(k: nat)
    ensures ParseNat(Zeros(k)) == 0
  {
    if k > 0 {
      ParseNatZeros(k - 1);
      assert Zeros(k)[..k - 1] == Zeros(k - 1);
    }
  }

  /** Leading zeros do not change the value of a digit string. */
  lemma {:induction false} ParseNatLeadingZeros(k: nat, s: string)
    requires forall i :: 0 <= i < |s| ==> IsDigit(s[i])
    ensures ParseNat(Zeros(k) + s) == ParseNat(s)
  {
    if |s| == 0 {
      assert Zeros(k) + s == Zeros(k);
      ParseNatZeros(k);
    } else {
      ParseNatLeadingZeros(k, s[..|s| - 1]);
      assert (Zeros(k) + s)[..|Zeros(k) + s| - 1] == Zeros(k) + s[..|s| - 1];
    }
  }

  /** Round trip: a zero-padded rendering parses back to its value. */
  lemma ParseZeroPad(n: nat, w: nat)
    ensures ParseNat(ZeroPad(n, w)) == n
  {
    var s := NatToString(n);
    ParseNatToString(n);
    if |s| < w {
      ParseNatLeadingZeros(w - |s|, s);
    }
  }

  /** The number of decimal digits of n, for the ranges the system uses. */
  lemma NatToStringLength(n: nat)
    ensures n < 10 ==> |NatToString(n)| == 1
    ensures 10 <= n < 100 ==> |NatToString(n)| == 2
    ensures 100 <= n < 1000 ==> |NatToString(n)| == 3
    ensures n >= 10 ==> |NatToString(n)| >= 2
    ensures n >= 100 ==> |NatToString(n)| >= 3
  {
    if n >= 10 {
      NatToStringLength(n / 10);
    }
  }
}

=== FILE: time_slot.dfy ===
/** The weekly time slot of a course: a day of the week and a half-open
    interval of the day [start, end). Times are minutes since midnight, the
    precision the schedules of the system use. */
module TimeSlots {
  import opened Common

  datatype Day = Monday | Tuesday | Wednesday | Thursday | Friday | Saturday | Sunday

  const MINUTES_PER_DAY: nat := 1440

  /** A LocalTime at minute precision. */
  type Time = t: nat | t < MINUTES_PER_DAY

  datatype TimeSlot = TimeSlot(day: Day, start: Time, end: Time)

  /** The construction invariant: the start lies strictly before the end. */
  predicate Valid(t: TimeSlot) {
    t.start < t.end
  }

  /** The constructor: both times must be present and start before end,
      otherwise IllegalArgumentException. */
  function NewTimeSlot(day: Day, start: Option<Time>, end: Option<Time>): (r: Result<TimeSlot>)
    ensures r.Ok? <==> start.Some? && end.Some? && start.value < end.value
    ensures r.Ok? ==> Valid(r.value) && r.value.day == day
                      && r.value.start == start.value && r.value.end == end.value
    ensures r.Err? ==> r.error == IllegalArgument
  {
    if start.None? || end.None? || !(start.value < end.value) then Err(IllegalArgument)
    else Ok(TimeSlot(day, start.value, end.value))
  }

  /** Two slots overlap when they share the day and their half-open
      intervals intersect. */
  predicate Overlaps(a: TimeSlot, b: TimeSlot) {
    if a.day != b.day then false
    else a.start < b.end && b.start < a.end
  }

  /** The minute m lies inside the slot. */
  predicate Covers(t: TimeSlot, m: int) {
    t.start <= m < t.end
  }

  /** Reference meaning of overlap for constructed slots: some minute of the
      same day lies in both slots. Both directions. */
  lemma OverlapsMeansCommonMinute(a: TimeSlot, b: TimeSlot)
    requires Valid(a) && Valid(b)
    ensures Overlaps(a, b) <==> a.day == b.day && exists m :: Covers(a, m) && Covers(b, m)
  {
    if Overlaps(a, b) {
      var m: int := if a.start <= b.start then b.start else a.start;
      assert a.start <= m < a.end;
      assert b.start <= m < b.end;
      assert Covers(a, m) && Covers(b, m);
    }
  }

  lemma DifferentDaysNeverOverlap(a: TimeSlot, b: TimeSlot)
    requires a.day != b.day
    ensures !Overlaps(a, b)
  {
  }

  /** Back-to-back slots on the same day (one ends when the other starts) do
      not overlap, because the intervals are half-open. */
  lemma BackToBackDoNotOverlap(a: TimeSlot, b: TimeSlot)
    requires a.end == b.start
    ensures !Overlaps(a, b) && !Overlaps(b, a)
  {
  }

  lemma OverlapsSymmetric(a: TimeSlot, b: TimeSlot)
    ensures Overlaps(a, b) <==> Overlaps(b, a)
  {
  }

  /** Tuesday 9:00-11:00 overlaps Tuesday 10:00-12:00. */
  lemma TuesdayMorningSlotsOverlap()
    ensures Overlaps(TimeSlot(Tuesday, 540, 660), TimeSlot(Tuesday, 600, 720))
  {
  }
}

=== FILE: timetable.dfy ===
/** The student timetable query: the courses of the student's ACTIVE
    enrollments with their rendered schedules, and the credit total. It only
    reads the store. */
module Timetable {
  import opened Common
  import opened TimeSlots
  import opened Courses
  import opened Students
  import opened Enrollments
  import opened Store
  import opened RuleValidator
  import opened ScheduleFormat
  import opened TimetableAssertion
  import opened ScheduleCheck
  import opened Sorting

  /** TimetableCourseSummary; names of the course, professor and department
      are plain data and are represented by the course code. */
  datatype CourseSummary = CourseSummary(courseId: CourseId, code: string, credits: int, schedule: string)

  datatype StudentTimetable = StudentTimetable(studentId: StudentId, totalCredits: int, courses: seq<CourseSummary>)

  /** TimetableCourseSummary.from. */
  function SummaryOf(c: Course): CourseSummary {
    CourseSummary(c.id, c.code, c.credits, Format(c.slot))
  }

  function Summaries(cs: seq<Course>): seq<CourseSummary> {
    seq(|cs|, i requires 0 <= i < |cs| => SummaryOf(cs[i]))
  }

  /** courses.stream().mapToInt(credits).sum(). */
  function TotalCredits(l: seq<CourseSummary>): int {
    if |l| == 0 then 0 else TotalCredits(l[..|l| - 1]) + l[|l| - 1].credits
  }

  /** The summed summaries carry the credits of the courses they came from. */
  lemma {:induction false} TotalOfSummaries(cs: seq<Course>)
    ensures TotalCredits(Summaries(cs)) == CreditSum(cs)
  {
    if |cs| > 0 {
      var init := cs[..|cs| - 1];
      TotalOfSummaries(init);
      assert Summaries(cs)[..|cs| - 1] == Summaries(init);
    }
  }

  function CourseIdKey(c: Course): int {
    c.id
  }

  /** The courses of the student's ACTIVE rows as the timetable query
      returns them: ordered by course id. */
  function Listed(s: Store, student: StudentId): seq<Course> {
    SortBy(ActiveCourses(s, student, None), CourseIdKey)
  }

  lemma {:induction false} CreditSumConcat(a: seq<Course>, b: seq<Course>)
    ensures CreditSum(a + b) == CreditSum(a) + CreditSum(b)
    decreases |b|
  {
    if |b| > 0 {
      CreditSumConcat(a, b[..|b| - 1]);
      assert (a + b)[..|a + b| - 1] == a + b[..|b| - 1];
    } else {
      assert a + b == a;
    }
  }

  /** Inserting a course adds its credits. */
  lemma {:induction false} CreditSumInsert(x: Course, l: seq<Course>, key: Course -> int)
    requires SortedBy(l, key)
    ensures CreditSum(InsertBy(x, l, key)) == CreditSum(l) + x.credits
    decreases |l|
  {
    assert [x][..0] == [];
    if |l| > 0 {
      if key(x) < key(l[0]) {
        CreditSumConcat([x], l);
      } else {
        var tail := l[1..];
        CreditSumInsert(x, tail, key);
        CreditSumConcat([l[0]], InsertBy(x, tail, key));
        CreditSumConcat([l[0]], tail);
        assert [l[0]][..0] == [];
        assert l == [l[0]] + tail;
      }
    }
  }

  /** Sorting does not change the credit total. */
  lemma {:induction false} CreditSumSort(l: seq<Course>, key: Course -> int)
    ensures CreditSum(SortBy(l, key)) == CreditSum(l)
    decreases |l|
  {
    if |l| > 0 {
      var init := l[..|l| - 1];
      CreditSumSort(init, key);
      CreditSumInsert(l[|l| - 1], SortBy(init, key), key);
    }
  }

  /** An overlap between two entries survives any reordering. */
  lemma OverlapSurvivesPermutation(a: seq<Course>, b: seq<Course>)
    requires multiset(a) == multiset(b)
    requires !ScheduleFree(a)
    ensures !ScheduleFree(b)
  {
    var i, j :| 0 <= i < j < |a| && Overlaps(a[i].slot, a[j].slot);
    if a[i] == a[j] {
      SeenTwice(a, i, j, b);
      var i', j' :| 0 <= i' < j' < |b| && b[i'] == a[i] && b[j'] == a[i];
      assert Overlaps(b[i'].slot, b[j'].slot);
    } else {
      assert a[i] in multiset(b) && a[j] in multiset(b);
      var p :| 0 <= p < |b| && b[p] == a[i];
      var q :| 0 <= q < |b| && b[q] == a[j];
      if p < q {
        assert Overlaps(b[p].slot, b[q].slot);
      } else {
        OverlapsSymmetric(a[i].slot, a[j].slot);
        assert Overlaps(b[q].slot, b[p].slot);
      }
    }
  }

  /** getStudentTimetable: StudentNotFound for an unknown student; otherwise
      the summaries of the courses of the student's ACTIVE rows, ordered by
      course id, and the sum of their credits. */
  function GetStudentTimetable(s: Store, student: StudentId): (r: Result<StudentTimetable>)
    ensures r.Err? <==> student !in s.students
    ensures r.Err? ==> r.error == StudentNotFound
    ensures r.Ok? ==> && r.value.studentId == student
                      && r.value.totalCredits == TotalCredits(r.value.courses)
                      && r.value.totalCredits == CreditSum(ActiveCourses(s, student, None))
    ensures r.Ok? ==> var listed := Listed(s, student);
                      && multiset(listed) == multiset(ActiveCourses(s, student, None))
                      && |r.value.courses| == |listed|
                      && forall i :: 0 <= i < |listed| ==> r.value.courses[i] == SummaryOf(listed[i])
    ensures r.Ok? ==> forall i, j :: 0 <= i < j < |r.value.courses| ==> r.value.courses[i].courseId <= r.value.courses[j].courseId
  {
    if student !in s.students then Err(StudentNotFound)
    else
      var listed := Listed(s, student);
      var courses := Summaries(listed);
      TotalOfSummaries(listed);
      CreditSumSort(ActiveCourses(s, student, None), CourseIdKey);
      Ok(StudentTimetable(student, TotalCredits(courses), courses))
  }

  /** The listed courses are exactly the courses of the student's ACTIVE
      rows whose course exists, one entry per row, in id order. */
  lemma {:induction false} ListsActiveRows(s: Store, student: StudentId, n: nat)
    ensures forall c :: c in ActiveCoursesBelow(s, student, None, n)
                        <==> exists id :: 0 <= id < n && ActiveOf(s, id, student) && c == s.courses[s.rows[id].course]
  {
    if n > 0 {
      ListsActiveRows(s, student, n - 1);
    }
  }

  /** The schedule column of a timetable, as the load test reads it. */
  function Schedules(l: seq<CourseSummary>): seq<Option<string>> {
    seq(|l|, i requires 0 <= i < |l| => Some(l[i].schedule))
  }

  function SlotsOf(cs: seq<Course>): seq<TimeSlot> {
    seq(|cs|, i requires 0 <= i < |cs| => cs[i].slot)
  }

  /** Every listed course comes from the catalog, so its slot is valid. */
  lemma ActiveSlotsValid(s: Store, student: StudentId)
    requires CoursesWellFormed(s)
    ensures forall i :: 0 <= i < |ActiveCourses(s, student, None)| ==> Valid(ActiveCourses(s, student, None)[i].slot)
  {
    var active := ActiveCourses(s, student, None);
    ListsActiveRows(s, student, s.nextId);
    forall i | 0 <= i < |active|
      ensures Valid(active[i].slot)
    {
      assert active[i] in active;
    }
  }

  /** Sorting by course id keeps the courses, so their slots stay valid. */
  lemma ListedSlotsValid(s: Store, student: StudentId)
    requires CoursesWellFormed(s)
    ensures forall i :: 0 <= i < |Listed(s, student)| ==> Valid(Listed(s, student)[i].slot)
  {
    var active := ActiveCourses(s, student, None);
    var listed := Listed(s, student);
    ActiveSlotsValid(s, student);
    forall i | 0 <= i < |listed|
      ensures Valid(listed[i].slot)
    {
      assert listed[i] in multiset(active);
      var k :| 0 <= k < |active| && active[k] == listed[i];
    }
  }

  /** The load test's final assertion on a timetable the server returns:
      the credits are within the limit and the check finds no conflict
      exactly when the student's ACTIVE courses are within MAX_CREDITS and
      pairwise free of overlaps. */
  lemma AssertionReadsTheRules(s: Store, student: StudentId)
    requires CoursesWellFormed(s) && student in s.students
    ensures var t := GetStudentTimetable(s, student).value;
            var active := ActiveCourses(s, student, None);
            && (CreditsWithinLimit(Some(t.totalCredits)) <==> CreditSum(active) <= MAX_CREDITS)
            && (!HasTimetableConflict(Schedules(t.courses)) <==> ScheduleFree(active))
  {
    var t := GetStudentTimetable(s, student).value;
    var active := ActiveCourses(s, student, None);
    var listed := Listed(s, student);
    CreditCheckIsLimit(t.totalCredits);
    ListedSlotsValid(s, student);
    ColumnConflictIsClash(listed, t.courses);
    if !ScheduleFree(listed) {
      OverlapSurvivesPermutation(listed, active);
    }
    if !ScheduleFree(active) {
      OverlapSurvivesPermutation(active, listed);
    }
  }

  /** The load test's credit check is the server's limit. */
  lemma CreditCheckIsLimit(total: int)
    ensures CreditsWithinLimit(Some(total)) <==> total <= MAX_CREDITS
  {
  }

  /** The load test finds a conflict in the schedule column of the
      summaries of valid courses exactly when two of the courses overlap. */
  lemma ColumnConflictIsClash(cs: seq<Course>, l: seq<CourseSummary>)
    requires forall i :: 0 <= i < |cs| ==> Valid(cs[i].slot)
    requires |l| == |cs| && forall i :: 0 <= i < |cs| ==> l[i] == SummaryOf(cs[i])
    ensures !HasTimetableConflict(Schedules(l)) <==> ScheduleFree(cs)
  {
    var slots := SlotsOf(cs);
    assert forall i :: 0 <= i < |cs| ==> slots[i] == cs[i].slot;
    assert Schedules(l) == FormattedAll(slots);
    ConflictIsOverlap(slots);
  }

  /** After a successful enrollment into a consistent store whose student
      had a clash-free timetable, the load test's assertion passes. */
  lemma AssertionHoldsAfterEnroll(s: Store, student: StudentId, course: CourseId)
    requires Consistent(s) && EnrollAllowed(s, student, course)
    requires ScheduleFree(ActiveCourses(s, student, None))
    ensures var t := GetStudentTimetable(Enrolled(s, student, course), student);
            && t.Ok?
            && CreditsWithinLimit(Some(t.value.totalCredits))
            && !HasTimetableConflict(Schedules(t.value.courses))
  {
    var after := Enrolled(s, student, course);
    EnrolledKeepsInvariants(s, student, course);
    AssertionReadsTheRules(after, student);
  }

  /** A timetable is empty, as the load test's setup requires before a
      run, exactly when the student holds no ACTIVE row of an existing
      course. */
  lemma EmptyTimetable(s: Store, student: StudentId)
    requires CoursesWellFormed(s) && student in s.students
    ensures var t := GetStudentTimetable(s, student).value;
            t.totalCredits == 0 && |t.courses| == 0
            <==> forall id :: 0 <= id < s.nextId ==> !ActiveOf(s, id, student)
  {
    var active := ActiveCourses(s, student, None);
    ListsActiveRows(s, student, s.nextId);
    if |active| > 0 {
      assert active[0] in active;
    }
    if exists id :: 0 <= id < s.nextId && ActiveOf(s, id, student) {
      var id :| 0 <= id < s.nextId && ActiveOf(s, id, student);
      assert s.courses[s.rows[id].course] in active;
    }
  }
}

=== FILE: timetable_assertion.dfy ===
/** The pure checks of the single-student load test's final assertion: the
    schedule parser, the conflict check that sorts each day's slots and
    compares neighbours, and the credit check on the reported total. */
module TimetableAssertion {
  import opened Common
  import opened Text
  import opened Sorting

  /** The characters JavaScript's `\s` and String.prototype.trim treat as
      white space: the WhiteSpace and LineTerminator code points. */
  predicate IsJsSpace(c: char) {
    var n := c as int;
    || (0x9 <= n <= 0xD) || n == 0x20 || n == 0xA0 || n == 0x1680
    || (0x2000 <= n <= 0x200A) || n == 0x2028 || n == 0x2029 || n == 0x202F
    || n == 0x205F || n == 0x3000 || n == 0xFEFF
  }

  function TrimStart(s: string): (r: string)
    ensures |r| <= |s| && r == s[|s| - |r|..]
    ensures forall i :: 0 <= i < |s| - |r| ==> IsJsSpace(s[i])
    ensures |r| > 0 ==> !IsJsSpace(r[0])
  {
    if |s| > 0 && IsJsSpace(s[0]) then TrimStart(s[1..]) else s
  }

  function TrimEnd(s: string): (r: string)
    ensures |r| <= |s| && r == s[..|r|]
    ensures forall i :: |r| <= i < |s| ==> IsJsSpace(s[i])
    ensures |r| > 0 ==> !IsJsSpace(r[|r| - 1])
  {
    if |s| > 0 && IsJsSpace(s[|s| - 1]) then TrimEnd(s[..|s| - 1]) else s
  }

  /** r occurs in s at position k with only white space around it. */
  predicate TrimmedAt(r: string, s: string, k: int) {
    && 0 <= k && k + |r| <= |s| && r == s[k..k + |r|]
    && (forall i :: 0 <= i < k ==> IsJsSpace(s[i]))
    && (forall i :: k + |r| <= i < |s| ==> IsJsSpace(s[i]))
  }

  /** String.prototype.trim: white space leaves both ends, and only white
      space leaves. */
  function Trim(s: string): (r: string)
    ensures |r| > 0 ==> !IsJsSpace(r[0]) && !IsJsSpace(r[|r| - 1])
    ensures exists k :: TrimmedAt(r, s, k)
  {
    var a := TrimStart(s);
    var r := TrimEnd(a);
    TrimBothEnds(s, a, r);
    r
  }

  /** Cutting white space off the start of s, then off the end of what
      remains, leaves a middle part of s. */
  lemma TrimBothEnds(s: string, a: string, r: string)
    requires |a| <= |s| && a == s[|s| - |a|..] && forall i :: 0 <= i < |s| - |a| ==> IsJsSpace(s[i])
    requires |r| <= |a| && r == a[..|r|] && forall i :: |r| <= i < |a| ==> IsJsSpace(a[i])
    ensures TrimmedAt(r, s, |s| - |a|)
  {
    var k := |s| - |a|;
    forall j | 0 <= j < |r|
      ensures r[j] == s[k + j]
    {
      assert r[j] == a[j];
    }
    assert r == s[k..k + |r|];
    forall i | k + |r| <= i < |s|
      ensures IsJsSpace(s[i])
    {
      assert s[i] == a[i - k];
    }
  }

  /** A string without white space at either end is its own trim. */
  lemma TrimKeeps(s: string)
    requires |s| > 0 ==> !IsJsSpace(s[0]) && !IsJsSpace(s[|s| - 1])
    ensures Trim(s) == s
  {
  }

  /** The parsed form of a schedule: {day, start, end} in minutes. */
  datatype Parsed = Parsed(day: string, start: nat, end: nat)

  /** `(\d{2}):(\d{2})-(\d{2}):(\d{2})` on the whole string. */
  predicate ClockRange(t: string) {
    && |t| == 11
    && IsDigit(t[0]) && IsDigit(t[1]) && t[2] == ':' && IsDigit(t[3]) && IsDigit(t[4])
    && t[5] == '-'
    && IsDigit(t[6]) && IsDigit(t[7]) && t[8] == ':' && IsDigit(t[9]) && IsDigit(t[10])
  }

  /** `^([A-Z]{3})\s+(\d{2}):(\d{2})-(\d{2}):(\d{2})$`: three capitals,
      at least one white-space character, then the clock range. */
  predicate MatchesPattern(t: string) {
    && |t| >= 15
    && IsUpper(t[0]) && IsUpper(t[1]) && IsUpper(t[2])
    && (forall i :: 3 <= i < |t| - 11 ==> IsJsSpace(t[i]))
    && ClockRange(t[|t| - 11..])
  }

  /** The first time of a clock range, in minutes since midnight. */
  function RangeStart(c: string): nat
    requires ClockRange(c)
  {
    Parse2(c[0..2]) * 60 + Parse2(c[3..5])
  }

  /** The second time of a clock range, in minutes since midnight. */
  function RangeEnd(c: string): nat
    requires ClockRange(c)
  {
    Parse2(c[6..8]) * 60 + Parse2(c[9..11])
  }

  /** The clock range at the end of a matching text. */
  function ClockPart(t: string): string
    requires |t| >= 11
  {
    t[|t| - 11..]
  }

  /** What parseSchedule accepts once the text is trimmed: the pattern
      matches and the start lies strictly before the end. */
  predicate Accepts(t: string) {
    MatchesPattern(t) && RangeStart(ClockPart(t)) < RangeEnd(ClockPart(t))
  }

  /** The match and the conversion to minutes on trimmed text: null unless
      the text is accepted, otherwise the day and both times. */
  function ParseTrimmed(t: string): (r: Option<Parsed>)
    ensures r.Some? <==> Accepts(t)
    ensures r.Some? ==> && r.value.day == t[..3]
                        && r.value.start == RangeStart(ClockPart(t))
                        && r.value.end == RangeEnd(ClockPart(t))
                        && r.value.start < r.value.end
  {
    if !MatchesPattern(t) then None
    else
      var c := ClockPart(t);
      if RangeStart(c) >= RangeEnd(c) then None else Some(Parsed(t[..3], RangeStart(c), RangeEnd(c)))
  }

  /** parseSchedule: trim, then match and convert. */
  function ParseSchedule(schedule: string): Option<Parsed> {
    ParseTrimmed(Trim(schedule))
  }

  /** Two parsed slots collide: same day, and the half-open intervals meet. */
  predicate Clash(a: Parsed, b: Parsed) {
    a.day == b.day && a.start < b.end && b.start < a.end
  }

  /** Reference meaning of a conflict: some two entries of the list clash. */
  ghost predicate HasClash(l: seq<Parsed>) {
    exists i, j :: 0 <= i < j < |l| && Clash(l[i], l[j])
  }

  /** Every entry of the list is a proper interval. */
  predicate Proper(l: seq<Parsed>) {
    forall i :: 0 <= i < |l| ==> l[i].start < l[i].end
  }

  /** `${course.schedule || ''}` then parseSchedule, keeping what parses,
      in the order of the courses. */
  function ParseAll(schedules: seq<Option<string>>): (r: seq<Parsed>)
    ensures Proper(r)
  {
    if |schedules| == 0 then []
    else
      var text := match schedules[|schedules| - 1] case None => "" case Some(x) => x;
      var init := ParseAll(schedules[..|schedules| - 1]);
      match ParseSchedule(text)
      case None => init
      case Some(p) => ProperSnoc(init, p); init + [p]
  }

  lemma ProperSnoc(l: seq<Parsed>, p: Parsed)
    requires Proper(l) && p.start < p.end
    ensures Proper(l + [p])
  {
  }

  /** The entries of one day, in list order. */
  function Group(l: seq<Parsed>, day: string): (r: seq<Parsed>)
    ensures forall i :: 0 <= i < |r| ==> r[i].day == day
    ensures Proper(l) ==> Proper(r)
  {
    if |l| == 0 then []
    else
      var init := Group(l[..|l| - 1], day);
      if l[|l| - 1].day == day then init + [l[|l| - 1]] else init
  }

  function StartKey(p: Parsed): int {
    p.start
  }

  /** Some entry starts before its predecessor ends. */
  predicate AdjacentConflict(l: seq<Parsed>) {
    exists k :: 1 <= k < |l| && l[k].start < l[k - 1].end
  }

  /** hasTimetableConflict: group the parsed slots by day, sort each day by
      start, and look for a slot starting before its predecessor ends. The
      groups are those of the days that occur in the list. */
  predicate HasTimetableConflict(schedules: seq<Option<string>>) {
    var p := ParseAll(schedules);
    exists k :: 0 <= k < |p| && AdjacentConflict(SortBy(Group(p, p[k].day), StartKey))
  }

  /** totalCredits parses to a number and that number is at most 18. */
  function CreditsWithinLimit(totalCredits: Option<int>): (r: bool)
    ensures r <==> totalCredits.Some? && totalCredits.value <= 18
  {
    match totalCredits
    case None => false
    case Some(n) => n <= 18
  }

  // ---------------------------------------------------------------------
  // The sorted-neighbour check finds exactly the clashing pairs

  /** On one day's proper slots sorted by start, a clash between any two
      shows up between two neighbours. Both directions. */
  lemma AdjacentFindsEveryClash(l: seq<Parsed>, day: string)
    requires SortedBy(l, StartKey) && Proper(l)
    requires forall i :: 0 <= i < |l| ==> l[i].day == day
    ensures AdjacentConflict(l) <==> HasClash(l)
  {
    if AdjacentConflict(l) {
      var k := PickAdjacent(l);
      AdjacentIsClash(l, day, k);
    } else {
      NoAdjacentNoClash(l);
    }
  }

  /** The position of some neighbour conflict. */
  lemma PickAdjacent(l: seq<Parsed>) returns (k: nat)
    requires AdjacentConflict(l)
    ensures 1 <= k < |l| && l[k].start < l[k - 1].end
  {
    k :| 1 <= k < |l| && l[k].start < l[k - 1].end;
  }

  /** A neighbour conflict is a clash of the two neighbours. */
  lemma AdjacentIsClash(l: seq<Parsed>, day: string, k: nat)
    requires SortedBy(l, StartKey) && Proper(l)
    requires forall i :: 0 <= i < |l| ==> l[i].day == day
    requires 1 <= k < |l| && l[k].start < l[k - 1].end
    ensures HasClash(l)
  {
    StartsInOrder(l, k - 1, k);
    assert Clash(l[k - 1], l[k]);
  }

  lemma StartsInOrder(l: seq<Parsed>, i: nat, j: nat)
    requires SortedBy(l, StartKey) && i < j < |l|
    ensures l[i].start <= l[j].start
  {
    assert StartKey(l[i]) <= StartKey(l[j]);
  }

  /** Without a neighbour conflict no two entries clash. */
  lemma NoAdjacentNoClash(l: seq<Parsed>)
    requires SortedBy(l, StartKey) && !AdjacentConflict(l)
    ensures !HasClash(l)
  {
    forall i, j | 0 <= i < j < |l|
      ensures !Clash(l[i], l[j])
    {
      LaterStartsAfterEnd(l, i, j);
    }
  }

  /** Without a neighbour conflict, every later entry of a sorted list
      starts no earlier than an earlier entry ends. */
  lemma LaterStartsAfterEnd(l: seq<Parsed>, i: nat, j: nat)
    requires SortedBy(l, StartKey) && !AdjacentConflict(l)
    requires i < j < |l|
    ensures l[j].start >= l[i].end
  {
    assert l[i + 1].start >= l[i].end;
    if i + 1 < j {
      StartsInOrder(l, i + 1, j);
    }
  }

  /** A clash survives any reordering of the list. */
  lemma ClashSurvivesPermutation(a: seq<Parsed>, b: seq<Parsed>)
    requires multiset(a) == multiset(b)
    requires HasClash(a)
    ensures HasClash(b)
  {
    var i, j :| 0 <= i < j < |a| && Clash(a[i], a[j]);
    if a[i] == a[j] {
      SeenTwice(a, i, j, b);
      var i', j' :| 0 <= i' < j' < |b| && b[i'] == a[i] && b[j'] == a[i];
      assert Clash(b[i'], b[j']);
    } else {
      assert a[i] in multiset(b) && a[j] in multiset(b);
      var p :| 0 <= p < |b| && b[p] == a[i];
      var q :| 0 <= q < |b| && b[q] == a[j];
      if p < q {
        assert Clash(b[p], b[q]);
      } else {
        assert Clash(b[q], b[p]);
      }
    }
  }

  /** Some earlier entry clashes with x. */
  ghost predicate ClashesWith(l: seq<Parsed>, x: Parsed) {
    exists i :: 0 <= i < |l| && Clash(l[i], x)
  }

  lemma ClashSnoc(l: seq<Parsed>, x: Parsed)
    ensures HasClash(l + [x]) <==> HasClash(l) || ClashesWith(l, x)
  {
    var m := l + [x];
    if HasClash(m) {
      var i, j :| 0 <= i < j < |m| && Clash(m[i], m[j]);
      if j < |l| {
        assert Clash(l[i], l[j]);
      } else {
        assert Clash(l[i], x);
      }
    }
    if HasClash(l) {
      var i, j :| 0 <= i < j < |l| && Clash(l[i], l[j]);
      assert Clash(m[i], m[j]);
    }
    if ClashesWith(l, x) {
      var i :| 0 <= i < |l| && Clash(l[i], x);
      assert Clash(m[i], m[|l|]);
    }
  }

  lemma GroupMembers(l: seq<Parsed>, day: string, y: Parsed)
    ensures y in Group(l, day) <==> y in l && y.day == day
  {
    if |l| > 0 {
      var init := l[..|l| - 1];
      assert l == init + [l[|l| - 1]];
      GroupMembers(init, day, y);
    }
  }

  /** Two entries clash and the first falls on the given day. */
  ghost predicate DayClash(l: seq<Parsed>, day: string) {
    exists i, j :: 0 <= i < j < |l| && Clash(l[i], l[j]) && l[i].day == day
  }

  /** A day's clashes in a longer list: the earlier ones, plus those with
      the new entry when it falls on that day. */
  lemma DayClashSnoc(l: seq<Parsed>, x: Parsed, day: string)
    ensures DayClash(l + [x], day) <==> DayClash(l, day) || (x.day == day && ClashesWith(l, x))
  {
    var m := l + [x];
    if DayClash(m, day) {
      var i, j :| 0 <= i < j < |m| && Clash(m[i], m[j]) && m[i].day == day;
      if j < |l| {
        assert Clash(l[i], l[j]) && l[i].day == day;
      } else {
        assert Clash(l[i], x);
      }
    }
    if DayClash(l, day) {
      var i, j :| 0 <= i < j < |l| && Clash(l[i], l[j]) && l[i].day == day;
      assert Clash(m[i], m[j]) && m[i].day == day;
    }
    if x.day == day && ClashesWith(l, x) {
      var i :| 0 <= i < |l| && Clash(l[i], x);
      assert Clash(m[i], m[|l|]) && m[i].day == day;
    }
  }

  /** An entry of the given day clashes with some entry of that day's group
      exactly when it clashes with some entry of the list. */
  lemma ClashesWithGroup(l: seq<Parsed>, x: Parsed, day: string)
    requires x.day == day
    ensures ClashesWith(Group(l, day), x) <==> ClashesWith(l, x)
  {
    var g := Group(l, day);
    if ClashesWith(g, x) {
      var i :| 0 <= i < |g| && Clash(g[i], x);
      GroupMembers(l, day, g[i]);
      var k :| 0 <= k < |l| && l[k] == g[i];
      assert Clash(l[k], x);
    }
    if ClashesWith(l, x) {
      var k :| 0 <= k < |l| && Clash(l[k], x);
      GroupMembers(l, day, l[k]);
      var i :| 0 <= i < |g| && g[i] == l[k];
      assert Clash(g[i], x);
    }
  }

  /** The clashes within one day's group are the clashes of the whole list
      whose first slot falls on that day. */
  lemma {:induction false} GroupClash(l: seq<Parsed>, day: string)
    ensures HasClash(Group(l, day)) <==> DayClash(l, day)
  {
    if |l| == 0 {
      return;
    }
    var init := l[..|l| - 1];
    var x := l[|l| - 1];
    assert l == init + [x];
    GroupClash(init, day);
    DayClashSnoc(init, x, day);
    if x.day == day {
      ClashSnoc(Group(init, day), x);
      ClashesWithGroup(init, x, day);
    }
  }

  /** hasTimetableConflict reports a conflict exactly when two of the
      parsed schedules clash, whatever order the courses come in. */
  lemma ConflictMeansClash(schedules: seq<Option<string>>)
    ensures HasTimetableConflict(schedules) <==> HasClash(ParseAll(schedules))
  {
    var p := ParseAll(schedules);
    forall k | 0 <= k < |p|
      ensures AdjacentConflict(SortBy(Group(p, p[k].day), StartKey)) <==> HasClash(Group(p, p[k].day))
    {
      var g := Group(p, p[k].day);
      var sorted := SortBy(g, StartKey);
      assert Proper(sorted) by {
        forall i | 0 <= i < |sorted|
          ensures sorted[i].start < sorted[i].end && sorted[i].day == p[k].day
        {
          assert sorted[i] in multiset(g);
        }
      }
      assert forall i :: 0 <= i < |sorted| ==> sorted[i].day == p[k].day by {
        forall i | 0 <= i < |sorted|
          ensures sorted[i].day == p[k].day
        {
          assert sorted[i] in multiset(g);
        }
      }
      AdjacentFindsEveryClash(sorted, p[k].day);
      if HasClash(g) {
        ClashSurvivesPermutation(g, sorted);
      }
      if HasClash(sorted) {
        ClashSurvivesPermutation(sorted, g);
      }
    }
    if HasClash(p) {
      var i, j :| 0 <= i < j < |p| && Clash(p[i], p[j]);
      GroupClash(p, p[i].day);
      assert DayClash(p, p[i].day);
    }
    if HasTimetableConflict(schedules) {
      var k :| 0 <= k < |p| && AdjacentConflict(SortBy(Group(p, p[k].day), StartKey));
      GroupClash(p, p[k].day);
    }
  }
}
